=== FILE: README.md ===
# HP-12C engine in Dafny

A model of the `Calculator` engine of a desktop HP-12C emulator. The engine
receives one key label at a time and holds the following state:

- a four-level RPN stack X, Y, Z, T;
- an entry buffer for the number being typed, with `,` as the decimal mark and an
  optional exponent typed after EEX;
- four modes: the f and g shifts, and STO and RCL waiting for a register digit;
- a display format of 0 to 9 places;
- ten storage registers;
- the five financial registers n, i, PV, PMT and FV;
- the six statistics accumulators.

The whole engine is one immutable record, `Calculator.State`.

`Calculator.PressKey` is the key handler. It works in three steps:

1. It routes a key through the STO and RCL modes.
2. It routes the key through the f and g label tables (`Keys.FTable`, `Keys.GTable`).
3. `Calculator.Execute` runs the label.

The label handlers live in their own modules:

- `Stack`: the four-slot stack primitives.
- `Entry`: typing, CHS, EEX, CLx and committing the typed text.
- `Display`: the display text.
- `Operators`: arithmetic and percentages.
- `Statistics`: Σ+, CLΣ, x̄ and s.
- `Dates` over `Calendar`: ΔDYS and DATE.
- `Depreciation`: SL, SOYD and DB.
- `Tvm`: the time-value-of-money keys.

`Session.PressAll` runs a whole sequence of keys.

Values are `Numbers.Num`, either an exact real or `NaN`. The display shows `NaN` as
"Error". A handler input that would make the program raise is excluded by a
precondition:

- a NaN in an ordering comparison;
- `int` of a NaN;
- `0 ** 0`;
- a number divided by zero;
- a date value whose year field is 2^31 or more. `datetime.date` reads its fields as
  C ints and raises `OverflowError`, and the date decoder does not catch it
  (`Dates.DecodeDefined`). An integer part of more than 4300 digits is not
  excluded: `str` raises a `ValueError` on it first (CPython's default
  `int_max_str_digits`), and the decoder catches that.

These preconditions are `Calculator.Defined` and `Calculator.KeyDefined`.

Transcendental values are parameters (`Numbers.Transcendentals`): the real power,
the square root and the natural logarithm.

Every property is stated for exact arithmetic.

The rate solver and the other four financial keys do not solve the same
equation. The residual that the i key drives to zero (`Tvm.Residual`,
calculator.py:714-718) multiplies the payment term by `(1 + rate/12)`. The
closed forms for FV, PV, PMT and n (calculator.py:664-697) have no such
factor. `Tvm.ResidualDiffersFromBalance` gives registers that those closed
forms balance at rate 0.1 while the residual there is not zero. The model
follows the code as written: `Tvm.SolveRate` searches for a zero of the
residual, factor included.

## Model

| member | source | states |
|---|---|---|
| Stack.Push | calculator.py:312-313 | the new stack is the pushed value followed by the first three slots of the old one |
| Stack.Pop | calculator.py:315-318 | the result is the old X, and the stack becomes the old slots 1..3 with T copied into the top |
| Stack.RollDown | calculator.py:320-322 | R↓ rotates the list left by one: `[Y, Z, T, X]` |
| Stack.Swap | calculator.py:324-326 | x<>y exchanges slots 0 and 1 and leaves slots 2 and 3 alone |
| Stack.PushThenPop | calculator.py:312-318 | a push followed by a pop returns the pushed value, loses T and duplicates Z |
| Stack.RollDownFourTimes | calculator.py:320-322 | four R↓ are the identity, and one R↓ changes the stack whenever X differs from Y |
| Stack.SwapInvolutive | calculator.py:324-326 | x<>y twice is the identity, and it never touches Z or T |
| Stack.PopTwice | calculator.py:392-394 | two drops return Y and leave `[Z, T, T, T]` |
| Stack.PopsSaturateAtT | calculator.py:617-622 | after three drops every slot is T, so the fourth and fifth drops of DB both return T |
| Entry.TypeChar | calculator.py:345-360 | typing into the mantissa starts a fresh buffer when idle (a leading `,` becomes `0,`) and never creates a second `,`; in exponent mode the mantissa is kept and exponent text stops at two characters |
| Entry.ChangeSign | calculator.py:373-380 | CHS while typing toggles a leading `-` on the exponent in exponent mode, otherwise on the mantissa; it never prefixes `-` to a text that is exactly "0" |
| Entry.StartExponent | calculator.py:384-389 | EEX enters exponent mode with exponent "0", keeping the typed mantissa or starting from "0" |
| Entry.Abandon | calculator.py:366-369 | CLx while typing stops typing and resets the buffer to "0" without touching the exponent fields |
| Entry.ParseUnsignedAccepts | calculator.py:287-302 | `Decimal` accepts an unsigned plain text exactly when it is digits with at most one `.` and at least one digit |
| Entry.ParseWhole | calculator.py:287-302 | digits alone read as the integer they spell |
| Entry.ParsePointed | calculator.py:287-302 | digits, a `.` and digits read as the whole part plus the fraction digits over ten to their count |
| Entry.Finalize | calculator.py:280-309 | after committing, no number is being typed; when nothing was being typed nothing changes; a parsing text pushes its value; a failure means the text did not parse; a commit ends exponent mode |
| Entry.FinalizeIdempotent | calculator.py:280-309 | committing twice is the same as committing once |
| Entry.ChangeSignNegates | calculator.py:373-380 | CHS on the mantissa negates the value it commits |
| Entry.ChangeSignTwice | calculator.py:373-380 | CHS twice restores the text, except for "-0" and texts that already start with two minus signs |
| Entry.TypingDigits | calculator.py:345-360 | typing a run of digits from idle leaves exactly those digits in the buffer, and committing pushes their value |
| Entry.DigitsParse | calculator.py:287-302 | a plain digit string parses to the number it spells |
| Entry.ExponentEntry | calculator.py:384-389 | digits, EEX and one exponent digit `c` commit the digits' value times ten to `c`, since EEX seeds the exponent with "0"; a further digit is ignored |
| Text.Digits | calculator.py:532 | `str(k)` is a digit string with no leading zero that spells `k` |
| Text.PyInt | calculator.py:533-535 | `int(s)` succeeds exactly on an optional minus followed by at least one digit |
| Text.ZFill | calculator.py:142 | a text at least as wide as the width is kept; otherwise zeros fill it to the width, placed after a leading sign and before everything else |
| Text.DigitsUnique | calculator.py:532-535 | a digit string without a leading zero is the `str` of its value |
| Display.GroupThousandsIsGrouped | calculator.py:89-95 | the reverse, chunk and reverse grouping equals grouping in threes from the right |
| Display.GroupedDeletesBack | calculator.py:89-95 | deleting the group separators from a grouped text gives the text back |
| Display.GroupedShape | calculator.py:89-95 | a grouped digit string has a leading group of one to three digits, then `.` plus three digits per group |
| Display.RoundHalfEven | calculator.py:76 | the rounded integer is within one half of the value, and is even on a tie |
| Display.Scaled | calculator.py:76 | the printed magnitude is within one half of the magnitude of r times 10^d |
| Display.FixedPointParts | calculator.py:76-102 | the display of a number is its sign, its grouped integer digits, and `,` plus the fraction digits when places > 0 |
| Display.FormatNumberShape | calculator.py:70-102 | the display is "Error" exactly for NaN; otherwise an optional `-`, integer digits grouped in threes, and a `,` with exactly `d` digits only when `d > 0` |
| Display.FormatNotError | calculator.py:70-102 | a number never displays as "Error" |
| Display.FormatNumberReadsBack | calculator.py:70-102 | reading the display back (dots deleted, `,` read as the point) gives a value within half a unit of the last shown place |
| Display.FormatEntryDeletesBack | calculator.py:104-134 | deleting every `.` from the formatted entry gives back the entry buffer |
| Operators.Apply | calculator.py:396-402 | an operator yields NaN exactly when one of its operands is NaN |
| Operators.Binary | calculator.py:392-403 | ÷ by zero leaves `[NaN, T, T, T]`, consuming Y; otherwise the result of `Y ∘ X` sits over `[Z, T, T]` |
| Operators.Commutes | calculator.py:396-398 | + and × give the same stack after x<>y |
| Operators.MinusAnticommutes | calculator.py:397 | after x<>y, − gives the negated difference on the same stack |
| Operators.InverseUndoes | calculator.py:396-402 | − undoes +, and ÷ undoes × for a non-zero X, once X is lifted again |
| Operators.PowerOf | calculator.py:406-414 | y^x lifts the power of Y to X over `[Z, T, T]`, or NaN for a NaN operand |
| Operators.ReciprocalOf | calculator.py:417-423 | 1/x replaces X in place, with NaN for zero |
| Operators.ReciprocalInvolutive | calculator.py:417-423 | 1/x twice restores the stack unless X was zero, which ends as NaN |
| Operators.SqrtOf | calculator.py:426-432 | √x replaces X in place, and X becomes NaN exactly when it was negative |
| Operators.SqrtThenSquare | calculator.py:426-432 | with an exact root, √x, ENTER, × gives X back over Y and Z |
| Operators.PercentOf | calculator.py:435-440 | % lifts `Y·X/100` over `[Z, T, T]`, with NaN exactly when an operand is NaN |
| Operators.PercentChange | calculator.py:443-452 | Δ% with zero Y leaves `[NaN, T, T, T]`; otherwise it lifts `(X − Y)/Y·100` over `[Z, T, T]` |
| Operators.PercentOfChange | calculator.py:435-452 | Y plus Δ% percent of Y is X again |
| Statistics.SigmaPlus | calculator.py:461-475 | Σ+ raises the count by one, adds X, X², Y, Y² and XY to the sums, and lifts the new count |
| Statistics.Mean | calculator.py:477-484 | x̄ puts NaN in X without lifting when there is no data; otherwise it lifts Σx / n |
| Statistics.StdDev | calculator.py:486-508 | s puts NaN in X without lifting when there are fewer than two points or the variance is NaN or negative; otherwise it lifts the root of the sample variance |
| Statistics.AccumulateTotals | calculator.py:461-472 | from cleared sums, the count is the number of points and each sum totals its term over them |
| Statistics.MeanOfPoints | calculator.py:477-484 | x̄ after a non-empty list of points is their average x |
| Statistics.StdDevOfConstant | calculator.py:486-508 | s over at least two points with a single x value is the root of zero |
| Statistics.VarianceOfConstant | calculator.py:494-500 | the variance formula gives zero when all x values are equal |
| Statistics.SigmaPlusAddsPoint | calculator.py:461-472 | Σ+ on numeric X and Y gives the accumulators of the points with `(X, Y)` appended |
| Calendar.DaysInMonth | calculator.py:541 | every month has 28 to 31 days |
| Calendar.FromOrdinal | calculator.py:580 | the date found for an ordinal in range is valid and has that ordinal |
| Calendar.OrdinalRoundTrip | calculator.py:580 | every valid date has an ordinal from 1 to that of 9999-12-31, and converting it back gives the date |
| Dates.Slice | calculator.py:533-534 | a slice with clamped bounds has the clamped length and the characters of the original |
| Dates.Tail | calculator.py:535 | a tail slice with a clamped start has the characters of the original |
| Dates.DecodeDate | calculator.py:512-543 | a decoded date is always a valid calendar date |
| Dates.DecodedIsDefined | calculator.py:532-543 | every value that decodes to a date is one the decoder handles without `OverflowError` |
| Dates.YearOverflowRaises | calculator.py:532-541 | a `DDMMY…` integer whose year field is 2^31 or more, with at most 4300 digits, falls outside `DecodeDefined`: `datetime.date` raises on it |
| Dates.DecodeText | calculator.py:532-541 | the decoded fields of a date text form a valid calendar date |
| Dates.DateOf | calculator.py:537-541 | the fields, with a year below 100 read as 19xx, form a valid calendar date whenever a date results |
| Dates.EncodeDate | calculator.py:545-549 | the written date value lies in `[day, day + 1)` |
| Dates.EncodeDateReadsText | calculator.py:545-549 | the written value is what `Decimal` reads from the day and month padded to two digits, a point, and the year's digits |
| Dates.EncodeDateRoundTrip | calculator.py:545-549 | for a four-digit year the integer part gives back the day, the next two decimals the month and the four after them the year |
| Dates.ShiftDate | calculator.py:580-584 | moving a date succeeds exactly when the target ordinal is in range, and then lands the given number of days away |
| Dates.ShiftByDifference | calculator.py:564-580 | moving a date by its day difference to another date reaches the other date |
| Dates.DeltaDays | calculator.py:551-565 | ΔDYS lifts the day count from the date in Y to the date in X over `[Z, T, T]`, or leaves `[NaN, T, T, T]` when either value does not decode; both values must not overflow the decoder |
| Dates.DateCalc | calculator.py:567-584 | DATE lifts the date in Y moved by `int(X)` days, or leaves `[NaN, T, T, T]` when Y does not decode or the result is out of range; Y must not overflow the decoder |
| Dates.DeltaDaysSwap | calculator.py:551-565 | exchanging the two dates negates ΔDYS, and a failure stays a failure |
| Dates.DateCalcZeroDays | calculator.py:567-581 | DATE with zero days writes the start date itself |
| Dates.NegativeNeverDecodes | calculator.py:532-541 | a value with a negative integer part never decodes |
| Dates.ShortNeverDecodes | calculator.py:532-535 | a value whose integer text has fewer than five characters never decodes |
| Dates.DecodedDayAtLeastTen | calculator.py:532-541 | a value that decodes is at least 10000 and gives a day of at least 10 |
| Dates.EncodedDateDoesNotDecode | calculator.py:545-549 | the value DATE writes never decodes back to a date |
| Dates.DecodeDigitFields | calculator.py:532-541 | the integer typed as `dd mm y…` decodes through those three fields |
| Dates.DecodeDigitForm | calculator.py:532-541 | a date with a two-digit day and a four-digit year, typed as `DDMMYYYY`, decodes to itself |
| Depreciation.StraightLine | calculator.py:596 | one year's straight-line amount times the life, plus salvage, is the cost |
| Depreciation.SL | calculator.py:587-597 | SL gives NaN for a zero life or a NaN operand; otherwise it lifts the straight-line amount over `[T, T, T]` |
| Depreciation.SOYD | calculator.py:599-613 | SOYD gives NaN when its guard rejects; otherwise it lifts the base times the period's share over `[T, T, T]` |
| Depreciation.SharesClosedForm | calculator.py:609-612 | the shares of periods 1..k add up to `k(2L − k + 1)/2` |
| Depreciation.SoydTotalIsShare | calculator.py:609-612 | the amounts of periods 1..k add up to the base times their combined share |
| Depreciation.SoydSumsToBase | calculator.py:609-612 | over a whole natural life the SOYD amounts add up to cost minus salvage |
| Depreciation.DbPeriod | calculator.py:636-641 | one period never takes the book value below salvage, and takes `book·rate` unless clamped to salvage |
| Depreciation.DecliningBalance | calculator.py:627-643 | the loop with its early break computes the amount of the requested period; the book value it ends with is the one `DbBook` describes, and it never falls below salvage when the cost starts at or above it |
| Depreciation.DbBookAboveSalvage | calculator.py:630-641 | a book value that starts at or above salvage never ends below it |
| Depreciation.DbNothingBelowSalvage | calculator.py:632-634 | a cost at or below salvage depreciates by nothing |
| Depreciation.DB | calculator.py:615-643 | DB gives NaN when its guards reject; otherwise it lifts 0, because cost and salvage are both T |
| Tvm.Set | calculator.py:704 | writing one financial register leaves the other four unchanged |
| Tvm.Growth | calculator.py:668 | `(1 + i)^n` is NaN exactly when an operand is NaN |
| Tvm.Annuity | calculator.py:668 | the annuity factor is NaN exactly when an operand is NaN |
| Tvm.Secant | calculator.py:726-741 | a converged run has a residual within tolerance, a settled run moved by less than the tolerance, and no rounds left means exhausted |
| Tvm.SolveRate | calculator.py:707-741 | the bounded loop computes the secant iteration from 0.5% and 1% for 100 rounds |
| Tvm.RatePercent | calculator.py:698-711 | i is NaN for `n <= 0`; a value is a converged or settled rate times 100 |
| Tvm.LogPeriods | calculator.py:686-697 | rejected exactly when `PV·i + PMT` is zero, the ratio `(PMT − FV·i)/(PV·i + PMT)` is not positive, `1 + i` has no logarithm, or that logarithm is zero; a solved n satisfies `n·ln(1 + i) = ln(ratio)` |
| Tvm.FutureValue | calculator.py:664-668 | FV is NaN exactly when n, i, PV or PMT is |
| Tvm.PresentValue | calculator.py:669-673 | PV is NaN exactly when n, i, FV or PMT is |
| Tvm.Payment | calculator.py:674-681 | PMT is rejected exactly when there are no periods without interest, or the annuity factor is zero with interest |
| Tvm.Periods | calculator.py:682-697 | without interest, n is rejected exactly when PMT is zero; with interest a zero `PV·i + PMT` is rejected whatever FV holds, n is rejected exactly on the four exits of the logarithmic form, and a solved n satisfies the logarithmic relation with a numeric FV |
| Tvm.NanFutureValuePeriods | calculator.py:686-697 | with interest and a NaN FV, n runs without raising exactly when `PV·i + PMT` is zero, and then writes NaN to X and no register |
| Tvm.Solve | calculator.py:657-702 | FV, PV and i always produce a value |
| Tvm.FinOp | calculator.py:649-705 | a financial key stores the typed X, or writes the solved value to its register and X, or writes NaN to X and no register; no other register changes |
| Tvm.FutureValueIs | calculator.py:664-668 | on numeric registers FV computes the closed form |
| Tvm.PresentValueIs | calculator.py:669-673 | on numeric registers PV computes the closed form |
| Tvm.FvOfBalances | calculator.py:664-668 | the closed-form FV is the one future value that balances the other four quantities |
| Tvm.PvOfBalances | calculator.py:669-673 | the closed-form PV is the one present value that balances the other four quantities |
| Tvm.SolveFvBalances | calculator.py:664-668 | solving for FV yields `v` exactly when `v` balances the registers |
| Tvm.SolvePvBalances | calculator.py:669-673 | solving for PV yields `v` exactly when `v` balances the registers |
| Tvm.SolvePmtBalances | calculator.py:674-681 | a payment PMT finds balances the registers |
| Tvm.SolveNWithoutInterest | calculator.py:682-685 | without interest, the n that is found balances the registers |
| Tvm.FvThenPv | calculator.py:664-673 | computing FV, then PV from it, gives back the original PV |
| Tvm.ResidualDiffersFromBalance | calculator.py:714-718 | the rate solver's residual is not zero at a rate where the closed forms balance |
| Tvm.ResidualAtZero | calculator.py:714-716 | at a zero rate the residual vanishes exactly when the registers balance |
| Keys.FTableKeys | constants.py:49-99 | every key with an f label is a key on the face |
| Keys.FTableValues | constants.py:49-99 | no f label is a shift, a digit, `,`, ON, STO or a financial key |
| Keys.GTableKeys | constants.py:49-99 | every key with a g label is a key on the face |
| Keys.GTableValues | constants.py:49-99 | no g label is a shift, a digit, `,`, ON, STO, RCL or a financial key |
| Keys.KeysWithoutFLabel | constants.py:49-99 | digits 0 to 7, the operators, ON, f, g, CLx, `,` and `.` have no f label |
| Keys.KeysWithoutGLabel | constants.py:49-99 | digits 0 to 6, the operators other than ÷, ON, f, g, CLx, `,` and `.` have no g label |
| Calculator.Reset | calculator.py:238-251 | ON keeps the storage and financial registers and preserves the engine invariant |
| Calculator.ResetForgets | calculator.py:238-251 | ON depends only on the storage and financial registers, is idempotent, and gives the constructed state when those are zero |
| Calculator.Finalize | calculator.py:280-309 | committing changes only the stack and entry; it pushes a parsed value, or writes NaN to X for text that does not parse |
| Calculator.FinKeyPress | calculator.py:645-705 | a financial key changes only its own register and X, lifting only a typed value |
| Calculator.Execute | calculator.py:185-235 | no label writes the storage registers; only ON changes the format; only the financial keys change their registers; only the mode keys change the modes; unhandled labels change nothing |
| Calculator.Store | calculator.py:329-334 | a STO digit commits the entry and copies X into that register only |
| Calculator.Recall | calculator.py:336-342 | an RCL digit commits the entry and lifts the register |
| Calculator.Shifted | calculator.py:172-181 | a key with no shifted label does nothing |
| Calculator.PressKey | calculator.py:149-183 | the invariant survives; storage changes only through a STO digit; financial registers only through an unshifted financial key; f and g are cleared once used |
| Calculator.GetDisplay | calculator.py:136-147 | when not typing, the display is "Error" exactly for NaN; while typing a mantissa in a state meeting the invariant, deleting its dots gives the buffer; in exponent mode the display is that formatted mantissa, a space and the exponent zero-filled to two places, for exponents of any length |
| Calculator.FDigitSetsFormat | calculator.py:166-170 | with f armed a digit only sets the format, so the f labels SL and SOYD over 8 and 9 are never run |
| Calculator.StoDigitsStayArmed | calculator.py:154-156 | a STO digit stores X and leaves STO armed, so a second digit stores X again |
| Calculator.RclDigitsStayArmed | calculator.py:157-159 | an RCL digit lifts the register and leaves RCL armed, so a second digit lifts another |
| Calculator.EnterDuplicates | calculator.py:362-364 | ENTER always lifts X: a typed number ends in both X and Y |
| Calculator.TypedOperand | calculator.py:392-403 | after typing, an operator takes the typed value as X; a typed zero divisor leaves NaN over the old Z |
| Calculator.OnKeepsRegisters | calculator.py:238-251 | ON zeroes the stack and the sums, restores two places and clears the modes, but keeps storage and financial registers |
| Calculator.ClxAbandonsTyping | calculator.py:366-369 | CLx while typing keeps the stack, so ENTER then duplicates the old X |
| Calculator.MeanKeepsTyping | calculator.py:477-484 | g 8 (x̄) leaves the entry being typed uncommitted |
| Calculator.StdDevKeepsTyping | calculator.py:486-508 | g 9 (s) leaves the entry being typed uncommitted |
| Calculator.ClearSigmaKeepsTyping | calculator.py:455-459 | f Σ+ (CLΣ) clears the sums and changes nothing else |
| Calculator.FinKeyStoresTyped | calculator.py:649-655 | a financial key right after typing stores the typed value in its register only |
| Calculator.FinKeyComputes | calculator.py:656-705 | a financial key without typing writes only its register and X; a rejected guard writes NaN and no register |
| Session.PressAll | calculator.py:149-183 | over any run of keys the invariant (one mode at most, 0 to 9 places, ten registers, a buffer with no `.` and one `,` at most) survives; storage changes only via digits and financial registers only via financial keys |
| Session.Reachable | calculator.py:253-278 | every state reachable from construction has at most one mode armed, a format of 0 to 9 places and at most one `,` in the buffer, and while a mantissa is typed the display is the buffer with only grouping dots added |

## Left out

- Decimal's 28-digit rounding context. Arithmetic is exact, so every property holds for
  exact reals.
- Decimal's negative zero. `-0` and `0` are the same real here, so the sign a
  negative zero would print is not modelled.
- The values of `y ** x` for arbitrary exponents, `Decimal.sqrt` and `math.log`. They
  are parameters of the model.
- Tvm.GrowthDefined: only a natural period count n is modelled in `(1 + i) ** n`.
  A fractional or negative n with interest is excluded by the financial keys'
  precondition.
- Raising inputs are preconditions, not crashes. These cover NaN in an ordering
  comparison, `int(NaN)`, `0 ** 0` and a number divided by zero. They are stated by
  `Calculator.Defined` and `Calculator.KeyDefined`.
- The `datetime` library. `Calendar` is an own proleptic Gregorian day count for
  years 1 to 9999. A result out of that range gives NaN, as `OverflowError` does.
- `print` diagnostics, the pygame window, the key geometry of constants.py and the
  event loop of main.py and ui.py.
- Entry.EntryValue: the stripping of a trailing `.` before parsing is not modelled.
  Every `Decimal` text with a trailing `.` has the value it has without it.
- Calculator.PressKey: key names other than the labels of the layout are not
  modelled.
- The `,` key exists as a label with a handler (`Keys.Comma`), but the layout has no
  key for it. The `.` key has no handler and does nothing (`Keys.Inert`).
- The error buffer text "Error" is checked by typing and formatting but never
  written by the engine. It is modelled as an ordinary buffer value.

=== FILE: calculator.dfy ===
/** The engine: the whole calculator as one immutable record, what
    executing one label does to it, and `PressKey`, which first routes a key
    through the STO, RCL, f and g modes. */
module Calculator {
  import opened Numbers
  import opened Text
  import opened Keys
  import Stack
  import Entry
  import Display
  import Operators
  import Statistics
  import Dates
  import Depreciation
  import Tvm

  /** Everything the engine keeps between key presses.  The four mode flags
      are the source's `f_active`, `g_active`, `sto_active`, `rcl_active`. */
  datatype State = State(
    stack: Stack.Stack,
    entry: Entry.Entry,
    fActive: bool,
    gActive: bool,
    stoActive: bool,
    rclActive: bool,
    decimals: nat,
    storage: seq<Num>,
    fin: Tvm.FinRegs,
    stats: Statistics.Stats)

  predicate NoFlags(s: State) {
    !s.fActive && !s.gActive && !s.stoActive && !s.rclActive
  }

  /** At most one mode is armed. */
  predicate AtMostOneFlag(s: State) {
    (if s.fActive then 1 else 0) + (if s.gActive then 1 else 0) +
    (if s.stoActive then 1 else 0) + (if s.rclActive then 1 else 0) <= 1
  }

  /** What every reachable state satisfies: one mode at most, a display
      format of 0 to 9 places, the ten storage registers, and an entry
      buffer with no `.` and at most one `,`. */
  predicate Invariant(s: State) {
    AtMostOneFlag(s) && s.decimals <= 9 && |s.storage| == 10 && Entry.WellFormed(s.entry)
  }

  /** ON: stack, entry, modes, display format and statistics back to their
      starting values; the storage and financial registers survive. */
  function Reset(s: State): (r: State)
    ensures r.storage == s.storage && r.fin == s.fin
    ensures Invariant(s) ==> Invariant(r)
  {
    State(Stack.Zeroed, Entry.Idle, false, false, false, false, 2, s.storage, s.fin, Statistics.ZeroStats)
  }

  /** The state after construction: ten zero storage registers, zero
      financial registers, then ON. */
  const Initial: State :=
    Reset(State(Stack.Zeroed, Entry.Idle, false, false, false, false, 2,
      seq(10, _ => Val(0.0)), Tvm.ZeroRegs, Statistics.ZeroStats))

  /** ON forgets everything except the storage and financial registers:
      two states that agree on those reset to the same state, which is the
      one construction produces when they are zero. */
  lemma ResetForgets(s: State, t: State)
    requires s.storage == t.storage && s.fin == t.fin
    ensures Reset(s) == Reset(t)
    ensures Reset(Reset(s)) == Reset(s)
    ensures s.storage == Initial.storage && s.fin == Initial.fin ==> Reset(s) == Initial
  {
  }

  /** `_finalize_entry` on the whole state: the typed value is lifted, or
      X becomes NaN when the text does not parse.  Only the stack and the
      entry can change. */
  function Finalize(s: State): (r: State)
    ensures !r.entry.entering
    ensures r.(stack := s.stack, entry := s.entry) == s
    ensures !s.entry.entering ==> r == s
    ensures s.entry.entering && s.entry.buffer != "-" && Entry.EntryValue(s.entry).Some? ==>
      r.stack == Stack.Push(s.stack, Val(Entry.EntryValue(s.entry).value))
    ensures (s.entry.entering && s.entry.buffer != "" && s.entry.buffer != "-" &&
      Entry.EntryValue(s.entry).None?) ==> r.stack == s.stack.(x := NaN)
  {
    var (e, c) := Entry.Finalize(s.entry);
    match c
    case Kept => s.(entry := e)
    case Pushed(v) => s.(entry := e, stack := Stack.Push(s.stack, Val(v)))
    case Failed => s.(entry := e, stack := Stack.SetX(s.stack, NaN))
  }

  /** The labels whose handler finalizes the entry and then only rewrites
      the stack. */
  predicate RewritesStack(t: Token) {
    t.Enter? || t.Op? || t.SwapXY? || t.RollDown? || t.Power? || t.Reciprocal? || t.Sqrt? ||
    t.Percent? || t.PercentDelta? || t.SL? || t.SOYD? || t.DB? || t.DeltaDays? || t.Date?
  }

  /** Those handlers run without raising on the finalized stack `c`: an
      ordering comparison on NaN, `int(NaN)` or a date whose year field
      overflows `datetime.date` is the only way they fail. */
  predicate StackDefined(t: Token, c: Stack.Stack) {
    match t
    case Sqrt => c.x.Val?
    case SOYD => Depreciation.SoydDefined(c)
    case DB => Depreciation.DbDefined(c)
    case DeltaDays => Dates.DecodeDefined(c.x) && Dates.DecodeDefined(c.y)
    case Date => Dates.DecodeDefined(c.y) && (Dates.DecodeDate(c.y).Some? ==> c.x.Val?)
    case _ => true
  }

  /** What one of those handlers leaves on the finalized stack `c`. */
  function StackKey(t: Token, c: Stack.Stack, tr: Transcendentals): Stack.Stack
    requires RewritesStack(t) && StackDefined(t, c)
  {
    match t
    case Enter => Stack.Push(c, c.x)
    case Op(op) => Operators.Binary(op, c)
    case SwapXY => Stack.Swap(c)
    case RollDown => Stack.RollDown(c)
    case Power => Operators.PowerOf(c, tr.power)
    case Reciprocal => Operators.ReciprocalOf(c)
    case Sqrt => Operators.SqrtOf(c, tr.sqrt)
    case Percent => Operators.PercentOf(c)
    case PercentDelta => Operators.PercentChange(c)
    case _ => LedgerKey(t, c)
  }

  /** The depreciation and date keys among them. */
  function LedgerKey(t: Token, c: Stack.Stack): Stack.Stack
    requires StackDefined(t, c)
  {
    match t
    case SL => Depreciation.SL(c)
    case SOYD => Depreciation.SOYD(c)
    case DB => Depreciation.DB(c)
    case DeltaDays => Dates.DeltaDays(c)
    case Date => Dates.DateCalc(c)
    case _ => c
  }

  /** When executing a label runs without raising in the source. */
  predicate Defined(s: State, t: Token) {
    (RewritesStack(t) ==> StackDefined(t, Finalize(s).stack)) &&
    (t.Fin? ==> s.entry.entering || Tvm.Computable(s.fin, t.k))
  }

  /** `_handle_fin_op`: right after typing, X is stored in the register;
      otherwise the register is solved for and the result written to it
      and to X, or NaN is written to X alone. */
  function FinKeyPress(s: State, k: Tvm.FinKey, ln: real -> real): (r: State)
    requires s.entry.entering || Tvm.Computable(s.fin, k)
    ensures r.(stack := s.stack, entry := s.entry, fin := s.fin) == s
    ensures forall j :: j != k ==> Tvm.Get(r.fin, j) == Tvm.Get(s.fin, j)
    ensures r.stack == Finalize(s).stack.(x := r.stack.x)
    ensures s.entry.entering ==> Tvm.Get(r.fin, k) == r.stack.x
    ensures !s.entry.entering ==> (r.fin == s.fin && r.stack.x == NaN) || Tvm.Get(r.fin, k) == r.stack.x
  {
    var c := Finalize(s);
    var (fin, x) := Tvm.FinOp(c.fin, c.stack.x, k, s.entry.entering, ln);
    c.(fin := fin, stack := Stack.SetX(c.stack, x))
  }

  /** `_execute_function` for one label.  The handlers that do not begin by
      finalizing are those of the digits, `,`, CHS, ON, f, g, CLx, STO, RCL,
      CLΣ, x̄, s and EEX.  No label writes the storage registers, only ON
      changes the display format, only the financial keys touch their
      registers, and only f, g, STO, RCL and ON touch the modes. */
  function Execute(s: State, t: Token, tr: Transcendentals): (r: State)
    requires Defined(s, t)
    ensures r.storage == s.storage
    ensures !t.On? ==> r.decimals == s.decimals
    ensures !t.Fin? ==> r.fin == s.fin
    ensures !(t.FKey? || t.GKey? || t.Sto? || t.Rcl? || t.On?) ==>
      r.fActive == s.fActive && r.gActive == s.gActive &&
      r.stoActive == s.stoActive && r.rclActive == s.rclActive
    ensures AtMostOneFlag(s) && !s.stoActive && !s.rclActive ==> AtMostOneFlag(r)
    ensures Entry.WellFormed(s.entry) ==> Entry.WellFormed(r.entry)
    ensures t.Inert? ==> r == s
  {
    if RewritesStack(t) then StackPress(s, t, tr)
    else if t.Fin? then FinKeyPress(s, t.k, tr.ln)
    else OtherKey(s, t, tr)
  }

  /** The labels that neither rewrite the stack after finalizing nor are
      financial keys. */
  function OtherKey(s: State, t: Token, tr: Transcendentals): (r: State)
    requires !RewritesStack(t) && !t.Fin?
    ensures r.storage == s.storage && r.fin == s.fin
    ensures !t.On? ==> r.decimals == s.decimals
    ensures !(t.FKey? || t.GKey? || t.Sto? || t.Rcl? || t.On?) ==>
      r.fActive == s.fActive && r.gActive == s.gActive &&
      r.stoActive == s.stoActive && r.rclActive == s.rclActive
    ensures AtMostOneFlag(s) && !s.stoActive && !s.rclActive ==> AtMostOneFlag(r)
    ensures Entry.WellFormed(s.entry) ==> Entry.WellFormed(r.entry)
    ensures t.Inert? ==> r == s
  {
    match t
    case Digit(_) => EntryKey(s, t)
    case Comma => EntryKey(s, t)
    case Eex => EntryKey(s, t)
    case Chs => EntryKey(s, t)
    case Clx => EntryKey(s, t)
    case On => Reset(s)
    case FKey => s.(fActive := true, gActive := false)
    case GKey => s.(gActive := true, fActive := false, stoActive := false, rclActive := false)
    case Sto => s.(stoActive := true, rclActive := false, fActive := false, gActive := false)
    case Rcl => s.(rclActive := true, stoActive := false, fActive := false, gActive := false)
    case SigmaPlus => StatsKey(s, t, tr)
    case ClearSigma => StatsKey(s, t, tr)
    case Mean => StatsKey(s, t, tr)
    case StdDev => StatsKey(s, t, tr)
    case _ => s
  }

  /** A key that finalizes the entry and then only rewrites the stack. */
  function StackPress(s: State, t: Token, tr: Transcendentals): (r: State)
    requires RewritesStack(t) && StackDefined(t, Finalize(s).stack)
    ensures r.(stack := s.stack, entry := s.entry) == s
    ensures r.entry == Finalize(s).entry
  {
    var c := Finalize(s);
    c.(stack := StackKey(t, c.stack, tr))
  }

  /** The statistics keys: Σ+ finalizes and accumulates, CLΣ clears the
      sums, and x̄ and s read them without finalizing. */
  function StatsKey(s: State, t: Token, tr: Transcendentals): (r: State)
    requires t.SigmaPlus? || t.ClearSigma? || t.Mean? || t.StdDev?
    ensures r.(stack := s.stack, entry := s.entry, stats := s.stats) == s
    ensures r.entry.buffer == s.entry.buffer
  {
    match t
    case SigmaPlus =>
      var c := Finalize(s);
      var (st, stack) := Statistics.SigmaPlus(c.stats, c.stack);
      c.(stats := st, stack := stack)
    case ClearSigma => s.(stats := Statistics.ZeroStats)
    case Mean => s.(stack := Statistics.Mean(s.stats, s.stack))
    case StdDev => s.(stack := Statistics.StdDev(s.stats, s.stack, tr.sqrt))
  }

  /** The keys that edit the number being typed: a digit, `,`, EEX, and
      CHS and CLx, which act on X instead when nothing is being typed.
      Only the entry and X can change. */
  function EntryKey(s: State, t: Token): (r: State)
    requires t.Digit? || t.Comma? || t.Eex? || t.Chs? || t.Clx?
    ensures r.(entry := s.entry, stack := s.stack) == s
    ensures r.stack.y == s.stack.y && r.stack.z == s.stack.z && r.stack.t == s.stack.t
    ensures Entry.WellFormed(s.entry) ==> Entry.WellFormed(r.entry)
  {
    match t
    case Digit(d) => s.(entry := Entry.TypeChar(s.entry, DigitChar(d)))
    case Comma => s.(entry := Entry.TypeChar(s.entry, ','))
    case Eex => s.(entry := Entry.StartExponent(s.entry))
    case Chs =>
      if s.entry.entering then s.(entry := Entry.ChangeSign(s.entry))
      else s.(stack := Stack.SetX(s.stack, Neg(s.stack.x)))
    case Clx =>
      if s.entry.entering then s.(entry := Entry.Abandon(s.entry))
      else s.(stack := Stack.SetX(s.stack, Val(0.0)))
  }

  /** `_handle_sto` for register `d`: the entry is finalized and X copied
      into the register. */
  function Store(s: State, d: Numeral): (r: State)
    ensures r.(stack := s.stack, entry := s.entry, storage := s.storage) == s
    ensures |r.storage| == |s.storage|
    ensures d < |s.storage| ==> r.storage == s.storage[d := Finalize(s).stack.x]
    ensures r.stack == Finalize(s).stack
  {
    var c := Finalize(s);
    if d < |c.storage| then c.(storage := c.storage[d := c.stack.x]) else c
  }

  /** `_handle_rcl` for register `d`: the entry is finalized and the
      register's value lifted. */
  function Recall(s: State, d: Numeral): (r: State)
    ensures r.(stack := s.stack, entry := s.entry) == s
    ensures d < |s.storage| ==> r.stack == Stack.Push(Finalize(s).stack, s.storage[d])
  {
    var c := Finalize(s);
    if d < |c.storage| then c.(stack := Stack.Push(c.stack, c.storage[d])) else c
  }

  /** A shifted key: the label the table gives it is executed; a key with
      no label there does nothing. */
  function Shifted(s: State, table: map<Token, Token>, key: Token, tr: Transcendentals): (r: State)
    requires key in table ==> Defined(s, table[key])
    ensures key !in table ==> r == s
    ensures r.storage == s.storage
  {
    if key in table then Execute(s, table[key], tr) else s
  }

  /** When pressing `key` runs without raising. */
  predicate KeyDefined(s: State, key: Token) {
    var s1 := s.(stoActive := false, rclActive := false);
    if key.Digit? && (s.stoActive || s.rclActive) then true
    else if s.fActive then key.Digit? || key !in FTable || Defined(s1, FTable[key])
    else if s.gActive then key !in GTable || Defined(s1, GTable[key])
    else Defined(s1, key)
  }

  /** `press_key`.  A digit after STO or RCL goes to the register and the
      mode stays armed; any other key disarms both.  With f armed a digit
      sets the display format and anything else runs its f label; with g
      armed the key runs its g label; either way the shift is then cleared. */
  function PressKey(s: State, key: Token, tr: Transcendentals): (r: State)
    requires KeyDefined(s, key)
    ensures Invariant(s) ==> Invariant(r)
    ensures r.storage != s.storage ==> s.stoActive && key.Digit?
    ensures r.fin != s.fin ==> key.Fin? && !s.fActive && !s.gActive
    ensures s.fActive && !(key.Digit? && (s.stoActive || s.rclActive)) ==> !r.fActive
    ensures s.gActive && !s.fActive && !(key.Digit? && (s.stoActive || s.rclActive)) ==> !r.gActive
  {
    FTableKeys();
    FTableValues();
    GTableKeys();
    GTableValues();
    if s.stoActive && key.Digit? then Store(s, key.d)
    else if s.rclActive && key.Digit? then Recall(s, key.d)
    else
      var s1 := s.(stoActive := false, rclActive := false);
      if s1.fActive then
        if key.Digit? then s1.(decimals := key.d, fActive := false)
        else Shifted(s1, FTable, key, tr).(fActive := false)
      else if s1.gActive then Shifted(s1, GTable, key, tr).(gActive := false)
      else Execute(s1, key, tr)
  }

  /** The display in exponent mode: the formatted mantissa, a space and
      the exponent zero-filled to two places. */
  function ExponentDisplay(buffer: string, exponent: string): (r: string)
    ensures var z := ZFill(exponent, 2);
      |r| > |z| && r[|r| - |z|..] == z && r[|r| - |z| - 1] == ' ' &&
      ('.' !in buffer ==> Delete(r[..|r| - |z| - 1], '.') == buffer)
  {
    var m, z := Display.FormatEntry(buffer), ZFill(exponent, 2);
    var r := m + " " + z;
    assert r[..|r| - |z| - 1] == m && r[|r| - |z|..] == z;
    assert '.' !in buffer ==> Delete(m, '.') == buffer by {
      if '.' !in buffer {
        Display.FormatEntryDeletesBack(buffer);
      }
    }
    r
  }

  /** `get_display`: the typed text (with the exponent padded to two
      places after a space) while typing, otherwise X in the current
      format. */
  function GetDisplay(s: State): (r: string)
    ensures !s.entry.entering ==> (r == "Error" <==> s.stack.x.NaN?)
    ensures s.entry.entering && !s.entry.exponentMode && '.' !in s.entry.buffer ==>
      Delete(r, '.') == s.entry.buffer
    ensures Invariant(s) && s.entry.entering && !s.entry.exponentMode ==>
      Delete(r, '.') == s.entry.buffer
    ensures s.entry.entering && s.entry.exponentMode && |s.entry.exponent| <= 2 ==>
      |r| >= 3 && r[|r| - 3] == ' '
    ensures Invariant(s) && s.entry.entering && s.entry.exponentMode ==>
      var z := ZFill(s.entry.exponent, 2);
      |r| > |z| && r[|r| - |z|..] == z && r[|r| - |z| - 1] == ' ' &&
      Delete(r[..|r| - |z| - 1], '.') == s.entry.buffer
  {
    if s.entry.entering then
      if s.entry.exponentMode then
        assert Invariant(s) ==> '.' !in s.entry.buffer;
        ExponentDisplay(s.entry.buffer, s.entry.exponent)
      else
        var b := s.entry.buffer;
        assert '.' !in b ==> Delete(Display.FormatEntry(b), '.') == b by {
          if '.' !in b {
            Display.FormatEntryDeletesBack(b);
          }
        }
        Display.FormatEntry(b)
    else
      Display.FormatNumberShape(s.stack.x, s.decimals);
      Display.FormatNumber(s.stack.x, s.decimals)
  }

  // ---------------------------------------------------------------------
  // Behaviour of single key presses

  /** A number being typed and its value once committed. */
  predicate TypedValue(s: State, v: real) {
    s.entry.entering && s.entry.buffer != "-" && Entry.EntryValue(s.entry) == Some(v)
  }

  /** With f armed every digit is a display-format key: it sets the number
      of places and nothing else, so the f labels SL and SOYD printed over
      8 and 9 are never reached. */
  lemma FDigitSetsFormat(s: State, d: Numeral, tr: Transcendentals)
    requires s.fActive && !s.stoActive && !s.rclActive
    ensures PressKey(s, Digit(d), tr) == s.(fActive := false, decimals := d)
    ensures FTable[Digit(8)] == SL && FTable[Digit(9)] == SOYD
  {
  }

  /** A STO digit copies the committed X into the register and leaves STO
      armed, so a second digit stores the same X into a second register. */
  lemma StoDigitsStayArmed(s: State, a: Numeral, b: Numeral, tr: Transcendentals)
    requires s.stoActive && |s.storage| == 10
    ensures var r := PressKey(s, Digit(a), tr);
      r.stoActive && r.stack == Finalize(s).stack && r.storage == s.storage[a := r.stack.x]
    ensures var r := PressKey(PressKey(s, Digit(a), tr), Digit(b), tr);
      r.stoActive && r.storage == s.storage[a := r.stack.x][b := r.stack.x]
  {
    var r1 := PressKey(s, Digit(a), tr);
    assert r1 == Store(s, a);
    assert !r1.entry.entering;
    assert Finalize(r1) == r1;
  }

  /** An RCL digit lifts the register and leaves RCL armed, so a second
      digit lifts a second register on top of the first. */
  lemma RclDigitsStayArmed(s: State, a: Numeral, b: Numeral, tr: Transcendentals)
    requires s.rclActive && !s.stoActive && |s.storage| == 10
    ensures var r := PressKey(PressKey(s, Digit(a), tr), Digit(b), tr);
      r.rclActive && r.storage == s.storage &&
      r.stack == Stack.Push(Stack.Push(Finalize(s).stack, s.storage[a]), s.storage[b])
  {
    var r1 := PressKey(s, Digit(a), tr);
    assert r1 == Recall(s, a);
    assert Finalize(r1) == r1;
  }

  /** ENTER always lifts X: a typed number ends up in both X and Y, and
      otherwise X is duplicated. */
  lemma EnterDuplicates(s: State, tr: Transcendentals)
    requires !s.fActive && !s.gActive
    ensures !s.entry.entering ==> PressKey(s, Enter, tr).stack == Stack.Push(s.stack, s.stack.x)
    ensures forall v :: TypedValue(s, v) ==>
      PressKey(s, Enter, tr).stack == Stack.Stack(Val(v), Val(v), s.stack.x, s.stack.y)
  {
  }

  /** A number typed and then an operator: the typed value is X and the
      old X is Y, and the result sits over the old Y and Z; a typed zero
      divisor leaves NaN over the old Z. */
  lemma TypedOperand(s: State, op: Operators.BinOp, v: real, tr: Transcendentals)
    requires !s.fActive && !s.gActive && TypedValue(s, v)
    ensures op == Operators.Divide && v == 0.0 ==>
      PressKey(s, Op(op), tr).stack == Stack.Stack(NaN, s.stack.z, s.stack.z, s.stack.z)
    ensures !(op == Operators.Divide && v == 0.0) ==>
      PressKey(s, Op(op), tr).stack == Stack.Stack(Operators.Apply(op, s.stack.x, Val(v)), s.stack.y, s.stack.z, s.stack.z)
  {
    var c := Finalize(s);
    assert c.stack == Stack.Stack(Val(v), s.stack.x, s.stack.y, s.stack.z);
    var s1 := s.(stoActive := false, rclActive := false);
    assert Finalize(s1).stack == c.stack;
    assert PressKey(s, Op(op), tr).stack == Operators.Binary(op, c.stack);
  }

  /** ON clears the stack, the entry, the modes and the statistics and
      restores two places, but the storage and financial registers survive. */
  lemma OnKeepsRegisters(s: State, tr: Transcendentals)
    requires !s.fActive && !s.gActive
    ensures var r := PressKey(s, On, tr);
      r.stack == Stack.Zeroed && r.stats == Statistics.ZeroStats && r.decimals == 2 &&
      NoFlags(r) && !r.entry.entering && r.entry.buffer == "0" &&
      r.storage == s.storage && r.fin == s.fin
  {
  }

  /** CLx while typing throws the text away without touching the stack, so
      a following ENTER duplicates the X from before the typing. */
  lemma ClxAbandonsTyping(s: State, tr: Transcendentals)
    requires !s.fActive && !s.gActive && s.entry.entering
    ensures PressKey(s, Clx, tr).stack == s.stack
    ensures !PressKey(s, Clx, tr).entry.entering
    ensures PressKey(PressKey(s, Clx, tr), Enter, tr).stack == Stack.Push(s.stack, s.stack.x)
  {
  }

  /** g 8 (x̄) and g 9 (s) leave the entry alone: a number still being
      typed is neither committed nor lifted. */
  lemma MeanKeepsTyping(s: State, tr: Transcendentals)
    requires s.gActive && !s.fActive && !s.stoActive && !s.rclActive
    ensures PressKey(s, Digit(8), tr).entry == s.entry
    ensures PressKey(s, Digit(8), tr).stack == Statistics.Mean(s.stats, s.stack)
  {
    assert GTable[Digit(8)] == Mean;
  }

  lemma StdDevKeepsTyping(s: State, tr: Transcendentals)
    requires s.gActive && !s.fActive && !s.stoActive && !s.rclActive
    ensures PressKey(s, Digit(9), tr).entry == s.entry
    ensures PressKey(s, Digit(9), tr).stack == Statistics.StdDev(s.stats, s.stack, tr.sqrt)
  {
    assert GTable[Digit(9)] == StdDev;
  }

  /** f Σ+ is CLΣ: the accumulators are cleared and the entry is kept. */
  lemma ClearSigmaKeepsTyping(s: State, tr: Transcendentals)
    requires s.fActive && !s.gActive && !s.stoActive && !s.rclActive
    ensures PressKey(s, SigmaPlus, tr) == s.(fActive := false, stats := Statistics.ZeroStats)
  {
  }

  /** With neither shift armed and no STO or RCL digit pending, a key
      runs its own label after STO and RCL are disarmed. */
  lemma Unshifted(s: State, key: Token, tr: Transcendentals)
    requires !s.fActive && !s.gActive && !(key.Digit? && (s.stoActive || s.rclActive))
    requires Defined(s.(stoActive := false, rclActive := false), key)
    ensures PressKey(s, key, tr) == Execute(s.(stoActive := false, rclActive := false), key, tr)
  {
  }

  lemma ExecuteFin(s: State, k: Tvm.FinKey, tr: Transcendentals)
    requires s.entry.entering || Tvm.Computable(s.fin, k)
    ensures Execute(s, Fin(k), tr) == FinKeyPress(s, k, tr.ln)
  {
  }

  /** A financial key right after typing stores the typed value in its
      register only; the stack is the one finalizing gives. */
  lemma FinKeyStoresTyped(s: State, k: Tvm.FinKey, v: real, tr: Transcendentals)
    requires !s.fActive && !s.gActive && TypedValue(s, v)
    ensures var r := PressKey(s, Fin(k), tr);
      Tvm.Get(r.fin, k) == Val(v) &&
      (forall j :: j != k ==> Tvm.Get(r.fin, j) == Tvm.Get(s.fin, j)) &&
      r.stack == Stack.Push(s.stack, Val(v))
  {
    var s1 := s.(stoActive := false, rclActive := false);
    Unshifted(s, Fin(k), tr);
    ExecuteFin(s1, k, tr);
    assert Finalize(s1).stack == Stack.Push(s.stack, Val(v));
  }

  /** A financial key pressed without typing writes only its own register
      and X, lifts nothing, and on a rejected guard writes NaN to X and
      no register. */
  lemma FinKeyComputes(s: State, k: Tvm.FinKey, tr: Transcendentals)
    requires !s.fActive && !s.gActive && !s.entry.entering && Tvm.Computable(s.fin, k)
    ensures var r := PressKey(s, Fin(k), tr);
      (forall j :: j != k ==> Tvm.Get(r.fin, j) == Tvm.Get(s.fin, j)) &&
      r.stack.y == s.stack.y && r.stack.z == s.stack.z && r.stack.t == s.stack.t
    ensures Tvm.Solve(s.fin, k, tr.ln).Rejected? ==>
      PressKey(s, Fin(k), tr).fin == s.fin && PressKey(s, Fin(k), tr).stack.x == NaN
    ensures Tvm.Solve(s.fin, k, tr.ln).Solved? ==>
      PressKey(s, Fin(k), tr).stack.x == Tvm.Solve(s.fin, k, tr.ln).v &&
      Tvm.Get(PressKey(s, Fin(k), tr).fin, k) == Tvm.Solve(s.fin, k, tr.ln).v
  {
    var s1 := s.(stoActive := false, rclActive := false);
    Unshifted(s, Fin(k), tr);
    ExecuteFin(s1, k, tr);
    assert Finalize(s1) == s1;
    var (fin, x) := Tvm.FinOp(s.fin, s.stack.x, k, false, tr.ln);
    assert FinKeyPress(s1, k, tr.ln) == s1.(fin := fin, stack := s.stack.(x := x));
  }
}

=== FILE: calendar.dfy ===
/** The proleptic Gregorian calendar of Python's `datetime.date`: valid
    dates run from 0001-01-01 to 9999-12-31, and `toordinal` numbers them
    from 1.  Date differences and date plus days are ordinal arithmetic. */
module Calendar {

  datatype Date = Date(year: int, month: int, day: int)

  const MinYear := 1
  const MaxYear := 9999

  /** The ordinal of 9999-12-31, the last date `datetime` can hold. */
  const MaxOrdinal := 3652059

  predicate IsLeap(y: int) {
    y % 4 == 0 && (y % 100 != 0 || y % 400 == 0)
  }

  function DaysInYear(y: int): int {
    if IsLeap(y) then 366 else 365
  }

  function DaysInMonth(y: int, m: int): (n: int)
    requires 1 <= m <= 12
    ensures 28 <= n <= 31
  {
    if m == 2 then (if IsLeap(y) then 29 else 28)
    else if m == 4 || m == 6 || m == 9 || m == 11 then 30
    else 31
  }

  /** What `datetime.date(year, month, day)` accepts. */
  predicate ValidDate(d: Date) {
    MinYear <= d.year <= MaxYear && 1 <= d.month <= 12 && 1 <= d.day <= DaysInMonth(d.year, d.month)
  }

  /** Days in the years before `y`. */
  function DaysBeforeYear(y: int): int
    requires y >= 1
  {
    var p := y - 1;
    365 * p + p / 4 - p / 100 + p / 400
  }

  /** Days in the months of year `y` before month `m`; month 13 stands for
      the end of the year. */
  function DaysBeforeMonth(y: int, m: int): int
    requires 1 <= m <= 13
  {
    [0, 31, 59, 90, 120, 151, 181, 212, 243, 273, 304, 334, 365][m - 1]
      + (if m > 2 && IsLeap(y) then 1 else 0)
  }

  /** `date.toordinal()`: 0001-01-01 is day 1. */
  function Ordinal(d: Date): int
    requires ValidDate(d)
  {
    DaysBeforeYear(d.year) + DaysBeforeMonth(d.year, d.month) + d.day
  }

  /** `date.fromordinal(n)`, found by searching for the year and then the
      month whose span contains `n`. */
  function FromOrdinal(n: int): (d: Date)
    requires 1 <= n <= MaxOrdinal
    ensures ValidDate(d) && Ordinal(d) == n
  {
    LastYearStep();
    var y := YearOf(n, MinYear);
    YearStep(y);
    var k := n - DaysBeforeYear(y);
    MonthsFillYear(y);
    var m := MonthOf(y, k, 1);
    MonthStep(y, m);
    Date(y, m, k - DaysBeforeMonth(y, m))
  }

  /** The year whose days contain ordinal `n`, searching upwards from `y`. */
  function YearOf(n: int, y: int): (r: int)
    requires MinYear <= y <= MaxYear
    requires DaysBeforeYear(y) < n <= DaysBeforeYear(MaxYear + 1)
    ensures y <= r <= MaxYear
    ensures DaysBeforeYear(r) < n <= DaysBeforeYear(r + 1)
    decreases MaxYear - y
  {
    if n <= DaysBeforeYear(y + 1) then y else YearOf(n, y + 1)
  }

  /** The month of year `y` containing day-of-year `k`, searching upwards from `m`. */
  function MonthOf(y: int, k: int, m: int): (r: int)
    requires 1 <= m <= 12
    requires DaysBeforeMonth(y, m) < k <= DaysBeforeMonth(y, 13)
    ensures m <= r <= 12
    ensures DaysBeforeMonth(y, r) < k <= DaysBeforeMonth(y, r + 1)
    decreases 12 - m
  {
    if k <= DaysBeforeMonth(y, m + 1) then m else MonthOf(y, k, m + 1)
  }

  /** `p / k` steps up by one exactly when `k` divides `p + 1`. */
  lemma DivStep(p: int, k: int)
    requires p >= 0 && k > 0
    ensures (p + 1) / k == p / k + (if (p + 1) % k == 0 then 1 else 0)
  {
    var q, r := p / k, p % k;
    assert p == k * q + r && 0 <= r < k;
    if r == k - 1 {
      assert p + 1 == k * (q + 1) + 0;
      DivUnique(p + 1, k, q + 1, 0);
    } else {
      assert p + 1 == k * q + (r + 1);
      DivUnique(p + 1, k, q, r + 1);
    }
  }

  lemma DivUnique(a: int, k: int, q: int, r: int)
    requires k > 0 && a == k * q + r && 0 <= r < k
    ensures a / k == q && a % k == r
  {
    var q', r' := a / k, a % k;
    assert a == k * q' + r';
    if q' > q {
      assert k * q' >= k * (q + 1) by {
        MulMonotone(k, q + 1, q');
      }
    } else if q' < q {
      assert k * q >= k * (q' + 1) by {
        MulMonotone(k, q' + 1, q);
      }
    }
  }

  lemma MulMonotone(k: int, a: int, b: int)
    requires k > 0 && a <= b
    ensures k * a <= k * b
  {
    assert k * b - k * a == k * (b - a);
  }

  /** Each year adds its own length. */
  lemma YearStep(y: int)
    requires y >= 1
    ensures DaysBeforeYear(y + 1) == DaysBeforeYear(y) + DaysInYear(y)
  {
    var p := y - 1;
    DivStep(p, 4);
    DivStep(p, 100);
    DivStep(p, 400);
    LeapByDivisors(y);
  }

  /** The leap rule as the three divisibility steps of the closed form. */
  lemma LeapByDivisors(y: int)
    ensures DaysInYear(y) ==
      365 + (if y % 4 == 0 then 1 else 0) - (if y % 100 == 0 then 1 else 0) + (if y % 400 == 0 then 1 else 0)
  {
    if y % 400 == 0 {
      assert y == 400 * (y / 400);
      assert y == 100 * (4 * (y / 400));
      assert y == 4 * (100 * (y / 400));
    } else if y % 100 == 0 {
      assert y == 100 * (y / 100);
      assert y == 4 * (25 * (y / 100));
    }
  }

  lemma LastYearStep()
    ensures DaysBeforeYear(MaxYear + 1) == MaxOrdinal
  {
  }

  lemma MonthsFillYear(y: int)
    ensures DaysBeforeMonth(y, 13) == DaysInYear(y)
  {
  }

  /** Each month adds its own length. */
  lemma MonthStep(y: int, m: int)
    requires 1 <= m <= 12
    ensures DaysBeforeMonth(y, m + 1) == DaysBeforeMonth(y, m) + DaysInMonth(y, m)
  {
  }

  lemma {:induction false} YearsIncrease(a: int, b: int)
    requires 1 <= a <= b
    ensures DaysBeforeYear(a) + (b - a) * 365 <= DaysBeforeYear(b)
    decreases b - a
  {
    if a < b {
      YearsIncrease(a, b - 1);
      YearStep(b - 1);
    }
  }

  lemma {:induction false} MonthsIncrease(y: int, a: int, b: int)
    requires 1 <= a <= b <= 13
    ensures DaysBeforeMonth(y, a) + (b - a) * 28 <= DaysBeforeMonth(y, b)
    decreases b - a
  {
    if a < b {
      MonthsIncrease(y, a, b - 1);
      MonthStep(y, b - 1);
    }
  }

  /** Every valid date has an ordinal in `1..MaxOrdinal`, and `FromOrdinal`
      gives the date back. */
  lemma OrdinalRoundTrip(d: Date)
    requires ValidDate(d)
    ensures 1 <= Ordinal(d) <= MaxOrdinal
    ensures FromOrdinal(Ordinal(d)) == d
  {
    var n := Ordinal(d);
    var y, m := d.year, d.month;
    YearsIncrease(1, y);
    MonthStep(y, m);
    MonthsIncrease(y, m + 1, 13);
    MonthsFillYear(y);
    YearStep(y);
    assert DaysBeforeYear(y) < n <= DaysBeforeYear(y + 1);
    YearsIncrease(y + 1, MaxYear + 1);
    LastYearStep();
    var e := FromOrdinal(n);
    SameYear(n, y, e.year);
    SameMonth(y, n - DaysBeforeYear(y), m, e.month);
  }

  /** Years have disjoint spans of ordinals. */
  lemma SameYear(n: int, a: int, b: int)
    requires a >= 1 && b >= 1
    requires DaysBeforeYear(a) < n <= DaysBeforeYear(a + 1)
    requires DaysBeforeYear(b) < n <= DaysBeforeYear(b + 1)
    ensures a == b
  {
    if a < b {
      YearsIncrease(a + 1, b);
    } else if b < a {
      YearsIncrease(b + 1, a);
    }
  }

  /** Months of one year have disjoint spans of days. */
  lemma SameMonth(y: int, k: int, a: int, b: int)
    requires 1 <= a <= 12 && 1 <= b <= 12
    requires DaysBeforeMonth(y, a) < k <= DaysBeforeMonth(y, a + 1)
    requires DaysBeforeMonth(y, b) < k <= DaysBeforeMonth(y, b + 1)
    ensures a == b
  {
    if a < b {
      MonthsIncrease(y, a + 1, b);
    } else if b < a {
      MonthsIncrease(y, b + 1, a);
    }
  }
}

=== FILE: dates.dfy ===
/** The date keys: how a register value is read as a date (through the
    digits of its integer part, `DDMMYYYY`), how a date is written back as
    `DD.MMYYYY`, ΔDYS (days between Y and X) and DATE (Y plus X days). */
module Dates {
  import opened Numbers
  import opened Text
  import opened Calendar
  import opened Stack
  import Entry

  function Min(a: int, b: int): int {
    if a <= b then a else b
  }

  /** Python's `s[i:j]` for `0 <= i <= j`: bounds past the end are clamped. */
  function Slice(s: string, i: nat, j: nat): (r: string)
    requires i <= j
    ensures |r| == Min(j, |s|) - Min(i, |s|)
    ensures forall k :: 0 <= k < |r| ==> r[k] == s[i + k]
  {
    s[Min(i, |s|)..Min(j, |s|)]
  }

  /** Python's `s[i:]`. */
  function Tail(s: string, i: nat): (r: string)
    ensures |r| == |s| - Min(i, |s|)
    ensures forall k :: 0 <= k < |r| ==> r[k] == s[i + k]
  {
    s[Min(i, |s|)..]
  }

  /** `_parse_date_number`: the text of `int(x)` is cut into a two-character
      day, a two-character month and the rest as the year; a year below 100
      is read as 19xx; anything `int` or `datetime.date` rejects gives no
      date.  (The branch for text containing a point cannot be reached: the
      text of a `Decimal` has no `,`, and every `.` is removed first.) */
  function DecodeDate(v: Num): (r: Option<Date>)
    ensures r.Some? ==> ValidDate(r.value)
  {
    if v.NaN? then None else DecodeText(IntString(Trunc(v.r)))
  }

  /** The digit text cut into its three fields. */
  function DecodeText(s: string): (r: Option<Date>)
    ensures r.Some? ==> ValidDate(r.value)
  {
    match (PyInt(Slice(s, 0, 2)), PyInt(Slice(s, 2, 4)), PyInt(Tail(s, 4)))
    case (Some(day), Some(month), Some(year)) => DateOf(day, month, year)
    case _ => None
  }

  /** `datetime.date` on the fields, with a year below 100 read as 19xx. */
  function DateOf(day: int, month: int, year: int): (r: Option<Date>)
    ensures r.Some? ==> ValidDate(r.value)
  {
    var d := Date(if year < 100 then year + 1900 else year, month, day);
    if ValidDate(d) then Some(d) else None
  }

  /** `datetime.date` takes its fields as C ints: a year field of 2^31 or
      more raises `OverflowError`, which the decoder does not catch, so the
      date keys crash on it.  Before that, `str` of an integer of more than
      4300 digits (CPython's default `int_max_str_digits`) raises
      `ValueError`, which the decoder does catch. */
  predicate DecodeDefined(v: Num) {
    v.NaN? ||
      var k := Trunc(v.r);
      |Digits(if k < 0 then -k else k)| > 4300 || FieldsDefined(IntString(k))
  }

  /** The three fields of `s` do not overflow `datetime.date`: some field
      is not an integer (a caught `ValueError`), or the year fits a C int. */
  predicate FieldsDefined(s: string) {
    match (PyInt(Slice(s, 0, 2)), PyInt(Slice(s, 2, 4)), PyInt(Tail(s, 4)))
    case (Some(_), Some(_), Some(year)) => year < 0x8000_0000
    case _ => true
  }

  /** Every value that reads as a date is one the decoder handles without
      raising: a valid year is at most 9999. */
  lemma DecodedIsDefined(v: Num)
    requires DecodeDate(v).Some?
    ensures DecodeDefined(v)
  {
    var s := IntString(Trunc(v.r));
    match (PyInt(Slice(s, 0, 2)), PyInt(Slice(s, 2, 4)), PyInt(Tail(s, 4)))
    case (Some(day), Some(month), Some(year)) =>
      assert DateOf(day, month, year).Some?;
    case _ =>
  }

  /** `_format_date_to_number`: the value of the text `DD.MM` followed by
      the year's digits. */
  function EncodeDate(d: Date): (r: real)
    requires ValidDate(d)
    ensures d.day as real <= r < d.day as real + 1.0
  {
    var l := |Digits(d.year)|;
    var frac := d.month * Pow10Nat(l) + d.year;
    FractionBelowOne(d.month, d.year, l);
    d.day as real + frac as real / Pow10(l + 2)
  }

  /** The text `_format_date_to_number` builds: the day and the month each
      padded to two digits, then the year's digits, with a point after the
      day. */
  function DateText(d: Date): string
    requires ValidDate(d)
  {
    ZFill(Digits(d.day), 2) + "." + ZFill(Digits(d.month), 2) + Digits(d.year)
  }

  /** `Decimal` reads that text as the value DATE writes. */
  lemma EncodeDateReadsText(d: Date)
    requires ValidDate(d)
    ensures Entry.ParseUnsigned(DateText(d)) == Some(EncodeDate(d))
  {
    var dd, t := DateTextParts(d);
    Entry.ParsePointed(dd, t);
  }

  /** The text splits at its point into digits whose values give the
      written date value. */
  lemma DateTextParts(d: Date) returns (dd: string, t: string)
    requires ValidDate(d)
    ensures DateText(d) == dd + "." + t && AllDigits(dd) && AllDigits(t) && |dd| + |t| >= 1
    ensures EncodeDate(d) == ValueOf(dd) as real + ValueOf(t) as real / Pow10(|t|)
  {
    dd, t := ZFill(Digits(d.day), 2), ZFill(Digits(d.month), 2) + Digits(d.year);
    var l := |Digits(d.year)|;
    assert AllDigits(dd) && ValueOf(dd) == d.day && |dd| == 2 by {
      PaddedField(d.day);
    }
    assert AllDigits(t) && ValueOf(t) == d.month * Pow10Nat(l) + d.year && |t| == l + 2 by {
      MonthAndYearText(d.month, d.year);
    }
  }

  /** A field padded to two places keeps its digits and value. */
  lemma PaddedField(k: nat)
    requires k < 100
    ensures AllDigits(ZFill(Digits(k), 2)) && ValueOf(ZFill(Digits(k), 2)) == k
    ensures |ZFill(Digits(k), 2)| == 2
  {
    ZFillDigits(Digits(k), 2);
    DigitsLength(k, 2);
  }

  /** The digits after the point: two of month, then the year's. */
  lemma MonthAndYearText(month: int, year: int)
    requires 1 <= month <= 12 && year >= 1
    ensures var t := ZFill(Digits(month), 2) + Digits(year);
      AllDigits(t) && |t| == |Digits(year)| + 2 &&
      ValueOf(t) == month * Pow10Nat(|Digits(year)|) + year
  {
    PaddedField(month);
    ValueOfConcat(ZFill(Digits(month), 2), Digits(year));
  }

  /** The day, month and year read back from a value `DD.MMYYYY` with a
      four-digit year. */
  function ReadEncoded(r: real): (int, int, int) {
    var day := r.Floor;
    var mf := (r - day as real) * 100.0;
    var month := mf.Floor;
    (day, month, ((mf - month as real) * 10000.0).Floor)
  }

  /** For a four-digit year the written value determines the date: the
      integer part is the day, the next two decimals the month and the
      four after them the year. */
  lemma EncodeDateRoundTrip(d: Date)
    requires ValidDate(d) && d.year >= 1000
    ensures ReadEncoded(EncodeDate(d)) == (d.day, d.month, d.year)
  {
    DigitsLength(d.year, 4);
    DigitsLength(d.year, 3);
    assert Pow10Nat(3) == 1000 && Pow10Nat(4) == 10000 by {
      assert Pow10Nat(2) == 100 by {
        assert Pow10Nat(1) == 10;
      }
    }
    assert |Digits(d.year)| == 4;
    assert Pow10(6) == 1000000.0 by {
      assert Pow10Nat(6) == 100 * Pow10Nat(4) by {
        Pow10Shift(4);
      }
    }
    FourDigitFields(d.day, d.month, d.year);
  }

  lemma FourDigitFields(day: int, month: int, year: int)
    requires 1 <= month <= 12 && 1000 <= year <= 9999 && day >= 1
    ensures var r := day as real + (month * 10000 + year) as real / 1000000.0;
      ReadEncoded(r) == (day, month, year)
  {
    var f := (month * 10000 + year) as real / 1000000.0;
    var r := day as real + f;
    assert 0.0 <= f < 1.0;
    assert r.Floor == day;
    assert r - day as real == f;
    var mf := f * 100.0;
    assert mf == month as real + year as real / 10000.0;
    assert mf.Floor == month;
    assert (mf - month as real) * 10000.0 == year as real;
  }

  lemma FractionBelowOne(month: int, year: int, l: nat)
    requires 1 <= month <= 12 && 1 <= year && l == |Digits(year)|
    ensures 0.0 <= (month * Pow10Nat(l) + year) as real / Pow10(l + 2) < 1.0
  {
    NumeratorBelow(month, year, l);
    var q := Pow10Nat(l + 2);
    assert Pow10(l + 2) == q as real;
    RatioBelowOne((month * Pow10Nat(l) + year) as real, q as real);
  }

  lemma NumeratorBelow(month: int, year: int, l: nat)
    requires 1 <= month <= 12 && 1 <= year && l == |Digits(year)|
    ensures 0 <= month * Pow10Nat(l) + year < Pow10Nat(l + 2)
  {
    ValueOfBelow(Digits(year));
    Pow10Shift(l);
    MonthAndYearBelow(month, year, Pow10Nat(l));
  }

  lemma Pow10Shift(l: nat)
    ensures Pow10Nat(l + 2) == 100 * Pow10Nat(l)
  {
    assert Pow10Nat(l + 1) == 10 * Pow10Nat(l);
  }

  lemma MonthAndYearBelow(month: int, year: int, p: int)
    requires 1 <= month <= 12 && 0 <= year < p
    ensures 0 <= month * p + year < 100 * p
  {
    MulMonotoneRight(month, 12, p);
  }

  lemma MulMonotoneRight(a: int, b: int, p: int)
    requires a <= b && p >= 0
    ensures a * p <= b * p
  {
    assert b * p - a * p == (b - a) * p;
  }

  lemma RatioBelowOne(a: real, b: real)
    requires 0.0 <= a < b
    ensures 0.0 <= a / b < 1.0
  {
    assert a / b * b == a;
  }

  /** ΔDYS: days from the date in Y to the date in X. */
  function DayDifference(d1: Date, d2: Date): int
    requires ValidDate(d1) && ValidDate(d2)
  {
    Ordinal(d2) - Ordinal(d1)
  }

  /** `date + timedelta(days)`: none when the result leaves the range
      `datetime` can hold (the source's `OverflowError`). */
  function ShiftDate(start: Date, days: int): (r: Option<Date>)
    requires ValidDate(start)
    ensures r.Some? <==> 1 <= Ordinal(start) + days <= MaxOrdinal
    ensures r.Some? ==> ValidDate(r.value) && DayDifference(start, r.value) == days
  {
    var n := Ordinal(start) + days;
    if 1 <= n <= MaxOrdinal then Some(FromOrdinal(n)) else None
  }

  /** Shifting a date by its distance to another reaches the other. */
  lemma ShiftByDifference(a: Date, b: Date)
    requires ValidDate(a) && ValidDate(b)
    ensures ShiftDate(a, DayDifference(a, b)) == Some(b)
  {
    OrdinalRoundTrip(b);
  }

  /** `_handle_delta_days` after the entry is finalized: X and Y are
      dropped; the difference is lifted, or X becomes NaN when either
      value is not a date.  Neither value may overflow the decoder. */
  function DeltaDays(s: Stack): (r: Stack)
    requires DecodeDefined(s.x) && DecodeDefined(s.y)
    ensures match (DecodeDate(s.x), DecodeDate(s.y))
      case (Some(d2), Some(d1)) => r == Stack(Val(DayDifference(d1, d2) as real), s.z, s.t, s.t)
      case _ => r == Stack(NaN, s.t, s.t, s.t)
  {
    var (x, s1) := Pop(s);
    var (y, s2) := Pop(s1);
    match (DecodeDate(x), DecodeDate(y))
    case (Some(d2), Some(d1)) => Push(s2, Val(DayDifference(d1, d2) as real))
    case _ => SetX(s2, NaN)
  }

  /** `_handle_date_calc` after the entry is finalized: the start date in
      Y moved by `int(X)` days, written as `DD.MMYYYY`; NaN in X when Y is
      not a date or the result is out of range.  `int` of a NaN day count
      raises, so X must be a number whenever Y is a date; Y must not
      overflow the decoder. */
  function DateCalc(s: Stack): (r: Stack)
    requires DecodeDefined(s.y) && (DecodeDate(s.y).Some? ==> s.x.Val?)
    ensures DecodeDate(s.y).None? ==> r == Stack(NaN, s.t, s.t, s.t)
    ensures DecodeDate(s.y).Some? ==>
      match ShiftDate(DecodeDate(s.y).value, Trunc(s.x.r))
      case Some(e) => r == Stack(Val(EncodeDate(e)), s.z, s.t, s.t)
      case None => r == Stack(NaN, s.t, s.t, s.t)
  {
    var (x, s1) := Pop(s);
    var (y, s2) := Pop(s1);
    match DecodeDate(y)
    case None => SetX(s2, NaN)
    case Some(start) =>
      match ShiftDate(start, Trunc(x.r))
      case Some(e) => Push(s2, Val(EncodeDate(e)))
      case None => SetX(s2, NaN)
  }

  /** Exchanging the two dates negates ΔDYS; a failure stays a failure. */
  lemma DeltaDaysSwap(s: Stack)
    requires DecodeDefined(s.x) && DecodeDefined(s.y)
    ensures DeltaDays(Swap(s)) == DeltaDays(s).(x := Neg(DeltaDays(s).x))
  {
    var w := Swap(s);
    assert w.x == s.y && w.y == s.x && w.z == s.z && w.t == s.t;
    var a, b := DecodeDate(s.x), DecodeDate(s.y);
    if a.Some? && b.Some? {
      assert DeltaDays(s) == Stack(Val(DayDifference(b.value, a.value) as real), s.z, s.t, s.t);
      assert DeltaDays(w) == Stack(Val(DayDifference(a.value, b.value) as real), s.z, s.t, s.t);
      assert DayDifference(a.value, b.value) == -DayDifference(b.value, a.value);
      assert Neg(DeltaDays(s).x) == DeltaDays(w).x;
    } else {
      assert DeltaDays(s) == Stack(NaN, s.t, s.t, s.t);
      assert DeltaDays(w) == Stack(NaN, s.t, s.t, s.t);
      assert Neg(DeltaDays(s).x) == NaN;
    }
  }

  /** DATE with zero days writes the start date itself. */
  lemma DateCalcZeroDays(s: Stack, start: Date)
    requires DecodeDate(s.y) == Some(start) && s.x == Val(0.0)
    ensures DecodeDefined(s.y) && DateCalc(s).x == Val(EncodeDate(start))
  {
    DecodedIsDefined(s.y);
    OrdinalRoundTrip(start);
    assert Trunc(0.0) == 0;
    assert ShiftDate(start, 0) == Some(start);
  }

  /** A negative value never reads as a date: its day field is negative
      or not a number. */
  lemma NegativeNeverDecodes(v: Num)
    ensures v.Val? && Trunc(v.r) < 0 ==> DecodeDate(v).None?
  {
    if v.Val? && Trunc(v.r) < 0 {
      var k := Trunc(v.r);
      var t := Digits(-k);
      var s := IntString(k);
      assert s == "-" + t;
      var ds := Slice(s, 0, 2);
      assert ds[0] == '-';
      assert !IsDigit('-');
      assert !AllDigits(ds);
      match PyInt(ds)
      case None =>
      case Some(day) =>
        assert day <= 0;
    }
  }

  /** Text of fewer than five characters has no year field. */
  lemma ShortNeverDecodes(v: Num)
    ensures v.Val? && |IntString(Trunc(v.r))| < 5 ==> DecodeDate(v).None?
  {
    if v.Val? {
      var s := IntString(Trunc(v.r));
      if |s| < 5 {
        assert Tail(s, 4) == "";
      }
    }
  }

  /** A value only reads as a date when its integer part has at least five
      digits, and the day field then has no leading zero: days 1 to 9 can
      never be entered. */
  lemma DecodedDayAtLeastTen(v: Num)
    requires DecodeDate(v).Some?
    ensures v.Val? && v.r >= 10000.0
    ensures DecodeDate(v).value.day >= 10
  {
    NegativeNeverDecodes(v);
    ShortNeverDecodes(v);
    var k := Trunc(v.r);
    assert k >= 0;
    var t := Digits(k);
    assert IntString(k) == t;
    assert |t| >= 5;
    assert |Digits(0)| == 1;
    assert t[0] != '0';
    ValueOfAtLeast(t);
    Pow10Monotone(4, |t| - 1);
    var ds := Slice(t, 0, 2);
    assert ds[0] == t[0] && |ds| == 2;
    ValueOfAtLeast(ds);
  }

  /** Integer part of a date as the decoder reads it back. */
  lemma TruncOfInteger(k: int)
    ensures Trunc(k as real) == k
  {
  }

  /** The value `DATE` writes never reads back as a date: its integer part
      is the day alone. */
  lemma EncodedDateDoesNotDecode(d: Date)
    requires ValidDate(d)
    ensures DecodeDate(Val(EncodeDate(d))) == None
  {
    var v := Val(EncodeDate(d));
    if DecodeDate(v).Some? {
      DecodedDayAtLeastTen(v);
    }
  }

  /** Reading the digits `dd mm y…` as a date: the day and month fields
      are the first two pairs of digits and the year is the rest. */
  lemma DecodeDigitFields(dd: string, mm: string, yy: string)
    requires AllDigits(dd) && AllDigits(mm) && AllDigits(yy)
    requires |dd| == 2 && dd[0] != '0' && |mm| == 2 && |yy| >= 1
    ensures DecodeDate(Val(ValueOf(dd + mm + yy) as real)) == DateOf(ValueOf(dd), ValueOf(mm), ValueOf(yy))
  {
    var s := dd + mm + yy;
    ValueOfConcat(dd, mm);
    ValueOfConcat(dd + mm, yy);
    assert s[0] == dd[0];
    DigitsUnique(s);
    TruncOfInteger(ValueOf(s));
    assert IntString(ValueOf(s)) == s;
    FieldsOfText(dd, mm, yy);
  }

  /** A digit text `dd mm y…` whose year field is 2^31 or more (and short
      enough for `str`) makes `datetime.date` raise: the decoder is not
      defined there, although the model's decoder gives no date. */
  lemma YearOverflowRaises(dd: string, mm: string, yy: string)
    requires AllDigits(dd) && AllDigits(mm) && AllDigits(yy)
    requires |dd| == 2 && dd[0] != '0' && |mm| == 2 && |yy| >= 1
    requires ValueOf(yy) >= 0x8000_0000 && |dd| + |mm| + |yy| <= 4300
    ensures !DecodeDefined(Val(ValueOf(dd + mm + yy) as real))
    ensures DecodeDate(Val(ValueOf(dd + mm + yy) as real)).None?
  {
    var s := dd + mm + yy;
    assert s[0] == dd[0];
    DigitsUnique(s);
    TruncOfInteger(ValueOf(s));
    assert IntString(ValueOf(s)) == s;
    assert Slice(s, 0, 2) == dd;
    assert Slice(s, 2, 4) == mm;
    assert Tail(s, 4) == yy;
    PyIntOfDigits(dd);
    PyIntOfDigits(mm);
    PyIntOfDigits(yy);
  }

  lemma FieldsOfText(dd: string, mm: string, yy: string)
    requires AllDigits(dd) && AllDigits(mm) && AllDigits(yy)
    requires |dd| == 2 && |mm| == 2 && |yy| >= 1
    ensures DecodeText(dd + mm + yy) == DateOf(ValueOf(dd), ValueOf(mm), ValueOf(yy))
  {
    var s := dd + mm + yy;
    assert Slice(s, 0, 2) == dd;
    assert Slice(s, 2, 4) == mm;
    assert Tail(s, 4) == yy;
    PyIntOfDigits(dd);
    PyIntOfDigits(mm);
    PyIntOfDigits(yy);
  }

  lemma PyIntOfDigits(s: string)
    requires AllDigits(s) && |s| >= 1
    ensures PyInt(s) == Some(ValueOf(s))
  {
  }

  /** A date with a two-digit day and a four-digit year, typed as the
      integer `DDMMYYYY`, reads back as itself. */
  lemma DecodeDigitForm(d: Date)
    requires ValidDate(d) && d.day >= 10 && d.year >= 1000
    ensures DecodeDate(Val((d.day * 1000000 + d.month * 10000 + d.year) as real)) == Some(d)
  {
    var dd, mm, yy := Digits(d.day), ZFill(Digits(d.month), 2), Digits(d.year);
    FieldTexts(d);
    DecodeDigitFields(dd, mm, yy);
    FieldsValue(dd, mm, yy);
    var k := d.day * 1000000 + d.month * 10000 + d.year;
    assert ValueOf(dd + mm + yy) == k;
    assert DateOf(d.day, d.month, d.year) == Some(d);
    assert DecodeDate(Val(k as real)) == DateOf(d.day, d.month, d.year);
  }

  /** The texts of a date's fields: two digits of day without a leading
      zero, two of month, four of year. */
  lemma FieldTexts(d: Date)
    requires ValidDate(d) && d.day >= 10 && d.year >= 1000
    ensures var dd, mm, yy := Digits(d.day), ZFill(Digits(d.month), 2), Digits(d.year);
      AllDigits(dd) && AllDigits(mm) && AllDigits(yy) &&
      |dd| == 2 && dd[0] != '0' && |mm| == 2 && |yy| == 4 &&
      ValueOf(dd) == d.day && ValueOf(mm) == d.month && ValueOf(yy) == d.year
  {
    DigitsLength(d.day, 2);
    DigitsLength(d.day, 1);
    DigitsLength(d.month, 2);
    ZFillDigits(Digits(d.month), 2);
    DigitsLength(d.year, 4);
    DigitsLength(d.year, 3);
  }

  lemma FieldsValue(dd: string, mm: string, yy: string)
    requires AllDigits(dd) && AllDigits(mm) && AllDigits(yy)
    requires |dd| == 2 && |mm| == 2 && |yy| == 4
    ensures AllDigits(dd + mm + yy)
    ensures ValueOf(dd + mm + yy) == ValueOf(dd) * 1000000 + ValueOf(mm) * 10000 + ValueOf(yy)
  {
    ValueOfConcat(dd, mm);
    ValueOfConcat(dd + mm, yy);
    assert Pow10Nat(2) == 100 by {
      assert Pow10Nat(1) == 10;
    }
    assert Pow10Nat(4) == 10000 by {
      assert Pow10Nat(3) == 1000 by {
        assert Pow10Nat(2) == 100 by {
          assert Pow10Nat(1) == 10;
        }
      }
    }
    PlaceValues(ValueOf(dd + mm), Pow10Nat(|yy|), ValueOf(dd), ValueOf(mm), ValueOf(yy));
  }

  lemma PlaceValues(m: int, p: int, a: int, b: int, c: int)
    requires m == a * 100 + b && p == 10000
    ensures m * p + c == a * 1000000 + b * 10000 + c
  {
  }
}

=== FILE: depreciation.dfy ===
/** Depreciation keys SL, SOYD and DB.  Each drops its operands from the
    stack (so every slot above them fills with T) and lifts one amount, or
    leaves NaN in X when a guard rejects the operands. */
module Depreciation {
  import opened Numbers
  import opened Stack

  // ---------------------------------------------------------------------
  // Straight line

  /** The amount written off each year: the depreciable base spread evenly. */
  function StraightLine(cost: real, salvage: real, life: real): (dep: real)
    requires life != 0.0
    ensures dep * life + salvage == cost
  {
    (cost - salvage) / life
  }

  /** `_handle_sl_depreciation` after finalizing: life in X, salvage in Y,
      cost in Z.  A zero life leaves NaN; a NaN operand gives NaN. */
  function SL(s: Stack): (r: Stack)
    ensures r.y == s.t && r.z == s.t && r.t == s.t
    ensures s.x == Val(0.0) ==> r.x == NaN
    ensures s.x.Val? && s.x != Val(0.0) && s.y.Val? && s.z.Val? ==>
      r.x == Val(StraightLine(s.z.r, s.y.r, s.x.r))
    ensures (s.x.NaN? || s.y.NaN? || s.z.NaN?) ==> r.x == NaN
  {
    var (life, s1) := Pop(s);
    var (salvage, s2) := Pop(s1);
    var (cost, s3) := Pop(s2);
    if life == Val(0.0) then SetX(s3, NaN)
    else Push(s3, Div(Sub(cost, salvage), life))
  }

  // ---------------------------------------------------------------------
  // Sum of the years' digits

  /** `life * (life + 1) / 2`. */
  function YearsDigits(life: real): real {
    life * (life + 1.0) / 2.0
  }

  /** The amount for one period: the depreciable base times the period's
      share `(life - period + 1) / (sum of the years' digits)`. */
  function SoydAmount(cost: real, salvage: real, life: real, period: real): real
    requires YearsDigits(life) != 0.0
  {
    (cost - salvage) * ((life - period + 1.0) / YearsDigits(life))
  }

  /** The SOYD guard: a zero life or period, or a period past the life. */
  predicate SoydRejects(period: Num, life: Num)
    requires period == Val(0.0) || life == Val(0.0) || (period.Val? && life.Val?)
  {
    life == Val(0.0) || period == Val(0.0) || period.r > life.r
  }

  /** When the source's SOYD runs without raising: `period > life` raises
      on NaN, and a life of -1 makes the sum of digits zero. */
  predicate SoydDefined(s: Stack) {
    var period, life := s.x, s.y;
    life == Val(0.0) || period == Val(0.0) ||
      (period.Val? && life.Val? && (period.r > life.r || life.r != -1.0))
  }

  /** `_handle_soyd_depreciation` after finalizing: period in X, life in Y,
      salvage in Z, cost in T. */
  function SOYD(s: Stack): (r: Stack)
    requires SoydDefined(s)
    ensures r.y == s.t && r.z == s.t && r.t == s.t
    ensures SoydRejects(s.x, s.y) ==> r.x == NaN
    ensures !SoydRejects(s.x, s.y) && s.z.Val? && s.t.Val? ==>
      YearsDigits(s.y.r) != 0.0 && r.x == Val(SoydAmount(s.t.r, s.z.r, s.y.r, s.x.r))
  {
    var (period, s1) := Pop(s);
    var (life, s2) := Pop(s1);
    var (salvage, s3) := Pop(s2);
    var (cost, s4) := Pop(s3);
    if life == Val(0.0) || period == Val(0.0) || period.r > life.r then SetX(s4, NaN)
    else
      var digits := Div(Mul(life, Add(life, Val(1.0))), Val(2.0));
      var remaining := Add(Sub(life, period), Val(1.0));
      assert digits == Val(YearsDigits(life.r));
      assert remaining == Val(life.r - period.r + 1.0);
      NonzeroDigits(life.r);
      var amount := Mul(Sub(cost, salvage), Div(remaining, digits));
      assert cost.Val? && salvage.Val? ==> amount == Val(SoydAmount(cost.r, salvage.r, life.r, period.r));
      Push(s4, amount)
  }

  lemma NonzeroDigits(life: real)
    requires life != 0.0 && life != -1.0
    ensures YearsDigits(life) != 0.0
  {
    assert life + 1.0 != 0.0;
    NonzeroProduct(life, life + 1.0);
  }

  lemma NonzeroProduct(a: real, b: real)
    requires a != 0.0 && b != 0.0
    ensures a * b != 0.0
  {
  }

  /** The shares of periods `1..k`: `k * (2 * life - k + 1) / 2`. */
  function SharesUpTo(life: real, k: nat): real {
    if k == 0 then 0.0 else SharesUpTo(life, k - 1) + (life - k as real + 1.0)
  }

  /** The amounts of periods `1..k` added up. */
  function SoydTotal(cost: real, salvage: real, life: real, k: nat): real
    requires YearsDigits(life) != 0.0
  {
    if k == 0 then 0.0 else SoydTotal(cost, salvage, life, k - 1) + SoydAmount(cost, salvage, life, k as real)
  }

  lemma {:induction false} SharesClosedForm(life: real, k: nat)
    ensures SharesUpTo(life, k) == (k as real) * (2.0 * life - k as real + 1.0) / 2.0
  {
    if k > 0 {
      SharesClosedForm(life, k - 1);
      var m := (k - 1) as real;
      assert (k as real) * (2.0 * life - k as real + 1.0) / 2.0
        == m * (2.0 * life - m + 1.0) / 2.0 + (life - k as real + 1.0);
    }
  }

  lemma {:induction false} SoydTotalIsShare(cost: real, salvage: real, life: real, k: nat)
    requires YearsDigits(life) != 0.0
    ensures SoydTotal(cost, salvage, life, k) == (cost - salvage) * (SharesUpTo(life, k) / YearsDigits(life))
  {
    if k > 0 {
      SoydTotalIsShare(cost, salvage, life, k - 1);
      var b, d := cost - salvage, YearsDigits(life);
      var prev, step := SharesUpTo(life, k - 1), life - k as real + 1.0;
      assert b * (prev / d) + b * (step / d) == b * ((prev + step) / d);
    }
  }

  /** Over a whole natural life the SOYD amounts add up to the depreciable
      base: cost minus salvage. */
  lemma SoydSumsToBase(cost: real, salvage: real, life: nat)
    requires life >= 1
    ensures YearsDigits(life as real) != 0.0
    ensures SoydTotal(cost, salvage, life as real, life) == cost - salvage
  {
    var l := life as real;
    NonzeroDigits(l);
    SoydTotalIsShare(cost, salvage, l, life);
    SharesClosedForm(l, life);
    assert SharesUpTo(l, life) == YearsDigits(l);
  }

  // ---------------------------------------------------------------------
  // Declining balance

  /** The source's loop from the book value `book`, with `remaining`
      periods still to run and `last` the most recent period's amount: stop
      with 0 once the book value is at or below salvage, otherwise write
      off `book * rate`, clamped so the book value never drops below
      salvage. */
  function DbLoop(book: real, salvage: real, rate: real, remaining: nat, last: real): real
    decreases remaining
  {
    if remaining == 0 then last
    else if book <= salvage then 0.0
    else
      var dep := DbPeriod(book, salvage, rate);
      DbLoop(book - dep, salvage, rate, remaining - 1, dep)
  }

  /** One period's amount: `book * rate`, or what is left above salvage. */
  function DbPeriod(book: real, salvage: real, rate: real): (dep: real)
    ensures book - dep >= salvage
    ensures dep == book * rate || book - dep == salvage
  {
    var cur := book * rate;
    if book - cur < salvage then book - salvage else cur
  }

  /** The book value the loop ends with. */
  function DbBook(book: real, salvage: real, rate: real, remaining: nat): real
    decreases remaining
  {
    if remaining == 0 || book <= salvage then book
    else DbBook(book - DbPeriod(book, salvage, rate), salvage, rate, remaining - 1)
  }

  /** The amount DB reports for period `periods`. */
  function DbAmount(cost: real, salvage: real, rate: real, periods: int): real {
    if periods <= 0 then 0.0 else DbLoop(cost, salvage, rate, periods, 0.0)
  }

  /** The loop as the source writes it: `for p in range(1, periods + 1)`
      with the early `break`; `book` is the book value it ends with. */
  method DecliningBalance(cost: real, salvage: real, rate: real, periods: int) returns (dep: real, book: real)
    ensures dep == DbAmount(cost, salvage, rate, periods)
    ensures book == DbBook(cost, salvage, rate, if periods <= 0 then 0 else periods)
    ensures cost >= salvage ==> book >= salvage
  {
    book := cost;
    dep := 0.0;
    if periods <= 0 {
      return;
    }
    var p := 1;
    while p <= periods
      invariant 1 <= p <= periods + 1
      invariant DbLoop(book, salvage, rate, periods - p + 1, dep) == DbLoop(cost, salvage, rate, periods, 0.0)
      invariant DbBook(book, salvage, rate, periods - p + 1) == DbBook(cost, salvage, rate, periods)
      invariant cost >= salvage ==> book >= salvage
      decreases periods - p
    {
      if book <= salvage {
        dep := 0.0;
        return;
      }
      var cur := book * rate;
      if book - cur < salvage {
        cur := book - salvage;
      }
      book := book - cur;
      dep := cur;
      p := p + 1;
    }
  }

  /** The book value never ends below salvage when it starts at or above it. */
  lemma {:induction false} DbBookAboveSalvage(book: real, salvage: real, rate: real, remaining: nat)
    requires book >= salvage
    ensures DbBook(book, salvage, rate, remaining) >= salvage
    decreases remaining
  {
    if remaining > 0 && book > salvage {
      DbBookAboveSalvage(book - DbPeriod(book, salvage, rate), salvage, rate, remaining - 1);
    }
  }

  /** With a book value at or below salvage nothing is written off. */
  lemma DbNothingBelowSalvage(cost: real, salvage: real, rate: real, periods: int)
    requires cost <= salvage
    ensures DbAmount(cost, salvage, rate, periods) == 0.0
  {
  }

  /** The guard DB shares with SOYD, then a non-positive rate. */
  predicate DbRejects(rate: Num, period: Num, life: Num)
    requires DbDefinedGuard(rate, period, life)
  {
    life == Val(0.0) || period == Val(0.0) || period.r > life.r || rate.r <= 0.0
  }

  /** The guard evaluates without raising: each ordering comparison it
      reaches has numeric operands. */
  predicate DbDefinedGuard(rate: Num, period: Num, life: Num) {
    life == Val(0.0) || period == Val(0.0) ||
      (period.Val? && life.Val? && (period.r > life.r || rate.Val?))
  }

  /** DB runs without raising: the guard is defined, and when the loop runs
      the book value and salvage (both T here) can be compared. */
  predicate DbDefined(s: Stack) {
    var rate, period, life := s.x, s.y, s.z;
    DbDefinedGuard(rate, period, life) &&
      (!DbRejects(rate, period, life) && Trunc(period.r) >= 1 ==> s.t.Val?)
  }

  /** `_handle_db_depreciation` after finalizing: rate in X, period in Y,
      life in Z, and then two more drops.  With only four slots the fourth
      and fifth drops both return T, so cost and salvage are the same value. */
  function DB(s: Stack): (r: Stack)
    requires DbDefined(s)
    ensures r.y == s.t && r.z == s.t && r.t == s.t
    ensures DbRejects(s.x, s.y, s.z) ==> r.x == NaN
    ensures !DbRejects(s.x, s.y, s.z) ==> r.x == Val(0.0)
  {
    var (rate, s1) := Pop(s);
    var (period, s2) := Pop(s1);
    var (life, s3) := Pop(s2);
    var (salvage, s4) := Pop(s3);
    var (cost, s5) := Pop(s4);
    if life == Val(0.0) || period == Val(0.0) || period.r > life.r then SetX(s5, NaN)
    else if rate.r <= 0.0 then SetX(s5, NaN)
    else
      var periodRate := rate.r / 100.0 / life.r;
      var n := Trunc(period.r);
      if n >= 1 then Push(s5, Val(DbAmount(cost.r, salvage.r, periodRate, n)))
      else Push(s5, Val(0.0))
  }
}

=== FILE: display.dfy ===
/** The display formatter: thousands grouped with `.`, `,` as the decimal
    mark, "Error" for NaN, and the raw entry buffer while typing. */
module Display {
  import opened Numbers
  import opened Text
  import Entry

  /** `'.'.join(rev[i:i+3] for i in range(0, len(rev), 3))`. */
  function ChunkJoin(rev: string): string {
    if |rev| <= 3 then rev else rev[..3] + "." + ChunkJoin(rev[3..])
  }

  /** The source's grouping of an integer part: reverse, join chunks of
      three with `.`, reverse back; parts of at most three characters are
      left alone. */
  function GroupThousands(s: string): string {
    if |s| > 3 then Reverse(ChunkJoin(Reverse(s))) else s
  }

  /** Reference grouping, written from the right: the last three characters
      form a group and the rest is grouped the same way. */
  function Grouped(s: string): string {
    if |s| <= 3 then s else Grouped(s[..|s| - 3]) + "." + s[|s| - 3..]
  }

  /** A grouped digit string: a leading group of one to three digits, then
      groups of exactly three, each preceded by `.`. */
  ghost predicate ThreeDigitGroups(t: string) {
    if |t| <= 3 then |t| >= 1 && AllDigits(t)
    else |t| >= 5 && t[|t| - 4] == '.' && AllDigits(t[|t| - 3..]) && ThreeDigitGroups(t[..|t| - 4])
  }

  lemma {:induction false} ReverseConcat(a: string, b: string)
    ensures Reverse(a + b) == Reverse(b) + Reverse(a)
  {
    if |a| == 0 {
      assert a + b == b;
    } else {
      assert (a + b)[1..] == a[1..] + b;
      ReverseConcat(a[1..], b);
    }
  }

  lemma {:induction false} ReverseReverse(s: string)
    ensures Reverse(Reverse(s)) == s
  {
    if |s| > 0 {
      ReverseReverse(s[1..]);
      ReverseConcat(Reverse(s[1..]), [s[0]]);
      assert Reverse([s[0]]) == [s[0]];
    }
  }

  lemma {:induction false} ReversePrefix(s: string, k: nat)
    requires k <= |s|
    ensures Reverse(s)[..k] == Reverse(s[|s| - k..])
    ensures Reverse(s)[k..] == Reverse(s[..|s| - k])
  {
    var p, l := s[..|s| - k], s[|s| - k..];
    assert s == p + l;
    ReverseConcat(p, l);
  }

  /** The source's reverse-chunk-reverse grouping is the reference grouping. */
  lemma {:induction false} GroupThousandsIsGrouped(s: string)
    ensures GroupThousands(s) == Grouped(s)
  {
    if |s| > 3 {
      ReverseChunkJoin(s);
    }
  }

  lemma {:induction false} ReverseChunkJoin(s: string)
    ensures Reverse(ChunkJoin(Reverse(s))) == Grouped(s)
  {
    if |s| <= 3 {
      ReverseReverse(s);
    } else {
      var p, l := s[..|s| - 3], s[|s| - 3..];
      assert s == p + l;
      ReverseConcat(p, l);
      var rs := Reverse(s);
      ReversePrefix(s, 3);
      ReverseChunkJoin(p);
      ReverseConcat(Reverse(l) + ".", ChunkJoin(Reverse(p)));
      ReverseConcat(Reverse(l), ".");
      ReverseReverse(l);
    }
  }

  /** Deleting the separators gives back the ungrouped text. */
  lemma {:induction false} GroupedDeletesBack(s: string)
    requires '.' !in s
    ensures Delete(Grouped(s), '.') == s
  {
    if |s| <= 3 {
      DeleteAbsent(s, '.');
    } else {
      var p, l := s[..|s| - 3], s[|s| - 3..];
      assert s == p + l;
      assert '.' !in p && '.' !in l;
      GroupedDeletesBack(p);
      DeleteConcat(Grouped(p) + ".", l, '.');
      DeleteConcat(Grouped(p), ".", '.');
      DeleteAbsent(l, '.');
    }
  }

  /** A non-empty digit string groups into threes from the right. */
  lemma {:induction false} GroupedShape(s: string)
    requires |s| >= 1 && AllDigits(s)
    ensures ThreeDigitGroups(Grouped(s))
  {
    if |s| > 3 {
      var p := s[..|s| - 3];
      assert AllDigits(p);
      GroupedShape(p);
      var t := Grouped(s);
      GroupedLength(p);
      assert t[..|t| - 4] == Grouped(p);
      assert t[|t| - 3..] == s[|s| - 3..];
    }
  }

  lemma {:induction false} GroupedLength(s: string)
    ensures |Grouped(s)| >= |s|
  {
    if |s| > 3 {
      GroupedLength(s[..|s| - 3]);
    }
  }

  /** Round half to even, the default rounding of Python's `Decimal`. */
  function RoundHalfEven(x: real): (n: nat)
    requires x >= 0.0
    ensures Abs(n as real - x) <= 0.5
    ensures Abs(n as real - x) == 0.5 ==> n % 2 == 0
  {
    var f := x.Floor;
    var frac := x - f as real;
    if frac > 0.5 then f + 1
    else if frac < 0.5 then f
    else if f % 2 == 0 then f
    else f + 1
  }

  /** The scaled magnitude `round(|r| * 10^d)` that fixed-point formatting prints. */
  function Scaled(r: real, d: nat): (n: nat)
    ensures Abs(n as real - Abs(r) * Pow10(d)) <= 0.5
  {
    var a, p := Abs(r), Pow10(d);
    NonnegativeProduct(a, p);
    var x := a * p;
    var n := RoundHalfEven(x);
    assert x == Abs(r) * Pow10(d);
    n
  }

  lemma NonnegativeProduct(a: real, b: real)
    requires a >= 0.0 && b >= 0.0
    ensures a * b >= 0.0
  {
  }

  /** Integer digits of the fixed-point text. */
  function IntDigits(r: real, d: nat): string {
    var n, p := Scaled(r, d), Pow10Nat(d);
    DivModBounds(n, p);
    Digits(n / p)
  }

  /** Fraction digits of the fixed-point text: `d` digits, none when `d == 0`. */
  function FracDigits(r: real, d: nat): string {
    var n, p := Scaled(r, d), Pow10Nat(d);
    DivModBounds(n, p);
    if d > 0 then ZFill(Digits(n % p), d) else ""
  }

  function SignText(r: real): string {
    if r < 0.0 then "-" else ""
  }

  /** `f"{r:.{d}f}"` for a Decimal: sign, integer digits, and when `d > 0` a
      `.` followed by exactly `d` digits of the half-even rounded value. */
  function FixedPoint(r: real, d: nat): string {
    SignText(r) + IntDigits(r, d) + (if d > 0 then "." + FracDigits(r, d) else "")
  }

  lemma DivModBounds(n: nat, p: nat)
    requires p >= 1
    ensures n / p >= 0 && 0 <= n % p < p
    ensures n == (n / p) * p + n % p
  {
  }

  /** `_format_number`: "Error" for NaN; otherwise the fixed-point text
      with its integer part grouped and `,` as the decimal mark. */
  function FormatNumber(v: Num, d: nat): string {
    if v.NaN? then "Error" else Regroup(FixedPoint(v.r, d))
  }

  /** The text manipulation of `_format_number` after `f"{x:.{d}f}"`: split
      at the first `.`, strip the sign, group the integer part, and join the
      fraction with `,`. */
  function Regroup(f: string): string {
    var (ip0, dp) := SplitFirst(f, '.');
    var sign := if |ip0| > 0 && ip0[0] == '-' then "-" else "";
    var ip := if |ip0| > 0 && ip0[0] == '-' then ip0[1..] else ip0;
    if dp.Some? then sign + GroupThousands(ip) + "," + dp.value
    else sign + GroupThousands(ip)
  }

  /** `_format_entry_buffer`: the typed text with its integer part grouped. */
  function FormatEntry(buffer: string): string {
    if buffer == "Error" then buffer
    else
      var (ip0, dp) := SplitFirst(buffer, ',');
      var sign := if |ip0| > 0 && ip0[0] == '-' then "-" else "";
      var ip := if |ip0| > 0 && ip0[0] == '-' then ip0[1..] else ip0;
      var ig := GroupThousands(ip);
      if dp.Some? then sign + ig + "," + dp.value
      else if |buffer| > 0 && buffer[|buffer| - 1] == ',' then sign + ig + ","
      else sign + ig
  }

  /** The value the formatted number stands for: sign times the rounded
      magnitude over `10^d`. */
  function Rounded(r: real, d: nat): real {
    var m := Scaled(r, d) as real / Pow10(d);
    if r < 0.0 then -m else m
  }

  /** The display of a number: "Error" exactly for NaN; otherwise an
      optional `-`, the integer digits in groups of three, and when
      `d > 0` a `,` followed by exactly `d` digits (no `,` at all when
      `d == 0`). */
  lemma FormatNumberShape(v: Num, d: nat)
    ensures v.NaN? <==> FormatNumber(v, d) == "Error"
    ensures v.Val? ==> exists sign: string, ig: string, frac: string ::
      && (sign == "" || sign == "-")
      && FormatNumber(v, d) == sign + ig + (if d > 0 then "," + frac else "")
      && ThreeDigitGroups(ig)
      && |frac| == d && AllDigits(frac)
  {
    if v.Val? {
      FormatValueShape(v.r, d);
      FormatNotError(v.r, d);
    } else {
      assert FormatNumber(v, d) == "Error";
    }
  }

  lemma FormatValueShape(r: real, d: nat)
    ensures exists sign: string, ig: string, frac: string ::
      && (sign == "" || sign == "-")
      && FormatNumber(Val(r), d) == sign + ig + (if d > 0 then "," + frac else "")
      && ThreeDigitGroups(ig)
      && |frac| == d && AllDigits(frac)
  {
    var sign, q, frac := SignText(r), IntDigits(r, d), FracDigits(r, d);
    var tail := if d > 0 then "," + frac else "";
    FixedPointParts(r, d);
    FracDigitsFacts(r, d);
    GroupThousandsIsGrouped(q);
    var ig := Grouped(q);
    assert FormatNumber(Val(r), d) == sign + ig + tail;
    GroupedShape(q);
    NumberShapeWitness(FormatNumber(Val(r), d), sign, ig, frac, d);
  }

  lemma NumberShapeWitness(f: string, sign: string, ig: string, frac: string, d: nat)
    requires sign == "" || sign == "-"
    requires f == sign + ig + (if d > 0 then "," + frac else "")
    requires ThreeDigitGroups(ig) && |frac| == d && AllDigits(frac)
    ensures exists sign: string, ig: string, frac: string ::
      && (sign == "" || sign == "-")
      && f == sign + ig + (if d > 0 then "," + frac else "")
      && ThreeDigitGroups(ig)
      && |frac| == d && AllDigits(frac)
  {
  }

  lemma FracDigitsFacts(r: real, d: nat)
    ensures AllDigits(FracDigits(r, d)) && |FracDigits(r, d)| == d
    ensures ValueOf(FracDigits(r, d)) == Scaled(r, d) % Pow10Nat(d)
  {
    var n, p := Scaled(r, d), Pow10Nat(d);
    DivModBounds(n, p);
    if d > 0 {
      DigitsLength(n % p, d);
      ZFillDigits(Digits(n % p), d);
    }
  }

  /** How `FormatNumber` splits the fixed-point text and reassembles it. */
  lemma FixedPointParts(r: real, d: nat)
    ensures FormatNumber(Val(r), d) ==
      SignText(r) + GroupThousands(IntDigits(r, d)) + (if d > 0 then "," + FracDigits(r, d) else "")
  {
    RegroupParts(SignText(r), IntDigits(r, d), FracDigits(r, d), d > 0);
  }

  /** `Regroup` on `[-]q[.frac]` with a digit string `q`. */
  lemma RegroupParts(sign: string, q: string, frac: string, hasFrac: bool)
    requires sign == "" || sign == "-"
    requires |q| >= 1 && AllDigits(q)
    ensures Regroup(sign + q + (if hasFrac then "." + frac else "")) ==
      sign + GroupThousands(q) + (if hasFrac then "," + frac else "")
  {
    var head := sign + q;
    var f := sign + q + (if hasFrac then "." + frac else "");
    assert '.' !in q && q[0] != '-' by {
      assert !IsDigit('.') && !IsDigit('-');
    }
    assert '.' !in head;
    var dp: Option<string>;
    if hasFrac {
      assert f == head + ['.'] + frac;
      SplitAtFirst(head, frac, '.');
      dp := Some(frac);
    } else {
      assert f == head;
      SplitFirstAbsent(head, '.');
      dp := None;
    }
    assert SplitFirst(f, '.') == (head, dp);
    StripSign(sign, q);
    var ip := if |head| > 0 && head[0] == '-' then head[1..] else head;
    assert ip == q;
    assert (if |head| > 0 && head[0] == '-' then "-" else "") == sign;
    assert Regroup(f) == if dp.Some? then sign + GroupThousands(ip) + "," + dp.value
      else sign + GroupThousands(ip);
  }

  /** Removing the optional sign in front of unsigned text. */
  lemma StripSign(sign: string, q: string)
    requires sign == "" || sign == "-"
    requires |q| >= 1 && q[0] != '-'
    ensures var head := sign + q;
      |head| > 0 && (head[0] == '-' <==> sign == "-") &&
      (if head[0] == '-' then head[1..] else head) == q
  {
    if sign == "-" {
      assert (sign + q)[1..] == q;
    } else {
      assert sign + q == q;
    }
  }

  lemma SplitFirstAbsent(s: string, c: char)
    requires c !in s
    ensures SplitFirst(s, c) == (s, None)
  {
  }

  lemma SplitAtFirst(a: string, b: string, c: char)
    requires c !in a
    ensures SplitFirst(a + [c] + b, c) == (a, Some(b))
  {
    var s := a + [c] + b;
    if |a| > 0 {
      assert a[0] in a;
      assert s[0] == a[0];
      assert s[1..] == a[1..] + [c] + b;
      SplitAtFirst(a[1..], b, c);
      assert [a[0]] + a[1..] == a;
    } else {
      assert s == [c] + b;
      assert s[1..] == b;
    }
  }

  lemma FormatNotError(r: real, d: nat)
    ensures FormatNumber(Val(r), d) != "Error"
  {
    FixedPointParts(r, d);
    var q := IntDigits(r, d);
    GroupThousandsIsGrouped(q);
    var f := FormatNumber(Val(r), d);
    var sign := SignText(r);
    var g := Grouped(q);
    GroupedLength(q);
    assert f[|sign|] == g[0];
    GroupedFirstIsDigit(q);
  }

  lemma {:induction false} GroupedFirstIsDigit(s: string)
    requires |s| >= 1 && AllDigits(s)
    ensures IsDigit(Grouped(s)[0])
  {
    if |s| > 3 {
      GroupedFirstIsDigit(s[..|s| - 3]);
      GroupedLength(s[..|s| - 3]);
    }
  }

  /** Reading the display back — deleting the grouping dots and taking `,`
      as the decimal point — gives the rounded value, which is within half
      a unit of the last shown place of the exact value. */
  lemma FormatNumberReadsBack(r: real, d: nat)
    ensures Entry.MantissaValue(Delete(FormatNumber(Val(r), d), '.')) == Some(Rounded(r, d))
    ensures Abs(Rounded(r, d) - r) <= 0.5 / Pow10(d)
  {
    ReadsBackDigits(r, d);
    RoundedDigits(r, d);
    CloseToScaled(r, d);
  }

  /** The magnitude the printed digits spell: integer digits plus the
      fraction digits over `10^d`. */
  function DigitsMagnitude(r: real, d: nat): real {
    var n, p := Scaled(r, d), Pow10Nat(d);
    DivModBounds(n, p);
    Reading(n / p, n % p, d)
  }

  /** The value of `q.frac` from the values of its integer digits and of
      its `d` fraction digits. */
  function Reading(qv: nat, fv: nat, d: nat): real {
    if d > 0 then Entry.DecimalValue(qv, fv, d) else qv as real
  }

  lemma ReadsBackDigits(r: real, d: nat)
    ensures Entry.MantissaValue(Delete(FormatNumber(Val(r), d), '.')) ==
      Some(if r < 0.0 then -DigitsMagnitude(r, d) else DigitsMagnitude(r, d))
  {
    var n, p := Scaled(r, d), Pow10Nat(d);
    var sign, q, frac := SignText(r), IntDigits(r, d), FracDigits(r, d);
    var t := Delete(FormatNumber(Val(r), d), '.');
    assert t == sign + q + (if d > 0 then "," + frac else "") && |q| >= 1 && AllDigits(q) by {
      DotsDeleted(r, d);
    }
    assert ValueOf(q) == n / p by {
      DotsDeleted(r, d);
    }
    assert AllDigits(frac) && |frac| == d && ValueOf(frac) == n % p by {
      FracDigitsFacts(r, d);
    }
    assert 0 <= n / p && 0 <= n % p by {
      DivModBounds(n, p);
    }
    ReadSigned(Delete(FormatNumber(Val(r), d), '.'), sign, q, frac, d, n / p, n % p, r < 0.0);
  }

  lemma ReadSigned(t: string, sign: string, q: string, frac: string, d: nat, qv: nat, fv: nat, neg: bool)
    requires sign == if neg then "-" else ""
    requires |q| >= 1 && AllDigits(q) && ValueOf(q) == qv
    requires AllDigits(frac) && |frac| == d && ValueOf(frac) == fv
    requires t == sign + q + (if d > 0 then "," + frac else "")
    ensures Entry.MantissaValue(t) == Some(if neg then -Reading(qv, fv, d) else Reading(qv, fv, d))
  {
    ReadPlain(sign, q, frac, d, qv, fv);
  }

  /** Deleting the dots of the display leaves the plain fixed-point text. */
  lemma DotsDeleted(r: real, d: nat)
    ensures ValueOf(IntDigits(r, d)) == Scaled(r, d) / Pow10Nat(d)
    ensures |IntDigits(r, d)| >= 1 && AllDigits(IntDigits(r, d))
    ensures Delete(FormatNumber(Val(r), d), '.') ==
      SignText(r) + IntDigits(r, d) + (if d > 0 then "," + FracDigits(r, d) else "")
  {
    var n, p := Scaled(r, d), Pow10Nat(d);
    var sign, q, frac := SignText(r), IntDigits(r, d), FracDigits(r, d);
    FixedPointParts(r, d);
    FracDigitsFacts(r, d);
    DivModBounds(n, p);
    assert ValueOf(q) == n / p && |q| >= 1 && AllDigits(q);
    assert '.' !in q && '.' !in frac by {
      assert !IsDigit('.');
    }
    UngroupParts(sign, q, frac, d > 0);
  }

  lemma RoundedDigits(r: real, d: nat)
    ensures Rounded(r, d) == if r < 0.0 then -DigitsMagnitude(r, d) else DigitsMagnitude(r, d)
  {
    var n, p := Scaled(r, d), Pow10Nat(d);
    DivModReal(n, p);
    if d == 0 {
      assert p == 1;
    }
  }

  /** Deleting the dots from `[-]grouped(q)[,frac]` leaves `[-]q[,frac]`. */
  lemma UngroupParts(sign: string, q: string, frac: string, hasFrac: bool)
    requires sign == "" || sign == "-"
    requires '.' !in q && '.' !in frac
    ensures Delete(sign + GroupThousands(q) + (if hasFrac then "," + frac else ""), '.') ==
      sign + q + (if hasFrac then "," + frac else "")
  {
    var tail := if hasFrac then "," + frac else "";
    assert '.' !in tail;
    GroupThousandsIsGrouped(q);
    GroupedDeletesBack(q);
    DeleteConcat(sign + Grouped(q), tail, '.');
    DeleteConcat(sign, Grouped(q), '.');
    DeleteAbsent(sign, '.');
    DeleteAbsent(tail, '.');
  }

  /** `[-]q,frac` reads as `±(q + frac/10^d)`. */
  lemma ReadPlain(sign: string, q: string, frac: string, d: nat, qv: nat, fv: nat)
    requires sign == "" || sign == "-"
    requires |q| >= 1 && AllDigits(q) && ValueOf(q) == qv
    requires AllDigits(frac) && |frac| == d && ValueOf(frac) == fv
    ensures Entry.MantissaValue(sign + q + (if d > 0 then "," + frac else "")) ==
      Some(if sign == "-" then -Reading(qv, fv, d) else Reading(qv, fv, d))
  {
    var x := if d > 0 then "." + frac else "";
    CommaToPoint(sign, q, frac, d > 0);
    ConcatAssoc(sign, q, x);
    UnsignedDecimal(q, frac, d, qv, fv);
    assert !IsDigit('-') && !IsDigit('+');
    SignedReading(sign, q + x, Reading(qv, fv, d));
  }

  lemma ConcatAssoc(a: string, b: string, c: string)
    ensures a + b + c == a + (b + c)
  {
  }

  /** An optional `-` in front of an unsigned decimal negates it. */
  lemma SignedReading(sign: string, u: string, v: real)
    requires sign == "" || sign == "-"
    requires Entry.ParseUnsigned(u) == Some(v)
    requires |u| > 0 && u[0] != '-' && u[0] != '+'
    ensures Entry.ParseSigned(sign + u) == Some(if sign == "-" then -v else v)
  {
    if sign == "-" {
      assert (sign + u)[1..] == u;
    } else {
      assert sign + u == u;
    }
  }

  /** Reading `,` as `.` in `[-]q[,frac]` with digit strings `q` and `frac`. */
  lemma CommaToPoint(sign: string, q: string, frac: string, hasFrac: bool)
    requires sign == "" || sign == "-"
    requires AllDigits(q) && AllDigits(frac)
    ensures Replace(sign + q + (if hasFrac then "," + frac else ""), ',', '.') ==
      sign + q + (if hasFrac then "." + frac else "")
  {
    assert !IsDigit(',');
    assert ',' !in q && ',' !in frac && ',' !in sign;
    ReplaceAbsent(q, ',', '.');
    ReplaceAbsent(frac, ',', '.');
    ReplaceAbsent(sign, ',', '.');
    ReplaceConcat(sign, q, ',', '.');
    if hasFrac {
      ReplaceConcat(sign + q, "," + frac, ',', '.');
      ReplaceConcat(",", frac, ',', '.');
      assert Replace(",", ',', '.') == ".";
    } else {
      assert sign + q + "" == sign + q;
    }
  }

  /** `q.frac` (or `q` alone when `d == 0`) reads as `q + frac/10^d`. */
  lemma UnsignedDecimal(q: string, frac: string, d: nat, qv: nat, fv: nat)
    requires |q| >= 1 && AllDigits(q) && ValueOf(q) == qv
    requires AllDigits(frac) && |frac| == d && ValueOf(frac) == fv
    ensures Entry.ParseUnsigned(q + (if d > 0 then "." + frac else "")) == Some(Reading(qv, fv, d))
  {
    assert !IsDigit('.');
    assert '.' !in q;
    if d > 0 {
      UnsignedWithFraction(q, frac);
    } else {
      assert q + "" == q;
      SplitFirstAbsent(q, '.');
    }
  }

  lemma UnsignedWithFraction(q: string, frac: string)
    requires |q| >= 1 && AllDigits(q) && AllDigits(frac) && '.' !in q
    ensures Entry.ParseUnsigned(q + ("." + frac)) ==
      Some(Entry.DecimalValue(ValueOf(q), ValueOf(frac), |frac|))
  {
    assert q + ("." + frac) == q + ['.'] + frac;
    SplitAtFirst(q, frac, '.');
  }

  lemma DivModReal(n: nat, p: nat)
    requires p >= 1
    ensures (n / p) as real + (n % p) as real / p as real == n as real / p as real
  {
    var q, m := n / p, n % p;
    assert n == q * p + m;
    assert (q * p) as real == q as real * p as real;
  }

  lemma CloseToScaled(r: real, d: nat)
    ensures Abs(Rounded(r, d) - r) <= 0.5 / Pow10(d)
  {
    RoundedIsRatio(r, d);
    SignedCloseness(r, Scaled(r, d) as real, Pow10(d));
  }

  lemma RoundedIsRatio(r: real, d: nat)
    ensures Rounded(r, d) ==
      if r < 0.0 then -(Scaled(r, d) as real / Pow10(d))
      else Scaled(r, d) as real / Pow10(d)
  {
  }

  /** Restoring the sign keeps the distance: `±n/p` is as close to `r` as
      `n/p` is to `|r|`. */
  lemma SignedCloseness(r: real, n: real, p: real)
    requires p > 0.0 && Abs(n - Abs(r) * p) <= 0.5
    ensures Abs((if r < 0.0 then -(n / p) else n / p) - r) <= 0.5 / p
  {
    var a := Abs(r);
    ScaleBack(n, a, p);
    var m := n / p;
    if r < 0.0 {
      assert -m - r == -(m - a);
    }
  }

  /** Dividing by `p` shrinks a distance by `p`. */
  lemma ScaleBack(n: real, a: real, p: real)
    requires p > 0.0 && Abs(n - a * p) <= 0.5
    ensures Abs(n / p - a) <= 0.5 / p
  {
    var y := n - a * p;
    assert n / p - a == y / p;
    if y >= 0.0 {
      DivMonotone(y, 0.5, p);
    } else {
      assert -(y / p) == (-y) / p;
      DivMonotone(-y, 0.5, p);
    }
  }

  lemma DivMonotone(x: real, z: real, p: real)
    requires p > 0.0 && x <= z
    ensures x / p <= z / p
  {
    assert z / p - x / p == (z - x) / p;
  }

  /** Deleting every `.` from the formatted buffer returns the buffer: the
      entry display only inserts grouping separators. */
  lemma FormatEntryDeletesBack(buffer: string)
    requires '.' !in buffer
    ensures Delete(FormatEntry(buffer), '.') == buffer
  {
    if buffer == "Error" {
      DeleteAbsent(buffer, '.');
    } else {
      var (ip0, dp) := SplitFirst(buffer, ',');
      var neg := |ip0| > 0 && ip0[0] == '-';
      var sign := if neg then "-" else "";
      var ip := if neg then ip0[1..] else ip0;
      SignPrefix(ip0);
      var frac := if dp.Some? then dp.value else "";
      assert '.' !in ip0 && '.' !in frac by {
        if dp.Some? {
          assert buffer == ip0 + [','] + dp.value;
        }
      }
      assert '.' !in ip;
      UngroupParts(sign, ip, frac, dp.Some?);
      if dp.Some? {
        ConcatAssoc(ip0, [','], dp.value);
        ConcatAssoc(sign + GroupThousands(ip), ",", frac);
      } else {
        assert !(|buffer| > 0 && buffer[|buffer| - 1] == ',');
        assert sign + ip + "" == sign + ip;
        assert sign + GroupThousands(ip) + "" == sign + GroupThousands(ip);
      }
    }
  }

  /** Text splits into its optional leading `-` and the rest. */
  lemma SignPrefix(s: string)
    ensures var neg := |s| > 0 && s[0] == '-';
      s == (if neg then "-" else "") + (if neg then s[1..] else s)
  {
    if |s| > 0 && s[0] == '-' {
      assert s == [s[0]] + s[1..];
    } else {
      assert s == "" + s;
    }
  }
}

=== FILE: entry.dfy ===
/** The entry buffer: the mantissa typed so far (with `,` as the decimal
    mark), whether a number is being typed, and the exponent typed after
    EEX.  `Finalize` turns the text into a value the way the source builds
    a `Decimal` string and parses it. */
module Entry {
  import opened Numbers
  import opened Text

  datatype Entry = Entry(buffer: string, entering: bool, exponentMode: bool, exponent: string)

  /** The entry state after construction and after ON. */
  const Idle := Entry("0", false, false, "")

  /** What finalizing did to the stack: nothing, a lift of the parsed value,
      or (when the text does not parse) X overwritten with NaN. */
  datatype Commit = Kept | Pushed(v: real) | Failed

  predicate IsEntryChar(c: char) {
    IsDigit(c) || c == ','
  }

  /** The buffer holds no `.` (the keys type `,` as the decimal mark) and
      at most one `,`. */
  predicate WellFormed(e: Entry) {
    '.' !in e.buffer && Count(e.buffer, ',') <= 1
  }

  /** A digit or the `,` key typed into the buffer. */
  function TypeChar(e: Entry, c: char): (r: Entry)
    requires IsEntryChar(c)
    ensures e.exponentMode ==> r.buffer == e.buffer && r.entering == e.entering && r.exponentMode
    ensures e.exponentMode && |e.exponent| >= 2 ==> r == e
    ensures |e.exponent| <= 2 ==> |r.exponent| <= 2
    ensures !e.exponentMode ==> r.entering && r.exponent == e.exponent
    ensures !e.exponentMode && (!e.entering || e.buffer == "Error") ==>
      r.buffer == (if c == ',' then "0," else [c])
    ensures Count(e.buffer, ',') <= 1 ==> Count(r.buffer, ',') <= 1
    ensures WellFormed(e) ==> WellFormed(r)
  {
    if e.exponentMode then
      if |e.exponent| < 2 then e.(exponent := e.exponent + [c]) else e
    else if !e.entering || e.buffer == "Error" then
      e.(entering := true, buffer := if c == ',' then "0," else [c])
    else if c == ',' && ',' in e.buffer then
      e
    else
      CountConcat(e.buffer, [c], ',');
      CountAbsent(e.buffer, ',');
      e.(buffer := e.buffer + [c])
  }

  /** The text a sequence of entry keys leaves behind. */
  function TypeAll(e: Entry, w: string): Entry
    requires forall i :: 0 <= i < |w| ==> IsEntryChar(w[i])
  {
    if |w| == 0 then e else TypeChar(TypeAll(e, w[..|w| - 1]), w[|w| - 1])
  }

  /** CHS while typing: toggle a leading `-` on the part being typed; a
      mantissa or exponent that is exactly "0" stays unsigned. */
  function ChangeSign(e: Entry): (r: Entry)
    requires e.entering
    ensures r.entering == e.entering && r.exponentMode == e.exponentMode
    ensures r.buffer != e.buffer ==> !e.exponentMode
    ensures r.exponent != e.exponent ==> e.exponentMode
    ensures r.buffer == "-" + e.buffer ==> e.buffer != "0"
    ensures r.exponent == "-" + e.exponent ==> e.exponent != "0"
    ensures WellFormed(e) ==> WellFormed(r)
  {
    SignCommas(e.buffer);
    if e.exponentMode then
      if |e.exponent| > 0 && e.exponent[0] == '-' then e.(exponent := e.exponent[1..])
      else if e.exponent != "0" then e.(exponent := "-" + e.exponent)
      else e
    else
      if |e.buffer| > 0 && e.buffer[0] == '-' then e.(buffer := e.buffer[1..])
      else if e.buffer != "0" then e.(buffer := "-" + e.buffer)
      else e
  }

  /** A leading `-` adds no `,` and no `.`. */
  lemma SignCommas(b: string)
    ensures Count("-" + b, ',') == Count(b, ',')
    ensures |b| > 0 && b[0] == '-' ==> Count(b[1..], ',') == Count(b, ',')
    ensures '.' !in b ==> '.' !in "-" + b
  {
    assert ("-" + b)[1..] == b;
  }

  /** EEX: start "0" if nothing is being typed, then type the exponent,
      seeded with "0". */
  function StartExponent(e: Entry): (r: Entry)
    ensures r.entering && r.exponentMode && r.exponent == "0"
    ensures e.entering ==> r.buffer == e.buffer
    ensures !e.entering ==> r.buffer == "0"
    ensures WellFormed(e) ==> WellFormed(r)
  {
    if !e.entering then Entry("0", true, true, "0") else e.(exponentMode := true, exponent := "0")
  }

  /** CLx while typing: abandon the text without committing it.  The
      exponent flag and text are left as they were. */
  function Abandon(e: Entry): (r: Entry)
    ensures !r.entering && r.buffer == "0"
    ensures r.exponentMode == e.exponentMode && r.exponent == e.exponent
  {
    e.(buffer := "0", entering := false)
  }

  /** The texts `Decimal` reads as an unsigned plain decimal: digits and
      at most one `.`, with at least one digit ("5." and ".5" both count). */
  predicate UnsignedText(s: string) {
    (forall i :: 0 <= i < |s| ==> IsDigit(s[i]) || s[i] == '.') &&
    Count(s, '.') <= 1 && Count(s, '.') < |s|
  }

  /** `Decimal(s)` for text with no sign and no exponent, read through the
      split at the first `.`. */
  function ParseUnsigned(s: string): (r: Option<real>)
    ensures r.Some? ==> r.value >= 0.0
  {
    var split := SplitFirst(s, '.');
    ParseParts(split.0, split.1)
  }

  /** The digits before the first `.` and, when there is one, after it. */
  function ParseParts(ip: string, fp: Option<string>): Option<real> {
    if fp.None? then
      if |ip| >= 1 && AllDigits(ip) then Some(ValueOf(ip) as real) else None
    else if AllDigits(ip) && AllDigits(fp.value) && |ip| + |fp.value| >= 1 then
      Some(DecimalValue(ValueOf(ip), ValueOf(fp.value), |fp.value|))
    else None
  }

  /** `Decimal` accepts exactly the unsigned decimal texts. */
  lemma ParseUnsignedAccepts(s: string)
    ensures ParseUnsigned(s).Some? <==> UnsignedText(s)
  {
    UnsignedTextSplit(s);
  }

  /** The acceptance condition as the split at the first `.` sees it. */
  lemma UnsignedTextSplit(s: string)
    ensures var (ip, fp) := SplitFirst(s, '.');
      UnsignedText(s) <==>
        if fp.None? then |ip| >= 1 && AllDigits(ip)
        else AllDigits(ip) && AllDigits(fp.value) && |ip| + |fp.value| >= 1
  {
    var (ip, fp) := SplitFirst(s, '.');
    if fp.None? {
      CountAbsent(s, '.');
    } else {
      var f := fp.value;
      CountConcat(ip + ".", f, '.');
      CountConcat(ip, ".", '.');
      CountAbsent(ip, '.');
      CountAbsent(f, '.');
      assert Count(s, '.') == 1 + Count(f, '.');
      assert forall i :: 0 <= i < |ip| ==> s[i] == ip[i];
      assert forall i :: 0 <= i < |f| ==> s[|ip| + 1 + i] == f[i];
    }
  }

  /** Digits alone read as the integer they spell. */
  lemma ParseWhole(w: string)
    requires |w| >= 1 && AllDigits(w)
    ensures ParseUnsigned(w) == Some(ValueOf(w) as real)
  {
    assert '.' !in w by {
      assert !IsDigit('.');
    }
  }

  /** Digits `ip`, a point and digits `fp` read as `ip` plus `fp` tenths,
      hundredths and so on. */
  lemma ParsePointed(ip: string, fp: string)
    requires AllDigits(ip) && AllDigits(fp) && |ip| + |fp| >= 1
    ensures ParseUnsigned(ip + "." + fp) == Some(ValueOf(ip) as real + ValueOf(fp) as real / Pow10(|fp|))
  {
    SplitAtPoint(ip, fp);
    PointedParts(ip, fp);
  }

  lemma SplitAtPoint(ip: string, fp: string)
    requires AllDigits(ip)
    ensures ParseUnsigned(ip + "." + fp) == ParseParts(ip, Some(fp))
  {
    var s := ip + "." + fp;
    assert '.' !in ip by {
      assert !IsDigit('.');
    }
    SplitFirstAt(ip, fp, '.');
    assert ParseUnsigned(s) == ParseParts(SplitFirst(s, '.').0, SplitFirst(s, '.').1);
  }

  lemma PointedParts(ip: string, fp: string)
    requires AllDigits(ip) && AllDigits(fp) && |ip| + |fp| >= 1
    ensures ParseParts(ip, Some(fp)) == Some(ValueOf(ip) as real + ValueOf(fp) as real / Pow10(|fp|))
  {
    PointValue(ValueOf(ip), ValueOf(fp), |fp|);
  }

  lemma PointValue(w: nat, f: nat, places: nat)
    ensures DecimalValue(w, f, places) == w as real + f as real / Pow10(places)
  {
    assert Pow10(places) == Pow10Nat(places) as real;
  }

  /** The value of `w.f` where `w` and `f` are the values of the digits
      before and after the point and `places` is the number of digits after it. */
  function DecimalValue(w: nat, f: nat, places: nat): (v: real)
    ensures v >= 0.0
  {
    w as real + f as real / Pow10Nat(places) as real
  }

  /** `Decimal(s)` for an optionally signed plain decimal. */
  function ParseSigned(s: string): Option<real> {
    if |s| > 0 && (s[0] == '-' || s[0] == '+') then
      match ParseUnsigned(s[1..])
      case Some(v) => Some(if s[0] == '-' then -v else v)
      case None => None
    else ParseUnsigned(s)
  }

  /** The exponent part of `Decimal("…e<exp>")`: a sign and at least one digit. */
  function ParseExponent(s: string): (r: Option<int>)
    ensures r.Some? ==> |s| >= 1
  {
    if |s| >= 2 && (s[0] == '-' || s[0] == '+') && AllDigits(s[1..]) then
      Some(if s[0] == '-' then 0 - ValueOf(s[1..]) else ValueOf(s[1..]))
    else if |s| >= 1 && AllDigits(s) then Some(ValueOf(s))
    else None
  }

  /** The value of the mantissa text, with `,` read as the decimal point. */
  function MantissaValue(buffer: string): Option<real> {
    ParseSigned(Replace(buffer, ',', '.'))
  }

  /** The value `Decimal` reads from the mantissa followed by `e<exponent>`
      (or `e0` when the exponent text is empty).  Stripping a trailing `.`
      before parsing does not change the value and is not modelled. */
  function EntryValue(e: Entry): Option<real> {
    match MantissaValue(e.buffer)
    case None => None
    case Some(m) =>
      if !e.exponentMode then Some(m)
      else if e.exponent == "" then Some(m)
      else
        match ParseExponent(e.exponent)
        case None => None
        case Some(x) => Some(WithExponent(m, x))
  }

  /** `m` scaled by the exponent `x`: `m × 10^x`. */
  function WithExponent(m: real, x: int): real {
    m * Pow10(x)
  }

  /** Finalize: commit the typed text.  Not typing: nothing happens.  An
      empty or bare "-" buffer cancels silently (leaving the exponent flag
      alone); otherwise the value is pushed, or X becomes NaN when the text
      does not parse, and exponent entry ends. */
  function Finalize(e: Entry): (r: (Entry, Commit))
    ensures !r.0.entering
    ensures !e.entering ==> r == (e, Kept)
    ensures e.entering && EntryValue(e).Some? && e.buffer != "-" ==> r.1 == Pushed(EntryValue(e).value)
    ensures r.1.Failed? ==> e.entering && EntryValue(e).None?
    ensures r.1 != Kept ==> !r.0.exponentMode && r.0.exponent == ""
    ensures r.0.buffer == e.buffer
  {
    if !e.entering then (e, Kept)
    else if e.buffer == "" || e.buffer == "-" then (e.(entering := false), Kept)
    else
      var committed := e.(entering := false, exponentMode := false, exponent := "");
      match EntryValue(e)
      case Some(v) => (committed, Pushed(v))
      case None => (committed, Failed)
  }

  /** Finalizing twice is finalizing once. */
  lemma FinalizeIdempotent(e: Entry)
    ensures Finalize(Finalize(e).0) == (Finalize(e).0, Kept)
  {
  }

  /** CHS negates the value the mantissa will commit. */
  lemma ChangeSignNegates(e: Entry, v: real)
    requires e.entering && !e.exponentMode
    requires MantissaValue(e.buffer) == Some(v)
    requires |e.buffer| == 0 || e.buffer[0] != '+'
    ensures MantissaValue(ChangeSign(e).buffer) == Some(-v)
  {
    var b := e.buffer;
    if |b| > 0 && b[0] == '-' {
      UnsignNegates(b, v);
    } else if b != "0" {
      SignNegates(b, v);
    } else {
      assert Replace(b, ',', '.') == "0";
    }
  }

  lemma UnsignNegates(b: string, v: real)
    requires |b| > 0 && b[0] == '-'
    requires MantissaValue(b) == Some(v)
    ensures MantissaValue(b[1..]) == Some(-v)
  {
    ReplaceConcat("-", b[1..], ',', '.');
    assert b == "-" + b[1..];
    var t := Replace(b[1..], ',', '.');
    if |t| > 0 && (t[0] == '-' || t[0] == '+') {
      UnsignedNeedsDigitFirst(t);
    } else {
      MinusParse(t);
    }
  }

  lemma SignNegates(b: string, v: real)
    requires |b| == 0 || (b[0] != '-' && b[0] != '+')
    requires MantissaValue(b) == Some(v)
    ensures MantissaValue("-" + b) == Some(-v)
  {
    ReplaceConcat("-", b, ',', '.');
    var t := Replace(b, ',', '.');
    if |b| > 0 {
      assert t == [if b[0] == ',' then '.' else b[0]] + Replace(b[1..], ',', '.');
    }
    MinusParse(t);
  }

  /** A leading minus negates an unsigned decimal. */
  lemma MinusParse(t: string)
    requires |t| == 0 || (t[0] != '-' && t[0] != '+')
    ensures ParseSigned("-" + t) ==
      (match ParseSigned(t) case Some(u) => Some(-u) case None => None)
  {
    assert ("-" + t)[1..] == t;
  }

  /** Text that starts with a sign is not an unsigned decimal. */
  lemma UnsignedNeedsDigitFirst(s: string)
    requires |s| > 0 && (s[0] == '-' || s[0] == '+')
    ensures ParseUnsigned(s) == None
  {
    var (ip, fp) := SplitFirst(s, '.');
    if |ip| > 0 {
      assert ip[0] == s[0];
    }
  }

  predicate DoublySigned(s: string) {
    |s| >= 2 && s[0] == '-' && s[1] == '-'
  }

  /** CHS twice restores the text, except a lone "-0" which collapses. */
  lemma ChangeSignTwice(e: Entry)
    requires e.entering
    requires e.exponentMode ==> e.exponent != "-0" && !DoublySigned(e.exponent)
    requires !e.exponentMode ==> e.buffer != "-0" && !DoublySigned(e.buffer)
    ensures ChangeSign(ChangeSign(e)) == e
  {
    if e.exponentMode {
      if |e.exponent| > 0 && e.exponent[0] == '-' {
        assert "-" + e.exponent[1..] == e.exponent;
      }
    } else {
      if |e.buffer| > 0 && e.buffer[0] == '-' {
        assert "-" + e.buffer[1..] == e.buffer;
      }
    }
  }

  /** Typing a run of digits from the idle state leaves exactly those
      digits in the buffer, and finalizing commits their value. */
  lemma {:induction false} TypingDigits(e: Entry, w: string)
    requires !e.entering && !e.exponentMode
    requires |w| >= 1 && AllDigits(w)
    ensures TypeAll(e, w).buffer == w
    ensures TypeAll(e, w).entering && !TypeAll(e, w).exponentMode
    ensures Finalize(TypeAll(e, w)).1 == Pushed(ValueOf(w) as real)
  {
    var p := w[..|w| - 1];
    if |p| == 0 {
      assert w == [w[0]];
    } else {
      assert AllDigits(p);
      TypingDigits(e, p);
      assert p + [w[|w| - 1]] == w;
      assert p != "Error" by {
        assert !IsDigit('E');
      }
    }
    DigitsParse(w);
  }

  /** Digits, EEX and one exponent digit `c` commit the digits' value
      times ten to `c`: EEX seeds the exponent with "0", so `c` is its
      second character and a further digit is ignored. */
  lemma ExponentEntry(e: Entry, w: string, c: char)
    requires !e.entering && !e.exponentMode
    requires |w| >= 1 && AllDigits(w) && IsDigit(c)
    ensures var t := TypeChar(StartExponent(TypeAll(e, w)), c);
      t.buffer == w && t.exponent == ['0', c] &&
      Finalize(t).1 == Pushed(WithExponent(ValueOf(w) as real, DigitOf(c)))
    ensures var t := TypeChar(StartExponent(TypeAll(e, w)), c);
      forall c2 :: IsEntryChar(c2) ==> TypeChar(t, c2) == t
  {
    TypingDigits(e, w);
    DigitsParse(w);
    var t := TypeChar(StartExponent(TypeAll(e, w)), c);
    var x := ['0', c];
    assert t.exponent == x;
    assert x[..1] == "0";
    assert ValueOf(x) == DigitOf(c);
    assert ParseExponent(x) == Some(DigitOf(c));
    assert t.exponentMode && t.entering;
    ExponentValue(t, ValueOf(w) as real, DigitOf(c));
    assert w != "" && w != "-";
  }

  /** A mantissa worth `m` with exponent text worth `k` is worth `m` times
      ten to `k`. */
  lemma ExponentValue(t: Entry, m: real, k: int)
    requires t.exponentMode && t.exponent != ""
    requires MantissaValue(t.buffer) == Some(m) && ParseExponent(t.exponent) == Some(k)
    ensures EntryValue(t) == Some(WithExponent(m, k))
  {
  }

  /** A plain digit string parses to its value. */
  lemma DigitsParse(w: string)
    requires |w| >= 1 && AllDigits(w)
    ensures MantissaValue(w) == Some(ValueOf(w) as real)
  {
    assert '.' !in w && ',' !in w by {
      assert !IsDigit('.') && !IsDigit(',');
    }
    ReplaceAbsent(w, ',', '.');
    assert !IsDigit('-') && !IsDigit('+');
  }
}

=== FILE: keys.dfy ===
/** The key labels the engine receives and the two shifted-label tables.
    A key press is a label; with f or g active the label is looked up in
    the matching table and the label found there is executed instead. */
module Keys {
  import opened Tvm
  import opened Operators

  /** A digit key's value. */
  type Numeral = d: nat | d < 10

  /** Labels that name a key or a shifted function but have no handler:
      executing one changes nothing.  The printed labels are: `.` Point,
      SST SingleStep, 12x Times12, 12÷ Divide12, CF0 CashFlow0, CFj
      CashFlowJ, Nj CashFlowCount, FRAC Fraction, BST BackStep, INPUT
      Input, AMORT Amortize, INT Interest, NPV NetPresentValue, IRR
      InternalRate, RND Round, e^x Exp, LN Log, INTG IntegerPart, PSE
      Pause, GTO GoTo, PREFIX Prefix, YTM YieldToMaturity, MEM Memory,
      R/S RunStop, PRICE Price and FIN (g over ENTER) FinClear, so named
      because `Fin` already names the financial keys. */
  datatype InertLabel =
    | Point | SingleStep | Times12 | Divide12 | CashFlow0 | CashFlowJ | CashFlowCount
    | Fraction | BackStep | Input
    | Amortize | Interest | NetPresentValue | InternalRate | Round | Exp | Log
    | IntegerPart | Pause | GoTo | Prefix | YieldToMaturity | Memory | RunStop
    | Price | FinClear

  /** Every label `_execute_function` can be given.  `Comma` types the
      decimal mark; the keyboard's `.` key is `Inert(Point)`. */
  datatype Token =
    | Digit(d: Numeral)
    | Comma
    | Enter
    | Op(op: BinOp)
    | Chs
    | On
    | FKey
    | GKey
    | Clx
    | SwapXY
    | RollDown
    | Power
    | Reciprocal
    | Sqrt
    | Percent
    | PercentDelta
    | Sto
    | Rcl
    | SigmaPlus
    | ClearSigma
    | Mean
    | StdDev
    | SL
    | SOYD
    | DB
    | Eex
    | DeltaDays
    | Date
    | Fin(k: FinKey)
    | Inert(name: InertLabel)

  /** The label under each key that has one in the f row of the layout. */
  const FTable: map<Token, Token> := map[
    Fin(N) := Inert(Times12),
    Fin(I) := Inert(Divide12),
    Fin(PV) := Inert(CashFlow0),
    Fin(PMT) := Inert(CashFlowJ),
    Fin(FV) := Inert(CashFlowCount),
    Power := Sqrt,
    Reciprocal := Percent,
    PercentDelta := Inert(Fraction),
    RollDown := SwapXY,
    Inert(SingleStep) := Inert(BackStep),
    Sto := Rcl,
    Digit(8) := SL,
    Digit(9) := SOYD,
    SigmaPlus := ClearSigma,
    Eex := DeltaDays,
    Chs := Date,
    Enter := Inert(Input)
  ]

  /** The label under each key that has one in the g row of the layout. */
  const GTable: map<Token, Token> := map[
    Fin(N) := Inert(Amortize),
    Fin(I) := Inert(Interest),
    Fin(PV) := Inert(NetPresentValue),
    Fin(PMT) := Inert(InternalRate),
    Fin(FV) := Inert(Round),
    Power := Inert(Exp),
    Reciprocal := Inert(Log),
    PercentDelta := Inert(IntegerPart),
    RollDown := Inert(Pause),
    Inert(SingleStep) := Inert(GoTo),
    Sto := Inert(Prefix),
    Digit(7) := Inert(YieldToMaturity),
    Digit(8) := Mean,
    Digit(9) := StdDev,
    Op(Divide) := DB,
    SigmaPlus := Inert(Memory),
    Eex := Inert(RunStop),
    Chs := Inert(Price),
    Enter := Inert(FinClear)
  ]

  /** The labels printed on the face of a key, plus CLx (backspace on the
      keyboard) and `,`, which has a handler but no key. */
  predicate IsMainKey(t: Token) {
    !(t.SL? || t.SOYD? || t.Sqrt? || t.Percent? || t.SwapXY? || t.Rcl? || t.ClearSigma? ||
      t.Mean? || t.StdDev? || t.DB? || t.DeltaDays? || t.Date?) &&
    (t.Inert? ==> t.name == Point || t.name == SingleStep)
  }

  /** Both tables are keyed by keys on the face and never yield a modifier,
      a digit, ON, STO or a financial key: a shifted key cannot re-arm f
      or g, type into the entry, reset, or write a register; only the f
      table reaches RCL. */
  lemma FTableKeys()
    ensures forall t | t in FTable.Keys :: IsMainKey(t)
  {
  }

  lemma FTableValues()
    ensures forall t | t in FTable.Values ::
      !(t.FKey? || t.GKey? || t.Digit? || t.Comma? || t.On? || t.Sto? || t.Fin?)
  {
  }

  lemma GTableKeys()
    ensures forall t | t in GTable.Keys :: IsMainKey(t)
  {
  }

  lemma GTableValues()
    ensures forall t | t in GTable.Values ::
      !(t.FKey? || t.GKey? || t.Digit? || t.Comma? || t.On? || t.Sto? || t.Rcl? || t.Fin?)
  {
  }

  /** The keys without an f label: digits 0 to 7, the operators, ON, f,
      g, CLx, `,` and `.`. */
  lemma KeysWithoutFLabel()
    ensures forall d: Numeral :: d < 8 ==> Digit(d) !in FTable
    ensures forall op :: Op(op) !in FTable
    ensures On !in FTable && FKey !in FTable && GKey !in FTable && Clx !in FTable
    ensures Comma !in FTable && Inert(Point) !in FTable
  {
  }

  /** The keys without a g label: digits 0 to 6, the operators other than
      ÷, ON, f, g, CLx, `,` and `.`. */
  lemma KeysWithoutGLabel()
    ensures forall d: Numeral :: d < 7 ==> Digit(d) !in GTable
    ensures forall op :: op != Divide ==> Op(op) !in GTable
    ensures On !in GTable && FKey !in GTable && GKey !in GTable && Clx !in GTable
    ensures Comma !in GTable && Inert(Point) !in GTable
  {
  }
}

=== FILE: numbers.dfy ===
/** Register values of the engine and the small arithmetic vocabulary the
    operations share.  The source uses 28-digit `Decimal`; here values are
    exact reals, and `NaN` is the quiet not-a-number the display shows as
    "Error". */
module Numbers {

  datatype Option<T> = None | Some(value: T)

  /** A register value: an exact real, or the error sentinel. */
  datatype Num = Val(r: real) | NaN

  // Decimal arithmetic on a quiet NaN yields NaN without raising.

  function Add(a: Num, b: Num): Num {
    if a.NaN? || b.NaN? then NaN else Val(a.r + b.r)
  }

  function Sub(a: Num, b: Num): Num {
    if a.NaN? || b.NaN? then NaN else Val(a.r - b.r)
  }

  function Mul(a: Num, b: Num): Num {
    if a.NaN? || b.NaN? then NaN else Val(a.r * b.r)
  }

  function Neg(a: Num): Num {
    if a.NaN? then NaN else Val(-a.r)
  }

  /** Decimal division: a NaN operand gives NaN (even over zero); dividing
      a number by zero raises in the source, so callers must rule it out. */
  function Div(a: Num, b: Num): Num
    requires a.NaN? || b != Val(0.0)
  {
    if a.NaN? || b.NaN? then NaN else Val(a.r / b.r)
  }

  /** `x ** n` for a natural exponent. */
  function Pow(x: real, n: nat): (p: real)
    ensures x > 0.0 ==> p > 0.0
    ensures x != 0.0 ==> p != 0.0
  {
    if n == 0 then 1.0 else x * Pow(x, n - 1)
  }

  function PowNum(a: Num, n: nat): Num {
    if a.NaN? then NaN else Val(Pow(a.r, n))
  }

  /** 10 to a natural power, as an integer. */
  function Pow10Nat(d: nat): (p: nat)
    ensures p >= 1
  {
    if d == 0 then 1 else 10 * Pow10Nat(d - 1)
  }

  /** 10 to an integer power, as a real. */
  function Pow10(e: int): (p: real)
    ensures p > 0.0
  {
    if e >= 0 then Pow10Nat(e) as real else 1.0 / (Pow10Nat(-e) as real)
  }

  function Abs(x: real): real {
    if x < 0.0 then -x else x
  }

  /** Python's `int(x)` on a Decimal: truncation toward zero. */
  function Trunc(x: real): (k: int)
    ensures Abs(x - k as real) < 1.0
    ensures 0.0 <= x ==> 0 <= k && k as real <= x
    ensures x < 0.0 ==> k <= 0 && x <= k as real
  {
    if x >= 0.0 then x.Floor else -((-x).Floor)
  }

  predicate IsNatural(x: real) {
    x >= 0.0 && x == x.Floor as real
  }

  /** The functions the source takes from `Decimal` and `math` whose values
      are transcendental: `y ** x` for arbitrary exponents (failure already
      folded into NaN), `Decimal.sqrt` and `math.log`. */
  datatype Transcendentals = Transcendentals(
    power: (real, real) -> Num,
    sqrt: real -> real,
    ln: real -> real)
}

=== FILE: operators.dfy ===
/** The arithmetic keys as they act on the stack once the entry has been
    finalized: the four operators, y^x, 1/x, √x, % and Δ%.  The two-operand
    keys drop X and Y, so what they lift lands on `[Z, T, T]`. */
module Operators {
  import opened Numbers
  import opened Stack

  datatype BinOp = Plus | Minus | Times | Divide

  /** `y ∘ x`; the caller has already turned a zero divisor into NaN. */
  function Apply(op: BinOp, y: Num, x: Num): (v: Num)
    requires op == Divide ==> x != Val(0.0)
    ensures v.NaN? <==> y.NaN? || x.NaN?
  {
    match op
    case Plus => Add(y, x)
    case Minus => Sub(y, x)
    case Times => Mul(y, x)
    case Divide => Div(y, x)
  }

  /** `_handle_operator` after finalizing.  `÷` with X equal to zero writes
      NaN over the stack left after both drops, so Y is consumed. */
  function Binary(op: BinOp, s: Stack): (r: Stack)
    ensures op == Divide && s.x == Val(0.0) ==> r == Stack(NaN, s.t, s.t, s.t)
    ensures !(op == Divide && s.x == Val(0.0)) ==> r == Stack(Apply(op, s.y, s.x), s.z, s.t, s.t)
  {
    var (x, s1) := Pop(s);
    var (y, s2) := Pop(s1);
    if op == Divide && x == Val(0.0) then SetX(s2, NaN)
    else Push(s2, Apply(op, y, x))
  }

  /** `+` and `×` do not care which operand was in X. */
  lemma Commutes(op: BinOp, s: Stack)
    requires op == Plus || op == Times
    ensures Binary(op, Swap(s)) == Binary(op, s)
  {
    assert Apply(op, s.x, s.y) == Apply(op, s.y, s.x);
  }

  /** Exchanging the operands of `-` negates the difference. */
  lemma MinusAnticommutes(s: Stack)
    ensures Binary(Minus, Swap(s)) == Binary(Minus, s).(x := Neg(Binary(Minus, s).x))
  {
  }

  /** Lifting X again and applying the inverse operator restores Y over
      `[Z, T, T]`: `-` undoes `+`, and `÷` undoes `×` for a non-zero X. */
  lemma InverseUndoes(s: Stack)
    requires s.x.Val?
    ensures Binary(Minus, Push(Binary(Plus, s), s.x)) == Stack(s.y, s.z, s.t, s.t)
    ensures s.x != Val(0.0) ==> Binary(Divide, Push(Binary(Times, s), s.x)) == Stack(s.y, s.z, s.t, s.t)
  {
    if s.y.Val? && s.x != Val(0.0) {
      assert s.y.r * s.x.r / s.x.r == s.y.r;
    }
  }

  /** `_handle_power`: Y raised to X, lifted; a NaN operand gives NaN, and
      any failure of the power itself is NaN inside `power`. */
  function PowerOf(s: Stack, power: (real, real) -> Num): (r: Stack)
    ensures r.y == s.z && r.z == s.t && r.t == s.t
    ensures s.x.NaN? || s.y.NaN? ==> r.x == NaN
    ensures s.x.Val? && s.y.Val? ==> r.x == power(s.y.r, s.x.r)
  {
    var (x, s1) := Pop(s);
    var (y, s2) := Pop(s1);
    Push(s2, if x.NaN? || y.NaN? then NaN else power(y.r, x.r))
  }

  /** `_handle_reciprocal`: X replaced in place, NaN for zero. */
  function ReciprocalOf(s: Stack): (r: Stack)
    ensures r.y == s.y && r.z == s.z && r.t == s.t
    ensures s.x == Val(0.0) ==> r.x == NaN
    ensures s.x.Val? && s.x.r != 0.0 ==> r.x == Val(1.0 / s.x.r)
    ensures s.x.NaN? ==> r == s
  {
    if s.x == Val(0.0) then SetX(s, NaN) else SetX(s, Div(Val(1.0), s.x))
  }

  /** 1/x twice gives X back unless X was zero. */
  lemma ReciprocalInvolutive(s: Stack)
    ensures s.x != Val(0.0) ==> ReciprocalOf(ReciprocalOf(s)) == s
    ensures s.x == Val(0.0) ==> ReciprocalOf(ReciprocalOf(s)).x == NaN
  {
    if s.x.Val? && s.x.r != 0.0 {
      assert 1.0 / (1.0 / s.x.r) == s.x.r;
    }
  }

  /** `_handle_sqrt`: X replaced in place, NaN for a negative X.  Comparing
      NaN with zero raises in the source, so X must be a number. */
  function SqrtOf(s: Stack, sqrt: real -> real): (r: Stack)
    requires s.x.Val?
    ensures r.y == s.y && r.z == s.z && r.t == s.t
    ensures s.x.r < 0.0 <==> r.x == NaN
    ensures s.x.r >= 0.0 ==> r.x == Val(sqrt(s.x.r))
  {
    if s.x.r < 0.0 then SetX(s, NaN) else SetX(s, Val(sqrt(s.x.r)))
  }

  /** With an exact square root, √x followed by ENTER and × gives X back
      over Y and Z; T is lost to the lift. */
  lemma SqrtThenSquare(s: Stack, sqrt: real -> real)
    requires s.x.Val? && s.x.r >= 0.0 && sqrt(s.x.r) * sqrt(s.x.r) == s.x.r
    ensures Binary(Times, Push(SqrtOf(s, sqrt), SqrtOf(s, sqrt).x)) == Stack(s.x, s.y, s.z, s.z)
  {
  }

  /** `_handle_percent`: X percent of Y, lifted over `[Z, T, T]`. */
  function PercentOf(s: Stack): (r: Stack)
    ensures r.y == s.z && r.z == s.t && r.t == s.t
    ensures r.x.NaN? <==> s.x.NaN? || s.y.NaN?
    ensures s.x.Val? && s.y.Val? ==> r.x == Val(s.y.r * s.x.r / 100.0)
  {
    var (x, s1) := Pop(s);
    var (y, s2) := Pop(s1);
    Push(s2, Mul(y, Div(x, Val(100.0))))
  }

  /** `_handle_percent_delta`: the change from Y to X as a percentage of Y;
      a zero Y puts NaN over `[T, T, T]`. */
  function PercentChange(s: Stack): (r: Stack)
    ensures s.y == Val(0.0) ==> r == Stack(NaN, s.t, s.t, s.t)
    ensures s.y != Val(0.0) ==> r.y == s.z && r.z == s.t && r.t == s.t
    ensures s.y != Val(0.0) ==> (r.x.NaN? <==> s.x.NaN? || s.y.NaN?)
    ensures s.x.Val? && s.y.Val? && s.y.r != 0.0 ==> r.x == Val((s.x.r - s.y.r) / s.y.r * 100.0)
  {
    var (x, s1) := Pop(s);
    var (y, s2) := Pop(s1);
    if y == Val(0.0) then SetX(s2, NaN)
    else Push(s2, Mul(Div(Sub(x, y), y), Val(100.0)))
  }

  /** Δ% and % are inverse: Y plus Δ% percent of Y is X again. */
  lemma PercentOfChange(s: Stack)
    requires s.x.Val? && s.y.Val? && s.y.r != 0.0
    ensures Add(s.y, PercentOf(Stack(PercentChange(s).x, s.y, s.z, s.t)).x) == s.x
  {
    var d := (s.x.r - s.y.r) / s.y.r * 100.0;
    assert PercentChange(s).x == Val(d);
    assert PercentOf(Stack(Val(d), s.y, s.z, s.t)).x == Val(s.y.r * d / 100.0);
    assert s.y.r * d / 100.0 == s.x.r - s.y.r;
  }
}

=== FILE: session.dfy ===
/** Runs of key presses: the properties the engine keeps over any sequence
    of keys, not just one. */
module Session {
  import opened Numbers
  import opened Keys
  import opened Calculator
  import Text

  /** Every key of `keys`, pressed in order from `s`, runs without raising. */
  predicate Runs(s: State, keys: seq<Token>, tr: Transcendentals)
    decreases |keys|
  {
    |keys| == 0 || (KeyDefined(s, keys[0]) && Runs(PressKey(s, keys[0], tr), keys[1..], tr))
  }

  /** The state after pressing `keys` in order.  The engine invariant (one
      mode at most, 0 to 9 places, ten storage registers) survives any run;
      the storage registers change only through a STO digit and the
      financial registers only through a financial key. */
  function PressAll(s: State, keys: seq<Token>, tr: Transcendentals): (r: State)
    requires Runs(s, keys, tr)
    ensures Invariant(s) ==> Invariant(r)
    ensures (forall i :: 0 <= i < |keys| ==> !keys[i].Digit?) ==> r.storage == s.storage
    ensures (forall i :: 0 <= i < |keys| ==> !keys[i].Fin?) ==> r.fin == s.fin
    decreases |keys|
  {
    if |keys| == 0 then s
    else PressAll(PressKey(s, keys[0], tr), keys[1..], tr)
  }

  /** Starting from construction, every reachable state has at most one
      mode armed, a display format of 0 to 9 places and at most one `,` in
      the buffer, and while a mantissa is typed the display is the buffer
      with only grouping dots added. */
  lemma Reachable(keys: seq<Token>, tr: Transcendentals)
    requires Runs(Initial, keys, tr)
    ensures AtMostOneFlag(PressAll(Initial, keys, tr))
    ensures PressAll(Initial, keys, tr).decimals <= 9
    ensures Text.Count(PressAll(Initial, keys, tr).entry.buffer, ',') <= 1
    ensures var r := PressAll(Initial, keys, tr);
      r.entry.entering && !r.entry.exponentMode ==> Text.Delete(GetDisplay(r), '.') == r.entry.buffer
  {
    assert Invariant(Initial);
  }
}

=== FILE: stack.dfy ===
/** The four-level operand stack X, Y, Z, T.  A datatype with four fields
    keeps the source's invariant that the list always has length four; the
    contracts restate each primitive in the source's list-slicing terms
    through `AsSeq`. */
module Stack {
  import opened Numbers

  datatype Stack = Stack(x: Num, y: Num, z: Num, t: Num)

  const Zeroed := Stack(Val(0.0), Val(0.0), Val(0.0), Val(0.0))

  /** The stack as the source's list, X first. */
  function AsSeq(s: Stack): (l: seq<Num>)
    ensures |l| == 4
  {
    [s.x, s.y, s.z, s.t]
  }

  /** Lift: `[value] + stack[:-1]`. */
  function Push(s: Stack, v: Num): (r: Stack)
    ensures AsSeq(r) == [v] + AsSeq(s)[..3]
  {
    Stack(v, s.x, s.y, s.z)
  }

  /** Drop: returns X and leaves `stack[1:] + [stack[-1]]`, so T is copied
      down rather than cleared. */
  function Pop(s: Stack): (r: (Num, Stack))
    ensures r.0 == AsSeq(s)[0]
    ensures AsSeq(r.1) == AsSeq(s)[1..] + [AsSeq(s)[3]]
  {
    (s.x, Stack(s.y, s.z, s.t, s.t))
  }

  /** R↓: `stack[1:] + stack[:1]`. */
  function RollDown(s: Stack): (r: Stack)
    ensures AsSeq(r) == AsSeq(s)[1..] + AsSeq(s)[..1]
  {
    Stack(s.y, s.z, s.t, s.x)
  }

  /** x<>y: exchange the two lowest slots only. */
  function Swap(s: Stack): (r: Stack)
    ensures AsSeq(r) == [AsSeq(s)[1], AsSeq(s)[0]] + AsSeq(s)[2..]
  {
    s.(x := s.y, y := s.x)
  }

  function SetX(s: Stack, v: Num): (r: Stack)
    ensures AsSeq(r) == [v] + AsSeq(s)[1..]
  {
    s.(x := v)
  }

  /** A lift followed by a drop returns the pushed value and loses T: Z is
      duplicated into the top slot. */
  lemma PushThenPop(s: Stack, v: Num)
    ensures Pop(Push(s, v)) == (v, Stack(s.x, s.y, s.z, s.z))
  {
  }

  /** Four R↓ are the identity, and no fewer suffice in general. */
  lemma RollDownFourTimes(s: Stack)
    ensures RollDown(RollDown(RollDown(RollDown(s)))) == s
    ensures s.x != s.y ==> RollDown(s) != s
  {
  }

  lemma SwapInvolutive(s: Stack)
    ensures Swap(Swap(s)) == s
    ensures Swap(s).z == s.z && Swap(s).t == s.t
  {
  }

  /** Two drops leave `[Z, T, T, T]`: the shape every binary operator and
      every two-operand function starts from. */
  lemma PopTwice(s: Stack)
    ensures Pop(Pop(s).1).0 == s.y
    ensures Pop(Pop(s).1).1 == Stack(s.z, s.t, s.t, s.t)
  {
  }

  /** After three drops every slot holds T: with only four slots, any
      further drop returns T again. */
  lemma PopsSaturateAtT(s: Stack)
    ensures Pop(Pop(Pop(s).1).1).1 == Stack(s.t, s.t, s.t, s.t)
    ensures Pop(Pop(Pop(Pop(s).1).1).1).0 == s.t
    ensures Pop(Pop(Pop(Pop(Pop(s).1).1).1).1).0 == s.t
  {
  }
}

=== FILE: statistics.dfy ===
/** The statistics keys Σ+, CLΣ, x̄ and s and the six accumulators they
    share: the count n and the sums of x, x², y, y² and xy. */
module Statistics {
  import opened Numbers
  import opened Stack

  /** The count only ever grows by one from zero, so it is a natural
      number; the sums take whatever X and Y held, NaN included. */
  datatype Stats = Stats(n: nat, sumX: Num, sumX2: Num, sumY: Num, sumY2: Num, sumXY: Num)

  const ZeroStats := Stats(0, Val(0.0), Val(0.0), Val(0.0), Val(0.0), Val(0.0))

  /** One data point added to the accumulators. */
  function AddPoint(st: Stats, x: Num, y: Num): Stats {
    Stats(st.n + 1, Add(st.sumX, x), Add(st.sumX2, Mul(x, x)), Add(st.sumY, y),
      Add(st.sumY2, Mul(y, y)), Add(st.sumXY, Mul(x, y)))
  }

  /** `_handle_sigma_plus` after the entry is finalized: X and Y are
      accumulated as one point and the new count is lifted. */
  function SigmaPlus(st: Stats, s: Stack): (r: (Stats, Stack))
    ensures r.0.n == st.n + 1
    ensures r.0.sumX == Add(st.sumX, s.x) && r.0.sumY == Add(st.sumY, s.y)
    ensures r.0.sumX2 == Add(st.sumX2, Mul(s.x, s.x)) && r.0.sumY2 == Add(st.sumY2, Mul(s.y, s.y))
    ensures r.0.sumXY == Add(st.sumXY, Mul(s.x, s.y))
    ensures r.1 == Stack(Val((st.n + 1) as real), s.x, s.y, s.z)
  {
    var st' := AddPoint(st, s.x, s.y);
    (st', Push(s, Val(st'.n as real)))
  }

  /** `_handle_mean`: the mean of x lifted, or NaN in X with no data. */
  function Mean(st: Stats, s: Stack): (r: Stack)
    ensures st.n == 0 ==> r == s.(x := NaN)
    ensures st.n > 0 ==> r == Stack(Div(st.sumX, Val(st.n as real)), s.x, s.y, s.z)
  {
    if st.n == 0 then SetX(s, NaN)
    else Push(s, Div(st.sumX, Val(st.n as real)))
  }

  /** `(n Σx² - (Σx)²) / (n (n - 1))`, the sample variance of x. */
  function Variance(st: Stats): Num
    requires st.n >= 2
  {
    var n := Val(st.n as real);
    Div(Sub(Mul(n, st.sumX2), Mul(st.sumX, st.sumX)), Mul(n, Sub(n, Val(1.0))))
  }

  /** `_handle_std_dev`: the square root of the sample variance lifted;
      NaN in X with fewer than two points, or when the variance is NaN
      (the comparison raises and the handler catches it) or negative. */
  function StdDev(st: Stats, s: Stack, sqrt: real -> real): (r: Stack)
    ensures st.n < 2 ==> r == s.(x := NaN)
    ensures st.n >= 2 && Variance(st).NaN? ==> r == s.(x := NaN)
    ensures st.n >= 2 && Variance(st).Val? && Variance(st).r < 0.0 ==> r == s.(x := NaN)
    ensures st.n >= 2 && Variance(st).Val? && Variance(st).r >= 0.0 ==>
      r == Stack(Val(sqrt(Variance(st).r)), s.x, s.y, s.z)
  {
    if st.n < 2 then SetX(s, NaN)
    else
      var n := Val(st.n as real);
      var numerator := Sub(Mul(n, st.sumX2), Mul(st.sumX, st.sumX));
      var denominator := Mul(n, Sub(n, Val(1.0)));
      if denominator == Val(0.0) then SetX(s, NaN)
      else
        var variance := Div(numerator, denominator);
        if variance.NaN? || variance.r < 0.0 then SetX(s, NaN)
        else Push(s, Val(sqrt(variance.r)))
  }

  // ---------------------------------------------------------------------
  // The accumulators against the data they summarize

  /** A list of (x, y) points entered with Σ+. */
  type Points = seq<(real, real)>

  /** Every point added, first to last. */
  function Accumulate(st: Stats, pts: Points): Stats {
    if |pts| == 0 then st
    else
      var last := pts[|pts| - 1];
      AddPoint(Accumulate(st, pts[..|pts| - 1]), Val(last.0), Val(last.1))
  }

  function FirstX(x: real, y: real): real { x }
  function SecondY(x: real, y: real): real { y }
  function SquareX(x: real, y: real): real { x * x }
  function SquareY(x: real, y: real): real { y * y }
  function ProductXY(x: real, y: real): real { x * y }

  /** The sum of `term` over the points. */
  function Total(pts: Points, term: (real, real) -> real): real {
    if |pts| == 0 then 0.0
    else
      var last := pts[|pts| - 1];
      Total(pts[..|pts| - 1], term) + term(last.0, last.1)
  }

  /** From cleared accumulators, the count is the number of points and each
      sum is the total of its term over them. */
  lemma {:induction false} AccumulateTotals(pts: Points)
    ensures Accumulate(ZeroStats, pts) == Stats(|pts|,
      Val(Total(pts, FirstX)), Val(Total(pts, SquareX)),
      Val(Total(pts, SecondY)), Val(Total(pts, SquareY)),
      Val(Total(pts, ProductXY)))
  {
    if |pts| > 0 {
      var p, last := pts[..|pts| - 1], pts[|pts| - 1];
      AccumulateTotals(p);
      var st := Accumulate(ZeroStats, p);
      assert st.sumX == Val(Total(p, FirstX));
      PointOfNumbers(st, last.0, last.1);
      var r := Accumulate(ZeroStats, pts);
      assert r == AddPoint(st, Val(last.0), Val(last.1));
      assert r.n == |pts|;
      assert r.sumX == Val(Total(pts, FirstX));
      assert r.sumX2 == Val(Total(pts, SquareX));
      assert r.sumY == Val(Total(pts, SecondY));
      assert r.sumY2 == Val(Total(pts, SquareY));
      assert r.sumXY == Val(Total(pts, ProductXY));
    }
  }

  lemma PointOfNumbers(st: Stats, x: real, y: real)
    requires st.sumX.Val? && st.sumX2.Val? && st.sumY.Val? && st.sumY2.Val? && st.sumXY.Val?
    ensures AddPoint(st, Val(x), Val(y)) == Stats(st.n + 1, Val(st.sumX.r + x),
      Val(st.sumX2.r + x * x), Val(st.sumY.r + y), Val(st.sumY2.r + y * y), Val(st.sumXY.r + x * y))
  {
    var r := AddPoint(st, Val(x), Val(y));
    assert r.sumX == Val(st.sumX.r + x);
    assert r.sumX2 == Val(st.sumX2.r + x * x);
    assert r.sumY == Val(st.sumY.r + y);
    assert r.sumY2 == Val(st.sumY2.r + y * y);
    assert r.sumXY == Val(st.sumXY.r + x * y);
  }

  /** x̄ after entering a non-empty list of points is their average x. */
  lemma MeanOfPoints(pts: Points, s: Stack)
    requires |pts| > 0
    ensures Mean(Accumulate(ZeroStats, pts), s) ==
      Push(s, Val(Total(pts, FirstX) / |pts| as real))
  {
    AccumulateTotals(pts);
  }

  /** Points that all share one x value have a total of `k c` and a total
      square of `k c²`. */
  lemma {:induction false} ConstantTotals(pts: Points, c: real)
    requires forall k :: 0 <= k < |pts| ==> pts[k].0 == c
    ensures Total(pts, FirstX) == |pts| as real * c
    ensures Total(pts, SquareX) == |pts| as real * (c * c)
  {
    if |pts| > 0 {
      ConstantTotals(pts[..|pts| - 1], c);
    }
  }

  /** s of at least two points that all share one x value is the square
      root of zero. */
  lemma StdDevOfConstant(pts: Points, c: real, s: Stack, sqrt: real -> real)
    requires |pts| >= 2
    requires forall k :: 0 <= k < |pts| ==> pts[k].0 == c
    ensures StdDev(Accumulate(ZeroStats, pts), s, sqrt) == Push(s, Val(sqrt(0.0)))
  {
    AccumulateTotals(pts);
    ConstantTotals(pts, c);
    var st := Accumulate(ZeroStats, pts);
    assert st.n == |pts|;
    assert st.sumX == Val(|pts| as real * c);
    assert st.sumX2 == Val(|pts| as real * (c * c));
    VarianceOfConstant(st, c);
  }

  lemma VarianceOfConstant(st: Stats, c: real)
    requires st.n >= 2
    requires st.sumX == Val(st.n as real * c) && st.sumX2 == Val(st.n as real * (c * c))
    ensures Variance(st) == Val(0.0)
  {
    var k := st.n as real;
    assert k * (k * (c * c)) - (k * c) * (k * c) == 0.0;
    assert k * (k - 1.0) > 0.0;
  }

  /** Σ+ on X and Y is exactly `AddPoint`: the stack's pair becomes one
      more point of data. */
  lemma SigmaPlusAddsPoint(pts: Points, s: Stack)
    requires s.x.Val? && s.y.Val?
    ensures SigmaPlus(Accumulate(ZeroStats, pts), s).0 == Accumulate(ZeroStats, pts + [(s.x.r, s.y.r)])
  {
    var q := pts + [(s.x.r, s.y.r)];
    assert q[..|q| - 1] == pts;
  }
}

=== FILE: text.dfy ===
/** Character-level helpers over `string`: decimal digit strings, Python's
    `int(str)`, reversal and character deletion. */
module Text {
  import opened Numbers

  predicate IsDigit(c: char) {
    '0' <= c <= '9'
  }

  predicate AllDigits(s: string) {
    forall i :: 0 <= i < |s| ==> IsDigit(s[i])
  }

  function DigitChar(d: nat): (c: char)
    requires d < 10
    ensures IsDigit(c)
  {
    (48 + d) as char
  }

  function DigitOf(c: char): (d: nat)
    requires IsDigit(c)
    ensures d < 10
  {
    c as int - 48
  }

  /** The natural number a digit string spells, leading zeros allowed. */
  function ValueOf(s: string): nat
    requires AllDigits(s)
  {
    if |s| == 0 then 0 else ValueOf(s[..|s| - 1]) * 10 + DigitOf(s[|s| - 1])
  }

  /** `str(k)` for a natural `k`: no leading zeros, "0" for zero. */
  function Digits(k: nat): (s: string)
    ensures AllDigits(s) && |s| >= 1
    ensures ValueOf(s) == k
    ensures s[0] == '0' ==> k == 0
  {
    if k < 10 then [DigitChar(k)]
    else
      var p := Digits(k / 10);
      var s := p + [DigitChar(k % 10)];
      assert s[..|s| - 1] == p;
      s
  }

  /** Python's `str(k)` for any integer. */
  function IntString(k: int): string {
    if k < 0 then "-" + Digits(-k) else Digits(k)
  }

  /** Python's `int(s)` on the strings the engine builds: an optional minus
      sign and at least one digit; anything else raises `ValueError`. */
  function PyInt(s: string): (r: Option<int>)
    ensures r.Some? <==>
      (|s| >= 1 && AllDigits(s)) || (|s| >= 2 && s[0] == '-' && AllDigits(s[1..]))
  {
    if |s| >= 2 && s[0] == '-' && AllDigits(s[1..]) then Some(0 - ValueOf(s[1..]))
    else if |s| >= 1 && AllDigits(s) then Some(ValueOf(s))
    else None
  }

  /** `k` zeros. */
  function Zeros(k: nat): (z: string)
    ensures |z| == k && forall i :: 0 <= i < k ==> z[i] == '0'
  {
    seq(k, _ => '0')
  }

  predicate Signed(s: string) {
    |s| > 0 && (s[0] == '-' || s[0] == '+')
  }

  /** `str.zfill`: pad with zeros after an optional sign to width `w`,
      one zero at a time. */
  function ZFill(s: string, w: nat): (r: string)
    ensures |r| == if |s| >= w then |s| else w
    ensures |s| >= w ==> r == s
    ensures |s| < w && Signed(s) ==> r == s[..1] + Zeros(w - |s|) + s[1..]
    ensures |s| < w && !Signed(s) ==> r == Zeros(w - |s|) + s
    decreases w - |s|
  {
    if |s| >= w then s
    else if Signed(s) then
      var t := s[..1] + "0" + s[1..];
      assert t[..1] == s[..1] && t[1..] == "0" + s[1..];
      ZerosStep(w - |t|);
      ZFill(t, w)
    else
      ZerosStep(w - |s| - 1);
      ZFill("0" + s, w)
  }

  lemma ZerosStep(k: nat)
    ensures Zeros(k) + "0" == Zeros(k + 1) == "0" + Zeros(k)
  {
  }

  function Reverse(s: string): (r: string)
    ensures |r| == |s|
  {
    if |s| == 0 then [] else Reverse(s[1..]) + [s[0]]
  }

  /** Replace every `a` by `b`: `str.replace(a, b)`. */
  function Replace(s: string, a: char, b: char): (r: string)
    ensures |r| == |s|
  {
    if |s| == 0 then [] else [if s[0] == a then b else s[0]] + Replace(s[1..], a, b)
  }

  lemma ReplaceConcat(x: string, y: string, a: char, b: char)
    ensures Replace(x + y, a, b) == Replace(x, a, b) + Replace(y, a, b)
  {
    if |x| > 0 {
      assert (x + y)[1..] == x[1..] + y;
      ReplaceConcat(x[1..], y, a, b);
    } else {
      assert x + y == y;
    }
  }

  lemma ReplaceAbsent(s: string, a: char, b: char)
    requires a !in s
    ensures Replace(s, a, b) == s
  {
    if |s| > 0 {
      ReplaceAbsent(s[1..], a, b);
    }
  }

  /** `s.replace(c, '')`. */
  function Delete(s: string, c: char): (r: string)
    ensures c !in r
  {
    if |s| == 0 then []
    else if s[0] == c then Delete(s[1..], c)
    else [s[0]] + Delete(s[1..], c)
  }

  function Count(s: string, c: char): nat {
    if |s| == 0 then 0 else (if s[0] == c then 1 else 0) + Count(s[1..], c)
  }

  /** Text up to the first `c`, and the text after it when `c` occurs:
      Python's `s.split(c, 1)`. */
  function SplitFirst(s: string, c: char): (r: (string, Option<string>))
    ensures c !in r.0
    ensures r.1.None? <==> c !in s
    ensures r.1.None? ==> r.0 == s
    ensures r.1.Some? ==> s == r.0 + [c] + r.1.value
  {
    if |s| == 0 then ([], None)
    else if s[0] == c then ([], Some(s[1..]))
    else
      var rest := SplitFirst(s[1..], c);
      assert s == [s[0]] + s[1..];
      ([s[0]] + rest.0, rest.1)
  }

  /** Splitting at the first `c` finds it right after a prefix without `c`. */
  lemma {:induction false} SplitFirstAt(a: string, b: string, c: char)
    requires c !in a
    ensures SplitFirst(a + [c] + b, c) == (a, Some(b))
  {
    if |a| > 0 {
      assert (a + [c] + b)[1..] == a[1..] + [c] + b;
      SplitFirstAt(a[1..], b, c);
      assert [a[0]] + a[1..] == a;
    } else {
      assert a + [c] + b == [c] + b;
    }
  }

  lemma DeleteConcat(a: string, b: string, c: char)
    ensures Delete(a + b, c) == Delete(a, c) + Delete(b, c)
  {
    if |a| > 0 {
      assert (a + b)[1..] == a[1..] + b;
      DeleteConcat(a[1..], b, c);
    } else {
      assert a + b == b;
    }
  }

  lemma DeleteAbsent(s: string, c: char)
    requires c !in s
    ensures Delete(s, c) == s
  {
    if |s| > 0 {
      DeleteAbsent(s[1..], c);
    }
  }

  lemma CountConcat(a: string, b: string, c: char)
    ensures Count(a + b, c) == Count(a, c) + Count(b, c)
  {
    if |a| > 0 {
      assert (a + b)[1..] == a[1..] + b;
      CountConcat(a[1..], b, c);
    } else {
      assert a + b == b;
    }
  }

  lemma CountAbsent(s: string, c: char)
    ensures c !in s <==> Count(s, c) == 0
  {
    if |s| > 0 {
      CountAbsent(s[1..], c);
      assert s == [s[0]] + s[1..];
    }
  }

  lemma AllDigitsConcat(a: string, b: string)
    ensures AllDigits(a + b) <==> AllDigits(a) && AllDigits(b)
  {
    if AllDigits(a + b) {
      assert forall i :: 0 <= i < |a| ==> a[i] == (a + b)[i];
      assert forall i :: 0 <= i < |b| ==> b[i] == (a + b)[|a| + i];
    }
  }

  /** A digit string's value is below 10 to its length. */
  lemma ValueOfBelow(s: string)
    requires AllDigits(s)
    ensures ValueOf(s) < Pow10Nat(|s|)
  {
    if |s| > 0 {
      ValueOfBelow(s[..|s| - 1]);
    }
  }

  /** Without a leading zero the value reaches 10 to the length minus one. */
  lemma ValueOfAtLeast(s: string)
    requires AllDigits(s) && |s| >= 1 && s[0] != '0'
    ensures ValueOf(s) >= Pow10Nat(|s| - 1)
  {
    if |s| > 1 {
      var p := s[..|s| - 1];
      assert p[0] == s[0];
      ValueOfAtLeast(p);
    }
  }

  lemma ValueOfPrependZero(s: string)
    requires AllDigits(s)
    ensures AllDigits("0" + s) && ValueOf("0" + s) == ValueOf(s)
  {
    var t := "0" + s;
    if |s| > 0 {
      assert t[..|t| - 1] == "0" + s[..|s| - 1];
      ValueOfPrependZero(s[..|s| - 1]);
    } else {
      assert t[..0] == [];
    }
  }

  lemma ValueOfConcat(a: string, b: string)
    requires AllDigits(a) && AllDigits(b)
    ensures AllDigits(a + b)
    ensures ValueOf(a + b) == ValueOf(a) * Pow10Nat(|b|) + ValueOf(b)
  {
    AllDigitsConcat(a, b);
    if |b| > 0 {
      var b' := b[..|b| - 1];
      var ab := a + b;
      assert ab[..|ab| - 1] == a + b';
      assert ab[|ab| - 1] == b[|b| - 1];
      ValueOfConcat(a, b');
      ShiftStep(ValueOf(a), ValueOf(b'), DigitOf(b[|b| - 1]), Pow10Nat(|b'|));
    } else {
      assert a + b == a;
    }
  }

  lemma ShiftStep(va: int, vb: int, d: int, p: int)
    ensures (va * p + vb) * 10 + d == va * (p * 10) + (vb * 10 + d)
  {
  }

  /** Python's `str(k)` has as many digits as the decimal magnitude says. */
  lemma DigitsLength(k: nat, d: nat)
    requires d >= 1
    ensures |Digits(k)| <= d <==> k < Pow10Nat(d)
  {
    var s := Digits(k);
    ValueOfBelow(s);
    if k == 0 {
      assert s == "0";
    } else if |s| > d {
      ValueOfAtLeast(s);
      Pow10Monotone(d, |s| - 1);
    } else {
      Pow10Monotone(|s|, d);
    }
  }

  lemma Pow10Monotone(a: nat, b: nat)
    requires a <= b
    ensures Pow10Nat(a) <= Pow10Nat(b)
  {
    if a < b {
      Pow10Monotone(a, b - 1);
    }
  }

  /** A digit string without a leading zero is what `str` prints for its value. */
  lemma {:induction false} DigitsUnique(s: string)
    requires AllDigits(s) && |s| >= 1 && (s[0] != '0' || |s| == 1)
    ensures Digits(ValueOf(s)) == s
  {
    var k := ValueOf(s);
    if |s| == 1 {
      assert s[..|s| - 1] == [];
      assert ValueOf([]) == 0;
      assert k == DigitOf(s[0]);
      assert DigitChar(k) == s[0];
    } else {
      var p := s[..|s| - 1];
      assert p[0] == s[0];
      assert AllDigits(p);
      DigitsUnique(p);
      ValueOfAtLeast(s);
      Pow10Monotone(1, |s| - 1);
      var last := DigitOf(s[|s| - 1]);
      assert k == ValueOf(p) * 10 + last;
      assert k / 10 == ValueOf(p) && k % 10 == last;
      assert DigitChar(last) == s[|s| - 1];
      assert p + [s[|s| - 1]] == s;
    }
  }

  /** Zero padding of a digit string keeps its digits and its value. */
  lemma ZFillDigits(s: string, w: nat)
    requires AllDigits(s) && |s| >= 1
    ensures AllDigits(ZFill(s, w)) && ValueOf(ZFill(s, w)) == ValueOf(s)
    decreases w - |s|
  {
    if |s| < w {
      assert !(s[0] == '-' || s[0] == '+');
      ValueOfPrependZero(s);
      ZFillDigits("0" + s, w);
    }
  }
}

=== FILE: tvm.dfy ===
/** The five financial registers and the financial keys n, i, PV, PMT and
    FV.  Pressed right after typing, a key stores X in its register;
    otherwise it solves the time-value-of-money relation for its register
    from the other four, in closed form for n, PV, PMT and FV and by the
    secant method for i. */
module Tvm {
  import opened Numbers

  datatype FinKey = N | I | PV | PMT | FV

  datatype FinRegs = FinRegs(n: Num, i: Num, pv: Num, pmt: Num, fv: Num)

  const ZeroRegs := FinRegs(Val(0.0), Val(0.0), Val(0.0), Val(0.0), Val(0.0))

  function Get(f: FinRegs, k: FinKey): Num {
    match k
    case N => f.n
    case I => f.i
    case PV => f.pv
    case PMT => f.pmt
    case FV => f.fv
  }

  function Set(f: FinRegs, k: FinKey, v: Num): (r: FinRegs)
    ensures Get(r, k) == v
    ensures forall j :: j != k ==> Get(r, j) == Get(f, j)
  {
    match k
    case N => f.(n := v)
    case I => f.(i := v)
    case PV => f.(pv := v)
    case PMT => f.(pmt := v)
    case FV => f.(fv := v)
  }

  /** The i register holds a percentage; the formulas use the fraction. */
  function Rate(f: FinRegs): Num {
    Div(f.i, Val(100.0))
  }

  function NatOf(x: real): (k: nat)
    requires IsNatural(x)
    ensures k as real == x
  {
    x.Floor
  }

  /** `(1 + i) ** n` evaluates without raising: a NaN operand gives NaN,
      `0 ** 0` raises.  Only natural `n` is modelled. */
  predicate GrowthDefined(i: Num, n: Num) {
    i.NaN? || n.NaN? || (IsNatural(n.r) && !(i.r == -1.0 && n.r == 0.0))
  }

  /** `(1 + i) ** n`, the growth of one unit over `n` periods. */
  function Growth(i: Num, n: Num): (g: Num)
    requires GrowthDefined(i, n)
    ensures g.NaN? <==> i.NaN? || n.NaN?
  {
    if i.NaN? || n.NaN? then NaN else Val(Pow(1.0 + i.r, NatOf(n.r)))
  }

  /** `((1 + i) ** n - 1) / i`, the value after `n` periods of a unit
      payment per period. */
  function Annuity(i: Num, n: Num): (a: Num)
    requires i != Val(0.0) && GrowthDefined(i, n)
    ensures a.NaN? <==> i.NaN? || n.NaN?
  {
    Div(Sub(Growth(i, n), Val(1.0)), i)
  }

  // ---------------------------------------------------------------------
  // The relation the closed forms solve

  /** Present value grown over the periods, plus the grown payments, plus
      the future value balance to zero; with no interest the growth is
      plain addition. */
  predicate Balanced(n: real, i: real, pv: real, pmt: real, fv: real)
    requires i == 0.0 || IsNatural(n)
  {
    if i == 0.0 then Settles(pv, pmt, fv, 1.0, n)
    else
      var g := Pow(1.0 + i, NatOf(n));
      Settles(pv, pmt, fv, g, (g - 1.0) / i)
  }

  /** The present value grown by `g` and the payments grown by `a` cancel
      the future value. */
  predicate Settles(pv: real, pmt: real, fv: real, g: real, a: real) {
    pv * g + pmt * a + fv == 0.0
  }

  // ---------------------------------------------------------------------
  // Solving for i: the secant method

  /** The cash flows the rate solver sees. */
  datatype Cashflow = Cashflow(n: nat, pv: real, pmt: real, fv: real)

  /** The function the solver drives to zero.  Its payment term carries an
      extra factor `1 + rate / 12` the closed forms do not have. */
  function Residual(c: Cashflow, rate: real): real {
    if rate == 0.0 then c.pv + c.pmt * (c.n as real) + c.fv
    else
      var g := Pow(1.0 + rate, c.n);
      c.pv * g + c.pmt * (1.0 + rate / 12.0) * ((g - 1.0) / rate) + c.fv
  }

  const Tolerance: real := 0.000000001
  const FirstGuess: real := 0.005
  const SecondGuess: real := 0.01
  const MaxIterations: nat := 100

  /** How a run of the solver ends: the residual at the latest guess is
      within tolerance; a step moved the guess by less than the tolerance;
      two guesses had the same residual; or the iterations ran out. */
  datatype SecantOutcome =
    | Converged(rate: real)
    | Settled(rate: real, previous: real)
    | Flat
    | Exhausted

  /** Where the line through `(i0, f0)` and `(i1, f1)` crosses zero. */
  function SecantStep(i0: real, i1: real, f0: real, f1: real): real
    requires f1 - f0 != 0.0
  {
    i1 - f1 * (i1 - i0) / (f1 - f0)
  }

  /** The secant iteration from guesses `i0`, `i1` with `left` rounds to go. */
  function Secant(c: Cashflow, i0: real, i1: real, left: nat): (o: SecantOutcome)
    ensures o.Converged? ==> Abs(Residual(c, o.rate)) < Tolerance
    ensures o.Settled? ==> Abs(o.rate - o.previous) < Tolerance
    ensures left == 0 ==> o.Exhausted?
    decreases left
  {
    if left == 0 then Exhausted
    else
      var f0, f1 := Residual(c, i0), Residual(c, i1);
      if Abs(f1) < Tolerance then Converged(i1)
      else if f1 - f0 == 0.0 then Flat
      else
        var next := SecantStep(i0, i1, f0, f1);
        if Abs(next - i1) < Tolerance then Settled(next, i1)
        else Secant(c, i1, next, left - 1)
  }

  /** `_solve_for_i` as the source writes it: a bounded loop over the two
      latest guesses. */
  method SolveRate(c: Cashflow) returns (o: SecantOutcome)
    ensures o == Secant(c, FirstGuess, SecondGuess, MaxIterations)
    ensures o.Converged? ==> Abs(Residual(c, o.rate)) < Tolerance
  {
    var i0, i1 := FirstGuess, SecondGuess;
    var k := 0;
    while k < MaxIterations
      invariant 0 <= k <= MaxIterations
      invariant Secant(c, i0, i1, MaxIterations - k) == Secant(c, FirstGuess, SecondGuess, MaxIterations)
      decreases MaxIterations - k
    {
      var f0, f1 := Residual(c, i0), Residual(c, i1);
      if Abs(f1) < Tolerance {
        return Converged(i1);
      }
      if f1 - f0 == 0.0 {
        return Flat;
      }
      var next := SecantStep(i0, i1, f0, f1);
      if Abs(next - i1) < Tolerance {
        return Settled(next, i1);
      }
      i0, i1 := i1, next;
      k := k + 1;
    }
    return Exhausted;
  }

  /** The i key's result as a percentage: NaN when `n <= 0` or the solver
      gives up. */
  function RatePercent(f: FinRegs): (r: Num)
    requires f.n.Val?
    requires f.n.r > 0.0 ==> IsNatural(f.n.r) && f.pv.Val? && f.pmt.Val? && f.fv.Val?
    ensures f.n.r <= 0.0 ==> r == NaN
    ensures r.Val? ==> (f.n.r > 0.0 &&
      var o := Secant(Cashflow(NatOf(f.n.r), f.pv.r, f.pmt.r, f.fv.r), FirstGuess, SecondGuess, MaxIterations);
      (o.Converged? || o.Settled?) && r.r == o.rate * 100.0)
  {
    if f.n.r <= 0.0 then NaN
    else
      var c := Cashflow(NatOf(f.n.r), f.pv.r, f.pmt.r, f.fv.r);
      match Secant(c, FirstGuess, SecondGuess, MaxIterations)
      case Converged(rate) => Val(rate * 100.0)
      case Settled(rate, _) => Val(rate * 100.0)
      case _ => NaN
  }

  // ---------------------------------------------------------------------
  // The compute path

  /** A computed value, or a guard that leaves NaN in X and stores nothing. */
  datatype Outcome = Solved(v: Num) | Rejected

  /** The n-solve with interest: `log((PMT - FV i) / (PV i + PMT)) /
      log(1 + i)`, rejected when the ratio is undefined or not positive,
      when `1 + i` has no logarithm, or when that logarithm is zero. */
  function LogPeriods(i: real, pv: real, pmt: real, fv: real, ln: real -> real): (o: Outcome)
    ensures o.Rejected? <==>
      pv * i + pmt == 0.0 || (pmt - fv * i) / (pv * i + pmt) <= 0.0 || 1.0 + i <= 0.0 || ln(1.0 + i) == 0.0
    ensures o.Solved? ==> (o.v.Val? && pv * i + pmt != 0.0 && 1.0 + i > 0.0 &&
      o.v.r * ln(1.0 + i) == ln((pmt - fv * i) / (pv * i + pmt)))
  {
    var num, den := pmt - fv * i, pv * i + pmt;
    if den == 0.0 || num / den <= 0.0 then Rejected
    else if 1.0 + i <= 0.0 || ln(1.0 + i) == 0.0 then Rejected
    else Solved(Val(ln(num / den) / ln(1.0 + i)))
  }

  /** The compute path runs without raising: `0 ** 0`, a number divided by
      zero and an ordering comparison on NaN all raise in the source. */
  predicate Computable(f: FinRegs, k: FinKey) {
    var i := Rate(f);
    match k
    case FV => i == Val(0.0) || GrowthDefined(i, f.n)
    case PMT => i == Val(0.0) || GrowthDefined(i, f.n)
    case PV =>
      i == Val(0.0) ||
      (GrowthDefined(i, f.n) && (Growth(i, f.n) != Val(0.0) || f.fv.NaN? || f.pmt.NaN?))
    case N =>
      i == Val(0.0) ||
      (i.Val? && f.pv.Val? && f.pmt.Val? && (f.fv.Val? || f.pv.r * i.r + f.pmt.r == 0.0))
    case I => f.n.Val? && (f.n.r > 0.0 ==> IsNatural(f.n.r) && f.pv.Val? && f.pmt.Val? && f.fv.Val?)
  }

  /** FV: minus the grown present value and the grown payments. */
  function FutureValue(f: FinRegs): (v: Num)
    requires Computable(f, FV)
    ensures v.NaN? <==> f.n.NaN? || f.i.NaN? || f.pv.NaN? || f.pmt.NaN?
  {
    var i := Rate(f);
    if i == Val(0.0) then Neg(Add(f.pv, Mul(f.pmt, f.n)))
    else Neg(Add(Mul(f.pv, Growth(i, f.n)), Mul(f.pmt, Annuity(i, f.n))))
  }

  /** PV: minus the future value and the grown payments, discounted. */
  function PresentValue(f: FinRegs): (v: Num)
    requires Computable(f, PV)
    ensures v.NaN? <==> f.n.NaN? || f.i.NaN? || f.fv.NaN? || f.pmt.NaN?
  {
    var i := Rate(f);
    if i == Val(0.0) then Neg(Add(f.fv, Mul(f.pmt, f.n)))
    else Div(Neg(Add(f.fv, Mul(f.pmt, Annuity(i, f.n)))), Growth(i, f.n))
  }

  /** PMT: rejected when the payments have nothing to spread over (no
      periods without interest, a zero annuity factor with it). */
  function Payment(f: FinRegs): (o: Outcome)
    requires Computable(f, PMT)
    ensures o.Rejected? <==>
      (Rate(f) == Val(0.0) && f.n == Val(0.0)) || (Rate(f) != Val(0.0) && Annuity(Rate(f), f.n) == Val(0.0))
    ensures o.Solved? ==> (o.v.NaN? <==> f.n.NaN? || f.i.NaN? || f.pv.NaN? || f.fv.NaN?)
  {
    var i := Rate(f);
    if i == Val(0.0) then
      if f.n == Val(0.0) then Rejected else Solved(Div(Neg(Add(f.pv, f.fv)), f.n))
    else
      var a := Annuity(i, f.n);
      if a == Val(0.0) then Rejected else Solved(Div(Neg(Add(Mul(f.pv, Growth(i, f.n)), f.fv)), a))
  }

  /** n: without interest, the balance divided by the payment; with it,
      the logarithmic form.  A zero `PV i + PMT` is tested first, so it
      rejects even a NaN FV, which any later comparison would raise on. */
  function Periods(f: FinRegs, ln: real -> real): (o: Outcome)
    requires Computable(f, N)
    ensures Rate(f) == Val(0.0) ==> (o.Rejected? <==> f.pmt == Val(0.0))
    ensures Rate(f) == Val(0.0) && o.Solved? ==> (o.v.NaN? <==> f.pv.NaN? || f.fv.NaN? || f.pmt.NaN?)
    ensures Rate(f) != Val(0.0) && f.pv.r * Rate(f).r + f.pmt.r == 0.0 ==> o.Rejected?
    ensures Rate(f) != Val(0.0) ==>
      var i := Rate(f).r;
      (o.Rejected? <==>
        f.pv.r * i + f.pmt.r == 0.0 || (f.pmt.r - f.fv.r * i) / (f.pv.r * i + f.pmt.r) <= 0.0 ||
        1.0 + i <= 0.0 || ln(1.0 + i) == 0.0)
    ensures Rate(f) != Val(0.0) && o.Solved? ==>
      var i := Rate(f).r;
      f.fv.Val? && o.v.Val? && f.pv.r * i + f.pmt.r != 0.0 &&
      o.v.r * ln(1.0 + i) == ln((f.pmt.r - f.fv.r * i) / (f.pv.r * i + f.pmt.r))
  {
    var i := Rate(f);
    if i == Val(0.0) then
      if f.pmt == Val(0.0) then Rejected else Solved(Div(Neg(Add(f.pv, f.fv)), f.pmt))
    else if f.pv.r * i.r + f.pmt.r == 0.0 then Rejected
    else LogPeriods(i.r, f.pv.r, f.pmt.r, f.fv.r, ln)
  }

  /** With interest and a NaN FV, n runs only when `PV i + PMT` is zero,
      and then writes NaN to X and no register; any other denominator
      reaches an ordering comparison on NaN. */
  lemma NanFutureValuePeriods(f: FinRegs, x: Num, ln: real -> real)
    requires f.i.Val? && f.i.r != 0.0 && f.pv.Val? && f.pmt.Val? && f.fv.NaN?
    ensures Computable(f, N) <==> f.pv.r * (f.i.r / 100.0) + f.pmt.r == 0.0
    ensures Computable(f, N) ==> FinOp(f, x, N, false, ln) == (f, NaN)
  {
    assert Rate(f) == Val(f.i.r / 100.0) && Rate(f) != Val(0.0);
  }

  /** `_handle_fin_op`'s compute branch for key `k`. */
  function Solve(f: FinRegs, k: FinKey, ln: real -> real): (o: Outcome)
    requires Computable(f, k)
    ensures k == FV || k == PV || k == I ==> o.Solved?
  {
    match k
    case FV => Solved(FutureValue(f))
    case PV => Solved(PresentValue(f))
    case PMT => Payment(f)
    case N => Periods(f, ln)
    case I => Solved(RatePercent(f))
  }

  /** `_handle_fin_op` after the entry is finalized, `x` being X then and
      `typed` whether a number was being typed.  Gives the new registers
      and the new X. */
  function FinOp(f: FinRegs, x: Num, k: FinKey, typed: bool, ln: real -> real): (r: (FinRegs, Num))
    requires !typed ==> Computable(f, k)
    ensures forall j :: j != k ==> Get(r.0, j) == Get(f, j)
    ensures typed ==> Get(r.0, k) == x && r.1 == x
    ensures !typed && Solve(f, k, ln).Rejected? ==> r.0 == f && r.1 == NaN
    ensures !typed && Solve(f, k, ln).Solved? ==> Get(r.0, k) == r.1
  {
    if typed then (Set(f, k, x), x)
    else
      match Solve(f, k, ln)
      case Rejected => (f, NaN)
      case Solved(v) => (Set(f, k, v), v)
  }

  // ---------------------------------------------------------------------
  // Properties of the closed forms

  /** The numbers the closed forms work with. */
  predicate Numeric(f: FinRegs) {
    f.n.Val? && f.i.Val? && f.pv.Val? && f.pmt.Val? && f.fv.Val?
  }

  /** The interest fraction is zero, or the period count is natural. */
  predicate Modelled(f: FinRegs)
    requires Numeric(f)
  {
    f.i.r == 0.0 || IsNatural(f.n.r)
  }

  /** The growth and annuity factors of numeric registers. */
  lemma Factors(f: FinRegs)
    requires Numeric(f) && Modelled(f) && f.i.r != -100.0 && f.i.r != 0.0
    ensures var i := f.i.r / 100.0; var g := Pow(1.0 + i, NatOf(f.n.r));
      Rate(f) == Val(i) && i != 0.0 && 1.0 + i != 0.0 && g != 0.0 &&
      GrowthDefined(Rate(f), f.n) && Growth(Rate(f), f.n) == Val(g) &&
      Annuity(Rate(f), f.n) == Val((g - 1.0) / i)
  {
  }

  /** The growth factor over `n` periods at fraction `i`. */
  function GrowthOf(n: real, i: real): real
    requires IsNatural(n)
  {
    Pow(1.0 + i, NatOf(n))
  }

  /** The future value the closed form gives, on numbers. */
  function FvOf(n: real, i: real, pv: real, pmt: real): real
    requires i == 0.0 || IsNatural(n)
  {
    if i == 0.0 then -(pv + pmt * n)
    else -(pv * GrowthOf(n, i) + pmt * ((GrowthOf(n, i) - 1.0) / i))
  }

  /** The present value the closed form gives, on numbers. */
  function PvOf(n: real, i: real, pmt: real, fv: real): real
    requires i == 0.0 || (IsNatural(n) && i != -1.0)
  {
    if i == 0.0 then -(fv + pmt * n)
    else
      NonzeroGrowth(n, i);
      -(fv + pmt * ((GrowthOf(n, i) - 1.0) / i)) / GrowthOf(n, i)
  }

  lemma NonzeroGrowth(n: real, i: real)
    requires IsNatural(n) && i != -1.0
    ensures GrowthOf(n, i) != 0.0
  {
    assert 1.0 + i != 0.0;
  }

  /** On numeric registers FV computes `FvOf`. */
  lemma FutureValueIs(f: FinRegs)
    requires Numeric(f) && Modelled(f) && f.i.r != -100.0
    ensures Computable(f, FV)
    ensures FutureValue(f) == Val(FvOf(f.n.r, f.i.r / 100.0, f.pv.r, f.pmt.r))
  {
    if f.i.r == 0.0 {
      assert Rate(f) == Val(0.0);
      assert Mul(f.pmt, f.n) == Val(f.pmt.r * f.n.r);
    } else {
      var i := f.i.r / 100.0;
      var g := GrowthOf(f.n.r, i);
      var a := (g - 1.0) / i;
      assert Rate(f) == Val(i);
      assert Growth(Rate(f), f.n) == Val(g);
      assert Annuity(Rate(f), f.n) == Val(a);
      assert Mul(f.pv, Val(g)) == Val(f.pv.r * g);
      assert Mul(f.pmt, Val(a)) == Val(f.pmt.r * a);
    }
  }

  /** On numeric registers PV computes `PvOf`. */
  lemma PresentValueIs(f: FinRegs)
    requires Numeric(f) && Modelled(f) && f.i.r != -100.0
    ensures Computable(f, PV)
    ensures PresentValue(f) == Val(PvOf(f.n.r, f.i.r / 100.0, f.pmt.r, f.fv.r))
  {
    if f.i.r == 0.0 {
      assert Rate(f) == Val(0.0);
      assert Mul(f.pmt, f.n) == Val(f.pmt.r * f.n.r);
    } else {
      var i := f.i.r / 100.0;
      var g := GrowthOf(f.n.r, i);
      var a := (g - 1.0) / i;
      assert Rate(f) == Val(i);
      NonzeroGrowth(f.n.r, i);
      assert Growth(Rate(f), f.n) == Val(g);
      assert Annuity(Rate(f), f.n) == Val(a);
      DiscountedBalance(f.fv, f.pmt, Val(a), Val(g));
    }
  }

  /** The discounting step of the present value on plain numbers. */
  lemma DiscountedBalance(fv: Num, pmt: Num, a: Num, g: Num)
    requires fv.Val? && pmt.Val? && a.Val? && g.Val? && g.r != 0.0
    ensures Div(Neg(Add(fv, Mul(pmt, a))), g) == Val(-(fv.r + pmt.r * a.r) / g.r)
  {
    assert Mul(pmt, a) == Val(pmt.r * a.r);
    assert Neg(Add(fv, Val(pmt.r * a.r))) == Val(-(fv.r + pmt.r * a.r));
  }

  /** `FvOf` is the one future value that balances the rest. */
  lemma FvOfBalances(n: real, i: real, pv: real, pmt: real, fv: real)
    requires i == 0.0 || IsNatural(n)
    ensures fv == FvOf(n, i, pv, pmt) <==> Balanced(n, i, pv, pmt, fv)
  {
  }

  /** `PvOf` is the one present value that balances the rest. */
  lemma PvOfBalances(n: real, i: real, pv: real, pmt: real, fv: real)
    requires i == 0.0 || (IsNatural(n) && i != -1.0)
    ensures pv == PvOf(n, i, pmt, fv) <==> Balanced(n, i, pv, pmt, fv)
  {
    if i != 0.0 {
      NonzeroGrowth(n, i);
      var g := GrowthOf(n, i);
      Discount(pv, pmt, fv, g, (g - 1.0) / i);
    }
  }

  /** Discounting by a nonzero growth factor undoes growing by it. */
  lemma Discount(pv: real, pmt: real, fv: real, g: real, a: real)
    requires g != 0.0
    ensures pv == -(fv + pmt * a) / g <==> Settles(pv, pmt, fv, g, a)
  {
  }

  /** Solving for FV gives the one future value that balances the other
      four registers. */
  lemma SolveFvBalances(f: FinRegs, v: real)
    requires Numeric(f) && Modelled(f) && f.i.r != -100.0
    ensures Computable(f, FV)
    ensures FutureValue(f) == Val(v) <==> Balanced(f.n.r, f.i.r / 100.0, f.pv.r, f.pmt.r, v)
  {
    FutureValueIs(f);
    FvOfBalances(f.n.r, f.i.r / 100.0, f.pv.r, f.pmt.r, v);
  }

  /** Solving for PV gives the one present value that balances the other
      four registers. */
  lemma SolvePvBalances(f: FinRegs, v: real)
    requires Numeric(f) && Modelled(f) && f.i.r != -100.0
    ensures Computable(f, PV)
    ensures PresentValue(f) == Val(v) <==> Balanced(f.n.r, f.i.r / 100.0, v, f.pmt.r, f.fv.r)
  {
    PresentValueIs(f);
    PvOfBalances(f.n.r, f.i.r / 100.0, v, f.pmt.r, f.fv.r);
  }

  /** Whenever PMT is not rejected, the payment it finds balances the
      other four registers. */
  lemma SolvePmtBalances(f: FinRegs)
    requires Numeric(f) && Modelled(f) && f.i.r != -100.0
    ensures Computable(f, PMT)
    ensures Payment(f).Solved? ==>
      Payment(f).v.Val? && Balanced(f.n.r, f.i.r / 100.0, f.pv.r, Payment(f).v.r, f.fv.r)
  {
    if f.i.r != 0.0 {
      var i := f.i.r / 100.0;
      var g := Pow(1.0 + i, NatOf(f.n.r));
      var a := (g - 1.0) / i;
      if a != 0.0 {
        assert Payment(f) == Solved(Val(-(f.pv.r * g + f.fv.r) / a)) by {
          Factors(f);
          assert Mul(f.pv, Val(g)) == Val(f.pv.r * g);
          assert Neg(Add(Val(f.pv.r * g), f.fv)) == Val(-(f.pv.r * g + f.fv.r));
        }
        PaymentBalances(f.pv.r, f.fv.r, g, a, i);
      } else {
        assert Payment(f).Rejected? by {
          Factors(f);
        }
      }
    } else {
      assert Rate(f) == Val(0.0);
      if f.n.r != 0.0 {
        assert Payment(f) == Solved(Val(-(f.pv.r + f.fv.r) / f.n.r));
      }
    }
  }

  lemma PaymentBalances(pv: real, fv: real, g: real, a: real, i: real)
    requires i != 0.0 && a == (g - 1.0) / i && a != 0.0
    ensures pv * g + (-(pv * g + fv) / a) * a + fv == 0.0
  {
  }

  /** Without interest, the period count n finds balances the registers. */
  lemma SolveNWithoutInterest(f: FinRegs, ln: real -> real)
    requires Numeric(f) && f.i.r == 0.0 && f.pmt.r != 0.0
    ensures Computable(f, N)
    ensures Periods(f, ln).Solved? && Periods(f, ln).v.Val?
    ensures Balanced(Periods(f, ln).v.r, 0.0, f.pv.r, f.pmt.r, f.fv.r)
  {
    assert Rate(f) == Val(0.0);
    assert Periods(f, ln) == Solved(Val(-(f.pv.r + f.fv.r) / f.pmt.r));
  }

  /** Computing FV and then, from it, PV gives back the present value
      started with. */
  lemma FvThenPv(f: FinRegs)
    requires Numeric(f) && Modelled(f) && f.i.r != -100.0
    ensures Computable(f, FV) && FutureValue(f).Val?
    ensures var g := Set(f, FV, FutureValue(f));
      Computable(g, PV) && PresentValue(g) == f.pv
  {
    SolveFvBalances(f, 0.0);
    var v := FutureValue(f).r;
    SolveFvBalances(f, v);
    var g := Set(f, FV, Val(v));
    assert g == f.(fv := Val(v));
    SolvePvBalances(g, f.pv.r);
  }

  /** The rate solver's residual is not the relation the closed forms
      solve: one period, PV -100, PMT -10 and FV 120 balance at 10% per
      period, yet the residual there is not zero. */
  lemma ResidualDiffersFromBalance()
    ensures Balanced(1.0, 0.1, -100.0, -10.0, 120.0)
    ensures Residual(Cashflow(1, -100.0, -10.0, 120.0), 0.1) != 0.0
  {
    assert NatOf(1.0) == 1;
    assert Pow(1.1, 1) == 1.1;
  }

  /** Without interest the residual is the balance itself. */
  lemma ResidualAtZero(c: Cashflow)
    ensures Residual(c, 0.0) == 0.0 <==> Balanced(c.n as real, 0.0, c.pv, c.pmt, c.fv)
  {
  }
}
